=== FILE: README.md ===
# ecogram persistence layer in Dafny

This project models the database layer of ecogram, a waste-collection service. It covers the ORM
schema of `db/sql_models.py`, the request bodies of `db/base_models.py`, and the asynchronous CRUD
functions of `db/crud.py`, and it proves properties of the model.

The database is an immutable `Schema.Store`:

- one map from id to row for each entity table: users, couriers, achievements, map points and
  delivery requests;
- one `map<Id, string>` for each of the four single-name tables (role, thrash type, status and
  map), selected by `Schema.Catalog`;
- the three link tables: user–achievement unlocks, map point–thrash type, and delivery
  request–thrash type;
- a counter that draws fresh serial ids.

Every CRUD function is a pure function from a store and its request bodies to a
`Session.Batch`, which holds the store after the call and the reply. The ORM session's
unit of work is modelled directly:

- Each function keeps a working copy of the store while it loops over its items.
- Lookups read the working copy, because autoflush makes staged rows visible.
- Every `except` branch the model reaches rolls back to the starting store. The rollback inside
  `get_map` during `create_map` also keeps the id counter, and so the ids already drawn.
  `delete_achievements` has an `except` branch that only logs and then goes on to commit.
  Achievement titles are unique (`Schema.KeysUnique`), so its `one_or_none` cannot raise, and the
  model treats that branch as unreachable.
- `Session.Commit` enforces the unique constraints of the schema (`Schema.KeysUnique`).
  If a constraint fails, the reply is `Rejected` and the store is unchanged.

Python truthiness on optional filters is modelled as `Wrappers.Given` and `Wrappers.GivenInt`.

ORM delete semantics are modelled explicitly:

- Deleting the parent of a nullable foreign key clears that key on its children.
- Deleting either side of a many-to-many link deletes the link rows.
- `User.achievements` carries `cascade="all, delete"`, so the source's user deletion also
  deletes every achievement linked to the user. This is reported under Findings below.

Two invariants are proved to be preserved by every write operation:

- `Schema.Valid`: the unique keys hold and every foreign key resolves.
- `Schema.FullyLinked`: every user has a link row for every achievement, which is what
  `create_user` and `create_achievements` maintain.

Deleting an achievement also deletes its link rows, because the ORM relationship is declared
through the link table.

## Model

| member | source | states |
|---|---|---|
| Session.Commit | db/crud.py:73-78 | the commit succeeds exactly when the staged store satisfies the unique constraints; on success the staged store and the collected rows are returned, otherwise the starting store is kept and the reply is a rejection |
| Lookup.OneOrNone | db/crud.py:437-450 | `one_or_none()` finds a row exactly when one row matches, reports nothing for no match and an ambiguity for two or more |
| Lookup.GetUser | db/crud.py:97-113 | the id filter wins over username, which wins over phone; the user is found exactly when the chosen filter matches one row, the row carries the filtered value, and with no filter nothing is found |
| Lookup.PhoneFindsUser | db/crud.py:97-113 | under the unique phone constraint, a lookup by a user's non-empty phone finds exactly that user |
| Lookup.GetCourier | db/crud.py:512-528 | same precedence and one-row semantics as the user lookup, over couriers |
| Lookup.PhoneFindsCourier | db/crud.py:512-528 | under the unique phone constraint, a lookup by a courier's non-empty phone finds that courier |
| Lookup.Select | db/crud.py:215-227 | a name filter selects exactly the rows with that name, otherwise an id filter selects that id, and with neither filter every row is returned |
| Lookup.FirstNamed | db/crud.py:67-70 | `result[0]` of a name lookup exists exactly when some row is selected, and it is a row with that name |
| Lookup.GetMap | db/crud.py:437-450 | `one_or_none` over the selection: the map is found exactly when one row is selected, and it is that row, which carries the requested city; no row gives nothing and two or more rows are ambiguous |
| Lookup.GetMapPoint | db/crud.py:629-640 | a point is found exactly when the id is non-zero and present, and it is that id |
| Lookup.GetAchievements | db/crud.py:766-780 | an id filter gives that achievement or nothing, otherwise a title filter gives exactly the rows with that title, otherwise all achievements |
| Lookup.LinkedAchievements | db/crud.py:128-141 | the achievements of a user are exactly the achievements that have a link row to that user |
| Lookup.ResolveKnown | db/crud.py:654-660 | resolving thrash names drops unknown names and keeps only existing ids; it keeps every name exactly when every name is known |
| Lookup.ResolveKnownRepeats | db/crud.py:654-660 | two names that resolve to the same thrash type yield a repeated id, i.e. a duplicate link row |
| Lookup.ResolveAllIsStrictResolveKnown | db/crud.py:1020-1023 | strict resolution succeeds exactly when every name is known, and then agrees with the lenient resolution |
| Dto.ParseUnlock | db/base_models.py:130-140 | an unlock body is accepted exactly when it has a date and `unlocked` is true, and it carries the body's keys and date |
| Catalogs.CreateCatalog | db/crud.py:230-245 | a failed batch leaves the store unchanged; a conflict names one of the requested names; success returns one id per name |
| Catalogs.CreateCatalogConflicts | db/crud.py:303-318 | requesting a name that already exists in a role, thrash type or status table aborts with a conflict and leaves the store unchanged |
| CatalogCreates.CreateCatalogAdds | db/crud.py:378-393 | a successful batch gives the i-th name the i-th fresh id, keeps every old row and adds nothing else, and other tables are unchanged; for maps this holds when the cities are distinct and non-empty |
| CatalogCreates.CreateCatalogFreshIds | db/crud.py:437-468 | the ids a successful create returns are pairwise distinct and name no row the table held before, also after `get_map` rolled back the maps staged earlier in the batch |
| CatalogCreates.CreateCatalogKeepsNamesDistinct | db/crud.py:453-468 | creation keeps the names of a table pairwise distinct (for maps, when the cities are non-empty) |
| CatalogCreates.CreateCatalogNeverRejected | db/crud.py:230-245 | since duplicates are refused before staging, a create never fails at commit |
| CatalogCreates.CreateCatalogKeeps | db/crud.py:230-245 | creation preserves validity and full linkage |
| CatalogUpdates.UpdateCatalog | db/crud.py:248-264 | a failed batch leaves the store unchanged; success returns one id per item |
| CatalogUpdates.UpdateCatalogMissingAborts | db/crud.py:321-338 | an item whose old name is empty and whose old id is absent makes the whole batch roll back |
| CatalogUpdates.UpdateCatalogNameFails | db/crud.py:396-413 | an item whose truthy old name names no row, or two or more rows, makes `.one()` raise and the whole batch roll back, as long as no earlier item renamed a row to that name or renamed one of those rows away |
| CatalogUpdates.UnvalidatedUpdateAborts | db/base_models.py:104-115 | an update body without an old id or old name fails validation, and the whole batch is refused |
| CatalogUpdates.UpdateCatalogRenames | db/crud.py:396-413 | success keeps the set of ids and the other tables, changes only the returned rows, gives every returned row one of the new names, and the last item's name wins |
| CatalogUpdates.UpdateCatalogKeeps | db/crud.py:471-488 | renaming preserves validity and full linkage |
| CatalogDeletes.DeleteCatalog | db/crud.py:267-284 | a failed batch leaves the store unchanged; success returns one id per item |
| CatalogDeletes.DeleteCatalogAborts | db/crud.py:341-359 | an item without a key, or whose id is absent, rolls back the whole batch |
| CatalogDeletes.DeleteCatalogNameFails | db/crud.py:416-434 | an item whose truthy name names no row, or two or more rows, rolls back the whole batch, as long as no earlier item deleted one of those rows by id |
| CatalogDeletes.UnvalidatedDeleteAborts | db/base_models.py:118-127 | a delete body without id or name fails validation and the batch is refused |
| CatalogDeletes.DeleteCatalogRemoves | db/crud.py:416-434 | success removes exactly the returned ids, keeps every other row unchanged, and leaves the other catalogs untouched |
| CatalogDeletes.DeleteCatalogKeeps | db/crud.py:491-509 | deletion clears the referencing foreign keys and link rows, so validity and full linkage are preserved |
| Cascade.RemoveUser | db/sql_models.py:41-55 | deleting a user removes the row and its link rows, clears the user of its delivery requests, and keeps achievements |
| Cascade.RemoveUserKeeps | db/sql_models.py:41-55 | deleting a user preserves resolved references, unique keys and full linkage |
| Cascade.RemoveUserAsWritten | db/sql_models.py:52 | with the `all, delete` cascade, deleting a user also deletes every achievement linked to it, together with those achievements' link rows for all users |
| Cascade.RemoveUserAsWrittenKeeps | db/sql_models.py:52 | the cascading delete still preserves references, keys and full linkage, so the loss of achievements is silent |
| Cascade.RemoveCourier | db/sql_models.py:57-65 | deleting a courier removes the row, clears it from the delivery requests, and leaves everything else unchanged |
| Cascade.RemoveCourierKeeps | db/sql_models.py:57-65 | deleting a courier preserves references, keys and full linkage |
| Cascade.RemoveAchievement | db/sql_models.py:27-32 | deleting an achievement removes the row and exactly its link rows |
| Cascade.RemoveAchievementKeeps | db/sql_models.py:27-32 | deleting an achievement preserves references, keys and full linkage |
| Cascade.RemoveCatalogRow | db/sql_models.py:34-100 | deleting a role, status or map clears the referencing foreign keys; deleting a thrash type drops its link rows; nothing else changes |
| Cascade.RemoveCatalogRowKeeps | db/sql_models.py:34-100 | deleting a catalog row preserves references, keys and full linkage |
| Cascade.RemovePoint | db/sql_models.py:103-109 | deleting a map point removes it and exactly its thrash links, preserving references and keys |
| Cascade.RemoveRequest | db/sql_models.py:82-95 | deleting a delivery request removes it and exactly its thrash links, preserving references and keys |
| Users.UpdateTarget | db/crud.py:49-56 | the old phone wins over the id, which wins over the username; the found user carries the value that selected it |
| Users.UpdateTargetPrefersPhone | db/crud.py:49-50 | under unique phones, an old phone that belongs to a user always selects that user |
| Users.NewRole | db/crud.py:67-70 | a role is assigned only when the role name is given and a role of that name exists, and then it is assigned |
| Users.PatchedUser | db/crud.py:57-70 | each column changes only when its field is truthy, and then takes that value; phone and username need both the old and new values; the password never changes |
| Users.UpdateUsersSkipsUntargeted | db/crud.py:55-56 | items without an old phone, id or username are skipped, and the result is as if they were absent |
| Users.UpdateUsersMissingAborts | db/crud.py:73-76 | an item that names an absent user id makes the whole batch roll back with no result |
| Users.UpdateUsersTouchesListed | db/crud.py:45-78 | a committed update keeps the set of user ids, and every user the call does not return is unchanged |
| Users.UpdateUsersKeeps | db/crud.py:45-78 | updating users preserves validity and full linkage |
| Users.DeleteUsersKeylessAborts | db/crud.py:85-86 | an item without id, username or phone ends the call with no result and no commit |
| Users.DeleteUsersMissRestarts | db/crud.py:87-93 | an item that finds no user in the store the loop holds when it reaches it (by id, username or phone, or because an earlier item already deleted that user) rolls back the earlier deletions, and the loop continues as if it started after that item |
| Users.DeleteUsersUnknownIdRestarts | db/crud.py:87-93 | in particular, an id that names no user of the starting store restarts the batch wherever it stands |
| Users.DeleteUsersLastMissKeepsAll | db/crud.py:87-94 | when the last item misses in the loop's store, the call still succeeds but deletes nothing |
| Users.DeleteUsersRepeatedIdKeepsUser | db/crud.py:87-94 | naming one user twice rolls the delete back, yet the reply still lists that user as deleted |
| Users.DeleteUsersRemoves | db/crud.py:81-94 | successful deletion only removes users, all of them returned, keeps the remaining rows and, in the corrected cascade, every achievement |
| Users.DeleteUsersKeeps | db/crud.py:81-94 | deleting users preserves validity and full linkage |
| Users.Sync | db/crud.py:144-163 | synchronising a user adds a locked link for exactly the achievements it lacks, keeps every existing link, and leaves the user linked to every achievement |
| Users.SyncIdempotent | db/crud.py:144-163 | a second synchronisation of the same user finds nothing to add |
| Users.SyncKeeps | db/crud.py:144-163 | synchronisation preserves references, keys and full linkage |
| Users.SyncEachLinks | db/crud.py:144-163 | synchronising users one after another gives the unique store linked from the start for exactly those users |
| Users.SyncAll | db/crud.py:144-163 | synchronising every user makes the store fully linked |
| Users.SyncEachIsSyncAll | db/crud.py:144-163 | synchronising each user in any order is the same as synchronising all of them at once |
| Users.LinkUserKeeps | db/crud.py:116-125 | linking a new user to every achievement keeps references and keys, and completes full linkage exactly when every other user was already linked |
| Users.CreateUser | db/crud.py:188-212 | without a basic-user role nothing changes; a created user gets the next id, every field of the payload and the first basic-user role, and is linked to every achievement; every other user and every table but the users and links is unchanged |
| Users.CreateUserDuplicate | db/crud.py:188-212 | a phone or username that already exists makes the call return nothing and keep the store |
| Users.CreateUserKeeps | db/crud.py:188-212 | creation preserves validity, and full linkage whenever the phone is non-empty |
| Users.UpdateUnlocksOnlyUnlocks | db/crud.py:166-185 | a successful unlock batch changes only the returned links, and each of them is unlocked with a date |
| Users.UpdateUnlocksKeeps | db/crud.py:166-185 | unlocking preserves validity and full linkage |
| Achievements.CreateAchievements | db/crud.py:783-807 | a failed batch keeps the store; success leaves every user linked to every achievement and changes no user, request or point |
| Achievements.CreateAchievementsConflicts | db/crud.py:787-789 | a title that already exists aborts with a conflict and keeps the store |
| Achievements.CreateAchievementsAdds | db/crud.py:783-807 | success gives the i-th body the i-th fresh id, keeps every old achievement and adds nothing else |
| Achievements.CreateAchievementsKeeps | db/crud.py:783-807 | creation preserves validity |
| Achievements.PatchedAchievement | db/crud.py:821-823 | the description is always overwritten, and the title changes only for a truthy new title |
| Achievements.UpdateAchievementsTouchesListed | db/crud.py:810-831 | a successful update changes only the returned achievements |
| Achievements.UpdateAchievementsClearsDescription | db/crud.py:823 | an update without a description clears the stored description |
| Achievements.UpdateAchievementsSetsDescriptions | db/crud.py:810-831 | for a batch naming achievements by id, a successful update leaves each achievement with the description of the last item naming it (none when that item has none), and every achievement no item names as it was |
| Achievements.UpdateAchievementsDescribes | db/crud.py:821-825 | whatever the selection, an achievement an update changes carries the description of one of the items |
| Achievements.UpdateAchievementsKeeps | db/crud.py:810-831 | updating achievements preserves validity and full linkage |
| Achievements.DeleteAchievementsRemoves | db/crud.py:834-852 | success removes exactly the returned achievements, keeps the others unchanged, drops their link rows, and keeps every other link row as it was |
| Achievements.DeleteAchievementsSkipsKeyless | db/crud.py:838-839 | items with neither id nor title are skipped, and the result is as if they were absent |
| Achievements.DeleteAchievementsKeeps | db/crud.py:834-852 | deleting achievements preserves validity and full linkage |
| Couriers.CreateCourier | db/crud.py:531-545 | a failed call keeps the store; a created courier gets the next id, the courier role and every field of the payload, and other couriers are unchanged |
| Couriers.CreateCourierSucceedsIff | db/crud.py:531-545 | creation succeeds exactly when neither the phone nor the username is taken |
| Couriers.CreateCourierKeeps | db/crud.py:531-545 | creation preserves validity and full linkage |
| Couriers.CourierTarget | db/crud.py:581-587 | the courier to update is the one selected by phone, else by username, and carries that value |
| Couriers.CourierTargetFinds | db/crud.py:583-587 | under unique keys, a phone or username that belongs to a courier selects that courier |
| Couriers.PatchedCourier | db/crud.py:588-601 | each column changes only when its field is truthy, and then takes that value; password and role never change |
| Couriers.UpdateCouriersTouchesListed | db/crud.py:577-609 | a successful update changes only the returned couriers |
| Couriers.UpdateCouriersKeeps | db/crud.py:577-609 | updating couriers preserves validity and full linkage |
| Couriers.DeleteCouriersAborts | db/crud.py:612-626 | an item without id or phone, or with an absent id, rolls back the whole batch |
| Couriers.DeleteCouriersRemoves | db/crud.py:612-626 | success removes exactly the returned couriers and clears them from delivery requests, leaving other rows unchanged |
| Couriers.DeleteCouriersKeeps | db/crud.py:612-626 | deleting couriers preserves validity and full linkage |
| MapPoints.MapOf | db/crud.py:649-653 | a point is placed on a map only when exactly one map has the city |
| MapPoints.CreateMapPoint | db/crud.py:643-671 | creation succeeds exactly when the keys are unique and no thrash type is named twice; the point gets the next id and nothing else changes but its links |
| MapPoints.CreateMapPointLinks | db/crud.py:654-660 | the new point is linked to exactly the thrash types whose names it lists, and old links are kept |
| MapPoints.CreateMapPointRepeatedName | db/crud.py:654-660 | a known thrash name listed twice makes the commit fail and nothing is created |
| MapPoints.CreateMapPointKeeps | db/crud.py:643-671 | creation preserves validity and full linkage |
| MapPoints.PatchedPoint | db/crud.py:714-727 | each column changes only when its field is truthy, and then takes that value; the map is not changed by this step |
| MapPoints.UpdateMapPointsAsWritten | db/crud.py:705-746 | the update as written changes point rows only, never the point–thrash links |
| MapPoints.UpdateMapPointsAsWrittenIgnoresThrash | db/crud.py:732-738 | an update that lists accepted thrash types returns the point but leaves its accepted types as they were |
| MapPoints.UpdateMapPoints | db/crud.py:705-746 | a failed batch keeps the store, and only point rows and point–thrash links can change |
| MapPoints.UpdateMapPointsSetsThrash | db/crud.py:732-738 | for a one-item update without a city, the corrected update links the point to exactly the listed known thrash types |
| MapPoints.UpdateMapPointsLastThrashWins | db/crud.py:705-746 | in a committed batch of the corrected update whose cities never match two or more maps, the last item that lists thrash types for a point decides exactly which known types it accepts; a point no such item names keeps its types |
| MapPoints.UpdateMapPointsTouchesListed | db/crud.py:705-746 | a successful update changes only the returned points and their links |
| MapPoints.UpdateMapPointsKeeps | db/crud.py:705-746 | updating map points preserves validity and full linkage |
| MapPoints.DeleteMapPointsAborts | db/crud.py:753-761 | an absent or falsy id ends the call with a rollback and no result |
| MapPoints.DeleteMapPointsRemoves | db/crud.py:749-763 | success removes exactly the returned points and their links, leaving other points unchanged |
| MapPoints.DeleteMapPointsKeeps | db/crud.py:749-763 | deleting map points preserves validity and full linkage |
| Requests.PatchedRequest | db/crud.py:956-973 | address, date and price change only when given, and then take the given values; status, courier and user move only to a row found by the given name or phone |
| Requests.UpdateRequestsReply | db/crud.py:945-982 | the update succeeds exactly when the keys are unique and every listed id exists, and it returns the listed ids in order |
| Requests.UpdateRequestsTouchesListed | db/crud.py:945-982 | a successful update changes only the returned requests |
| Requests.PatchedRequestResolves | db/crud.py:960-971 | a patched request still references only existing users, couriers and statuses |
| Requests.UpdateRequestsKeeps | db/crud.py:945-982 | updating requests preserves validity and full linkage |
| Requests.DeleteRequestsRemoves | db/crud.py:985-1002 | deletion succeeds exactly when the keys are unique; it removes exactly the existing named requests and their thrash links, and returns them |
| Requests.DeleteRequestsKeeps | db/crud.py:985-1002 | deleting requests preserves validity and full linkage |
| Requests.CreateRequestAsWritten | db/crud.py:1005-1030 | as written, a request is created only when a pending status exists and every thrash name is known |
| Requests.CreateRequestNeedsPending | db/crud.py:1017-1019 | without a pending status the code as written creates nothing, while the corrected version creates the request with no status |
| Requests.CreateRequestUnknownThrash | db/crud.py:1020-1023 | an unknown thrash name makes the code as written create nothing, while the corrected version skips the name |
| Requests.CreateRequest | db/crud.py:1005-1030 | creation succeeds exactly when a user or courier is found by phone, the keys are unique and no thrash type repeats; the request gets the next id, the pending status if any, and the found user and courier |
| Requests.CreateRequestLinks | db/crud.py:1020-1023 | the new request is linked to exactly the known thrash types it names, and old links are kept |
| Requests.CreateRequestAgrees | db/crud.py:1005-1030 | when a pending status exists and every thrash name is known, the code as written and the corrected version agree |
| Requests.CreateRequestKeeps | db/crud.py:1005-1030 | creation preserves validity and full linkage |
| Requests.CreateRequestAsWrittenKeeps | db/crud.py:1005-1030 | the code as written also preserves validity and full linkage |
| Filters.GetUsersAsWritten | db/crud.py:20-42 | an identity filter delegates to the single-user lookup; an unknown role fails; as written, `birthday_to` keeps only users born on or after the bound |
| Filters.GetUsersBirthdayTo | db/crud.py:32-33 | a user born before the upper bound is dropped as written and kept by the corrected query |
| Filters.GetUsers | db/crud.py:20-42 | an identity filter delegates to the single-user lookup; an unknown role fails; the rows lie between the birthday bounds and carry the requested role |
| Filters.GetUsersIdentityFirst | db/crud.py:24-25 | with an identity filter the other filters are ignored |
| Filters.GetUsersFinds | db/crud.py:26-36 | a user is listed exactly when it meets every given filter |
| Filters.GetUsersAll | db/crud.py:20-42 | with no filter every user is listed |
| Filters.GetCouriersAsWritten | db/crud.py:548-574 | as written, `delivery_count_to` keeps only couriers with at least that many deliveries |
| Filters.GetCouriersDeliveryCountTo | db/crud.py:559-560 | a courier below the upper delivery bound is dropped as written and kept by the corrected query |
| Filters.GetCouriers | db/crud.py:548-574 | an identity filter delegates to the single-courier lookup; otherwise the listed couriers lie within every given bound |
| Filters.GetCouriersFinds | db/crud.py:548-574 | a courier is listed exactly when it meets every given filter |
| Filters.CityMap | db/crud.py:693-696 | the city filter applies only when exactly one map has that city |
| Filters.GetMapPoints | db/crud.py:674-702 | an id filter gives that point or nothing; otherwise the points listed lie on the requested city's map when the city is known |
| Filters.GetMapPointsFinds | db/crud.py:681-696 | without an id filter, a point is listed exactly when its phone, email, title, website, address and coordinates match every given filter and, when exactly one map has the given city, it lies on that map |
| Filters.GetMapPointsUnknownCity | db/crud.py:693-696 | a city not matched by exactly one map is ignored |
| Filters.GetMapPointsAll | db/crud.py:674-702 | with no filter every point is listed |
| Filters.GetDeliveryRequests | db/crud.py:888-942 | the listed requests have the requested id, dates within the bounds, a thrash type of the requested name and the requested status |
| Filters.GetDeliveryRequestsIgnoresAddress | db/base_models.py:320-333 | the address filter of the request body never changes the result |
| Filters.GetDeliveryRequestsAll | db/crud.py:888-942 | with no filter every request is listed |
| Filters.GetDeliveryRequestsFinds | db/crud.py:889-936 | a request is listed exactly when every given filter holds of it: id, date bounds, a linked thrash type and a status of the given names, and the courier and user columns; a NULL courier, user or status fails the filters on its columns |

## Left out

- Logging, `async`, the HTTP layer and `session.refresh` are not modelled. The database server is
  the immutable store.
- The single `nextId` counter stands in for the per-table Postgres sequences, and the model does
  not claim which ids a real database hands out. A call that fails returns the store as it was,
  counter included, so the next call can hand out ids that the failed one drew. Postgres
  sequences are not rolled back. Inside one `create_map` batch the rollback in `get_map` keeps the
  counter, so the ids of one reply never repeat (`CatalogCreates.CreateCatalogFreshIds`).
- Unique constraints are checked at commit only. Postgres checks them per statement, and every
  lookup in a loop autoflushes the staged rows first. So a batch whose intermediate states break a
  unique constraint but whose final state does not succeeds in the model, while the source gets an
  `IntegrityError` at the autoflush. An example is a role update that swaps the names of two
  roles. `update_user` and the four catalog updates then return None. The loops of
  `update_couriers` and `update_achievements` catch the error instead: `get_courier` rolls back and
  returns None, and the achievement loop rolls back and continues. Both then commit and return a
  list of the items seen, while the model returns every item with all edits applied.
- Phone-number normalisation and validation (`check_phone_number`) and password hashing are left
  out. Phones and passwords are opaque strings.
- Dates, datetimes, the float salary and coordinates are integers. Only their order and equality
  are used.
- Row projection is not modelled. `get_users` and `get_delivery_requests` select columns through
  joins. The model returns row ids, and a one-to-many join's fan-out collapses into a set.
- `get_point_thrash` (db/crud.py:855-885) is not part of this model. It is a read-only join
  reporting the same link rows that `Filters.GetMapPoints` and `MapPoints.CreateMapPointLinks`
  describe.
- `price` on the `DeliveryRequest` table, on DeliveryRequestCreate and on
  DeliveryRequestUpdate, and `thrash_types` on DeliveryRequestCreate: the crud code reads these
  fields, but they are not declared. The table (db/sql_models.py:80-95) and its base class
  (db/base_models.py:308-310) have no price column. The model adds the fields to
  `Schema.DeliveryRequest` and to the bodies, as the code intends. As written, the three calls
  fail at the missing attribute:
  - `get_delivery_requests` selects `DeliveryRequest.price` (db/crud.py:893), so it fails on
    every call.
  - `update_delivery_requests` reads `req.price` (db/crud.py:972), so it fails once an item
    names an existing request.
  - `create_delivery_request` sets `request_to_create.price = request.price` (db/crud.py:1016),
    so it fails once a user or courier is found.
- CatalogCreates.CreateCatalogAdds: for maps it requires distinct, non-empty cities. Otherwise
  `get_map` can find two maps, roll back the maps staged so far and go on, so the batch no longer
  adds one row per name. `CatalogCreates.CreateCatalogFreshIds` still holds on that path.
- Catalogs.CreateCatalogConflicts: stated for role, thrash type and status only. A map has no
  unique city, so its duplicate check goes through `one_or_none` and is covered by
  `Lookup.GetMap`.
- CatalogCreates.CreateCatalogKeepsNamesDistinct: for maps it requires non-empty cities. An empty city
  is falsy, so the duplicate check does not look it up.
- Users.CreateUserKeeps: full linkage is promised only for a non-empty phone. The code links a
  new user by looking the user up by phone, and an empty phone finds nobody.
- Users.DeleteUsersRemoves: states the corrected cascade. The source's cascade is
  `Cascade.RemoveUserAsWritten`, listed under Findings.
- The `except` branches that the model treats as unreachable are left out: `update_couriers`,
  `update_map_points` after the id check, `delete_delivery_requests` and `delete_achievements`.
  Their lookups return a row or are guarded.
- MapPoints.UpdateMapPointsSetsThrash: the corrected update links each thrash type at most once,
  because repeated names are collapsed into a set. This lemma covers one item without a city.
  `MapPoints.UpdateMapPointsLastThrashWins` covers batches.
- MapPoints.UpdateMapPointsLastThrashWins: stated for batches whose cities never match two or more
  maps. Such a city makes `get_map` roll back the session, which discards the links staged by
  earlier items.
- Filters.GetDeliveryRequests: the address filter is accepted but never applied, as in the code.
  `Filters.GetDeliveryRequestsIgnoresAddress` states this.
- Lookup.GetUser and Lookup.GetCourier: an ambiguous match gives `None`. In the source,
  `one_or_none` raises, and the exception is caught inside the same function.

## Findings

| source | as written | input that shows it | evidently intended | confidence | as-written member | corrected member |
|---|---|---|---|---|---|---|
| db/sql_models.py:52 | `User.achievements` declares `cascade="all, delete"` on the many-to-many link | delete any user who has a link row to an achievement, which `create_user` gives every user | delete only the user's link rows | not executed | Cascade.RemoveUserAsWritten | Cascade.RemoveUser |
| db/crud.py:32-33 | `User.birthday >= birthday_filter_to` | a user born on day 5, with `birthday_filter_to` = day 10 | `<=` for an upper bound | not executed | Filters.GetUsersBirthdayTo | Filters.GetUsers |
| db/crud.py:559-560 | `Courier.delivery_count >= delivery_count_to` | a courier with 3 deliveries, with `delivery_count_to` = 10 | `<=` for an upper bound | not executed | Filters.GetCouriersDeliveryCountTo | Filters.GetCouriers |
| db/crud.py:732-738 | the resolved thrash list is assigned to the request body, not to the point | update an existing point with `accepted_thrash` = a known thrash name | replace the point's accepted thrash types | not executed | MapPoints.UpdateMapPointsAsWrittenIgnoresThrash | MapPoints.UpdateMapPointsSetsThrash |
| db/crud.py:1017-1019 | `request_status is not None` on a list, then `[0]` | no status named "в ожидании" exists, so the list is empty, `[0]` raises, and nothing is created | a truthiness test, creating the request with no status | not executed | Requests.CreateRequestNeedsPending | Requests.CreateRequest |
| db/crud.py:1020-1023 | `thrash_obj is not None` on a list, then `[0]` | a thrash name with no matching row | skip unknown thrash names | not executed | Requests.CreateRequestUnknownThrash | Requests.CreateRequest |

=== FILE: achievements.dfy ===
/** The achievement table (db/crud.py:783-852): create_achievements,
    update_achievements and delete_achievements. */
module Achievements {
  import opened Wrappers
  import opened Schema
  import opened Session
  import opened Lookup
  import opened Cascade
  import opened Dto
  import opened Users

  // ---------------------------------------------------------------------
  // create_achievements (db/crud.py:783-807)
  // ---------------------------------------------------------------------

  function NewAchievement(a: AchievementCreate): Achievement {
    Achievement(a.title, a.description)
  }

  /** The duplicate check queries through the session, so it sees the rows
      staged by earlier items; a falsy title selects every achievement. A
      duplicate returns the 400 error at once, with nothing committed. */
  function CreateLoop(s: Store, w: Store, items: seq<AchievementCreate>, out: seq<Id>): (b: Batch<Id>)
    requires w == s.(achievements := w.achievements, nextId := w.nextId)
    decreases |items|
    ensures !b.reply.Done? ==> b.store == s
    ensures b.store == s.(achievements := b.store.achievements, nextId := b.store.nextId)
  {
    if items == [] then Commit(s, w, out)
    else
      var a := items[0];
      if GetAchievements(w, None, Some(a.title)) != {} then Batch(s, Conflict(a.title))
      else
        var i := w.nextId;
        CreateLoop(s, w.(achievements := w.achievements[i := NewAchievement(a)], nextId := i + 1),
                   items[1..], out + [i])
  }

  /** create_achievements: after the commit every user is synced, so
      every user ends up linked to every achievement (SyncEachIsSyncAll
      shows the order of the users does not matter). */
  function CreateAchievements(s: Store, items: seq<AchievementCreate>): (b: Batch<Id>)
    ensures !b.reply.Done? ==> b.store == s
    ensures b.reply.Done? ==> FullyLinked(b.store)
    ensures b.store.users == s.users && b.store.requests == s.requests && b.store.points == s.points
  {
    var c := CreateLoop(s, s, items, []);
    if c.reply.Done? then Batch(SyncAll(c.store), c.reply) else c
  }

  /** Why an item is refused: its title is already stored (or staged by an
      earlier item), or it is falsy while some achievement exists. */
  predicate Clashes(w: Store, items: seq<AchievementCreate>, k: nat)
    requires k < |items|
  {
    var t := items[k].title;
    || (exists v :: v in w.achievements && w.achievements[v].title == t)
    || (exists j :: 0 <= j < k && items[j].title == t)
    || (t == "" && (w.achievements != map[] || k > 0))
  }

  lemma {:induction false} CreateLoopConflicts(s: Store, w: Store, items: seq<AchievementCreate>, out: seq<Id>, k: nat)
    requires w == s.(achievements := w.achievements, nextId := w.nextId)
    requires Below(w.achievements, w.nextId)
    requires k < |items| && Clashes(w, items, k)
    ensures CreateLoop(s, w, items, out).reply.Conflict?
    ensures CreateLoop(s, w, items, out).store == s
    decreases |items|
  {
    var a := items[0];
    if GetAchievements(w, None, Some(a.title)) == {} {
      var t := items[k].title;
      if k == 0 {
        assert false;
      }
      var i := w.nextId;
      var w' := w.(achievements := w.achievements[i := NewAchievement(a)], nextId := i + 1);
      var rest := items[1..];
      assert rest[k - 1] == items[k];
      if exists j :: 0 <= j < k && items[j].title == t {
        var j :| 0 <= j < k && items[j].title == t;
        if j == 0 {
          assert w'.achievements[i].title == t;
        } else {
          assert rest[j - 1].title == t;
        }
      } else if exists v :: v in w.achievements && w.achievements[v].title == t {
        var v :| v in w.achievements && w.achievements[v].title == t;
        assert v in w'.achievements && w'.achievements[v].title == t;
      } else {
        assert w'.achievements != map[] by { assert i in w'.achievements; }
      }
      CreateLoopConflicts(s, w', rest, out + [i], k - 1);
    }
  }

  /** A title that is already taken, repeated within the batch, or empty
      while the table is not, makes the call answer with a conflict and
      store nothing. */
  lemma CreateAchievementsConflicts(s: Store, items: seq<AchievementCreate>, k: nat)
    requires IdsDrawn(s)
    requires k < |items| && Clashes(s, items, k)
    ensures CreateAchievements(s, items).reply.Conflict?
    ensures CreateAchievements(s, items).store == s
  {
    CreateLoopConflicts(s, s, items, [], k);
  }

  /** The rows staged by the items `all[..|out|]`, numbered from `start`. */
  predicate StagedFrom(w: Store, start: int, all: seq<AchievementCreate>, out: seq<Id>)
    requires |out| <= |all|
  {
    && w.nextId == start + |out|
    && forall j :: 0 <= j < |out| ==>
         out[j] == start + j && out[j] in w.achievements && w.achievements[out[j]] == NewAchievement(all[j])
  }

  lemma StageAdds(s: Store, w: Store, all: seq<AchievementCreate>, out: seq<Id>, i: Id, w': Store)
    requires |out| < |all| && StagedFrom(w, s.nextId, all, out)
    requires forall a :: a in s.achievements ==> a in w.achievements && w.achievements[a] == s.achievements[a]
    requires forall a :: a in w.achievements ==> a in s.achievements || a in Elems(out)
    requires Below(s.achievements, s.nextId)
    requires i == w.nextId
    requires w' == w.(achievements := w.achievements[i := NewAchievement(all[|out|])], nextId := i + 1)
    ensures StagedFrom(w', s.nextId, all, out + [i])
    ensures forall a :: a in s.achievements ==> a in w'.achievements && w'.achievements[a] == s.achievements[a]
    ensures forall a :: a in w'.achievements ==> a in s.achievements || a in Elems(out + [i])
  {
    var out' := out + [i];
    assert Elems(out') == Elems(out) + {i};
    assert i !in s.achievements;
    forall j | 0 <= j < |out'|
      ensures out'[j] == s.nextId + j && out'[j] in w'.achievements && w'.achievements[out'[j]] == NewAchievement(all[j])
    {
      if j < |out| {
        assert out'[j] == out[j];
        assert out[j] < i;
      }
    }
  }

  lemma {:induction false} CreateLoopAdds(s: Store, w: Store, all: seq<AchievementCreate>, out: seq<Id>)
    requires w == s.(achievements := w.achievements, nextId := w.nextId)
    requires |out| <= |all| && StagedFrom(w, s.nextId, all, out)
    requires forall a :: a in s.achievements ==> a in w.achievements && w.achievements[a] == s.achievements[a]
    requires forall a :: a in w.achievements ==> a in s.achievements || a in Elems(out)
    requires Below(s.achievements, s.nextId)
    ensures var b := CreateLoop(s, w, all[|out|..], out);
      b.reply.Done? ==>
        && |b.reply.items| == |all|
        && StagedFrom(b.store, s.nextId, all, b.reply.items)
        && (forall a :: a in s.achievements ==> a in b.store.achievements && b.store.achievements[a] == s.achievements[a])
        && (forall a :: a in b.store.achievements ==> a in s.achievements || a in Elems(b.reply.items))
    decreases |all| - |out|
  {
    var items := all[|out|..];
    if items != [] {
      var a := items[0];
      assert a == all[|out|];
      if GetAchievements(w, None, Some(a.title)) == {} {
        var i := w.nextId;
        var w' := w.(achievements := w.achievements[i := NewAchievement(a)], nextId := i + 1);
        var out' := out + [i];
        assert all[|out'|..] == items[1..];
        assert CreateLoop(s, w, items, out) == CreateLoop(s, w', items[1..], out');
        StageAdds(s, w, all, out, i, w');
        CreateLoopAdds(s, w', all, out');
      }
    } else {
      assert |out| == |all|;
      assert CreateLoop(s, w, items, out) == Commit(s, w, out);
    }
  }

  /** A committed create stores item j under id `nextId + j` with the
      item's title and description, keeps every earlier achievement as it
      was, and adds nothing else. */
  lemma CreateAchievementsAdds(s: Store, items: seq<AchievementCreate>)
    requires IdsDrawn(s)
    ensures var b := CreateAchievements(s, items);
      b.reply.Done? ==>
        && |b.reply.items| == |items|
        && (forall j :: 0 <= j < |items| ==>
              b.reply.items[j] == s.nextId + j && b.reply.items[j] in b.store.achievements
              && b.store.achievements[b.reply.items[j]] == NewAchievement(items[j]))
        && (forall a :: a in s.achievements ==> a in b.store.achievements && b.store.achievements[a] == s.achievements[a])
        && (forall a :: a in b.store.achievements ==> a in s.achievements || a in Elems(b.reply.items))
  {
    assert items[0..] == items;
    CreateLoopAdds(s, s, items, []);
  }

  lemma {:induction false} CreateLoopKeeps(s: Store, w: Store, items: seq<AchievementCreate>, out: seq<Id>)
    requires w == s.(achievements := w.achievements, nextId := w.nextId)
    requires Valid(s) && RefsResolve(w)
    ensures Valid(CreateLoop(s, w, items, out).store)
    decreases |items|
  {
    if items != [] {
      var a := items[0];
      if GetAchievements(w, None, Some(a.title)) == {} {
        var i := w.nextId;
        CreateLoopKeeps(s, w.(achievements := w.achievements[i := NewAchievement(a)], nextId := i + 1),
                        items[1..], out + [i]);
      }
    }
  }

  lemma CreateAchievementsKeeps(s: Store, items: seq<AchievementCreate>)
    requires Valid(s)
    ensures Valid(CreateAchievements(s, items).store)
  {
    CreateLoopKeeps(s, s, items, []);
    SyncAllKeeps(CreateLoop(s, s, items, []).store);
  }

  // ---------------------------------------------------------------------
  // update_achievements (db/crud.py:810-831)
  // ---------------------------------------------------------------------

  function TitleSel(w: Store, t: string): set<Id> {
    set a | a in w.achievements && w.achievements[a].title == t
  }

  /** `Achievement.id == id`: a missing id compares with NULL and a zero id
      is never stored, so both select nothing. */
  function IdSel(w: Store, id: Option<int>): (sel: set<Id>)
    ensures sel <= w.achievements.Keys && |sel| <= 1
    ensures forall a :: a in sel <==> id == Some(a) && a in w.achievements
  {
    if id.Some? && id.value in w.achievements then {id.value as Id} else {}
  }

  /** The row an update or delete item selects: by title when truthy, else by id. */
  function ItemSel(w: Store, title: Option<string>, id: Option<int>): set<Id> {
    if Given(title) then TitleSel(w, title.value) else IdSel(w, id)
  }

  /** One item on one achievement: the title changes only to a truthy new
      title, and the description is always overwritten, by None when the
      item has none. */
  function PatchedAchievement(was: Achievement, u: AchievementUpdate): (now: Achievement)
    ensures now.description == u.description
    ensures now.title != was.title ==> Given(u.newTitle)
    ensures Given(u.newTitle) ==> now.title == u.newTitle.value
  {
    Achievement(if Given(u.newTitle) then u.newTitle.value else was.title, u.description)
  }

  /** No match skips the item; more than one raises, which rolls back the
      items staged so far and goes on; the commit at the end is outside
      any `try`, so a duplicate title fails the call. */
  function UpdateLoop(s: Store, w: Store, items: seq<AchievementUpdate>, out: seq<Id>): (b: Batch<Id>)
    requires w == s.(achievements := w.achievements) && w.achievements.Keys == s.achievements.Keys
    decreases |items|
    ensures !b.reply.Done? ==> b.store == s
    ensures b.store == s.(achievements := b.store.achievements)
    ensures b.store.achievements.Keys == s.achievements.Keys
  {
    if items == [] then Commit(s, w, out)
    else
      var u := items[0];
      match OneOrNone(ItemSel(w, u.oldTitle, u.id))
      case Absent => UpdateLoop(s, w, items[1..], out)
      case Ambiguous => UpdateLoop(s, s, items[1..], out)
      case Found(a) =>
        UpdateLoop(s, w.(achievements := w.achievements[a := PatchedAchievement(w.achievements[a], u)]),
                   items[1..], out + [a])
  }

  /** update_achievements changes no other table and no achievement id. */
  function UpdateAchievements(s: Store, items: seq<AchievementUpdate>): (b: Batch<Id>)
    ensures !b.reply.Done? ==> b.store == s
    ensures b.store == s.(achievements := b.store.achievements)
    ensures b.store.achievements.Keys == s.achievements.Keys
  {
    UpdateLoop(s, s, items, [])
  }

  lemma {:induction false} UpdateLoopTouches(s: Store, w: Store, items: seq<AchievementUpdate>, out: seq<Id>)
    requires w == s.(achievements := w.achievements) && w.achievements.Keys == s.achievements.Keys
    requires forall a :: a in w.achievements && a !in Elems(out) ==> w.achievements[a] == s.achievements[a]
    ensures var b := UpdateLoop(s, w, items, out);
      b.reply.Done? ==>
        forall a :: a in b.store.achievements && a !in Elems(b.reply.items) ==>
          b.store.achievements[a] == s.achievements[a]
    decreases |items|
  {
    if items != [] {
      var u := items[0];
      match OneOrNone(ItemSel(w, u.oldTitle, u.id))
      case Absent => UpdateLoopTouches(s, w, items[1..], out);
      case Ambiguous => UpdateLoopTouches(s, s, items[1..], out);
      case Found(a) =>
        assert Elems(out + [a]) == Elems(out) + {a};
        UpdateLoopTouches(s, w.(achievements := w.achievements[a := PatchedAchievement(w.achievements[a], u)]),
                          items[1..], out + [a]);
    }
  }

  /** Only the achievements the call returns can differ afterwards. */
  lemma UpdateAchievementsTouchesListed(s: Store, items: seq<AchievementUpdate>)
    ensures var b := UpdateAchievements(s, items);
      b.reply.Done? ==>
        forall a :: a in b.store.achievements && a !in Elems(b.reply.items) ==>
          b.store.achievements[a] == s.achievements[a]
  {
    UpdateLoopTouches(s, s, items, []);
  }

  /** A one-item update naming an achievement by id, with no description,
      erases the stored description (and keeps the title unless a new one
      is given). */
  lemma UpdateAchievementsClearsDescription(s: Store, a: Id, newTitle: Option<string>)
    requires KeysUnique(s) && a in s.achievements
    ensures var b := UpdateAchievements(s, [AchievementUpdate(Some(a), None, newTitle, None)]);
      b.reply.Done? ==> b.store.achievements[a].description.None?
  {
    var u := AchievementUpdate(Some(a), None, newTitle, None);
    assert ItemSel(s, u.oldTitle, u.id) == {a};
    assert OneOrNone(ItemSel(s, u.oldTitle, u.id)) == Found(a);
    var w := s.(achievements := s.achievements[a := PatchedAchievement(s.achievements[a], u)]);
    assert [u][1..] == [] && [u][0] == u;
    var none: seq<Id> := [];
    assert none + [a] == [a];
    assert UpdateAchievements(s, [u]) == UpdateLoop(s, w, [], [a]);
  }

  /** Every item addresses its achievement by id (the old title is falsy). */
  predicate ById(items: seq<AchievementUpdate>) {
    forall j :: 0 <= j < |items| ==> !Given(items[j].oldTitle)
  }

  /** Item `j` is the last one of the batch naming achievement `a`. */
  predicate LastNaming(items: seq<AchievementUpdate>, j: int, a: Id) {
    0 <= j < |items| && items[j].id == Some(a) && forall j' :: j < j' < |items| ==> items[j'].id != Some(a)
  }

  lemma {:induction false} UpdateLoopById(s: Store, w: Store, items: seq<AchievementUpdate>, out: seq<Id>)
    requires w == s.(achievements := w.achievements) && w.achievements.Keys == s.achievements.Keys
    requires ById(items)
    ensures var b := UpdateLoop(s, w, items, out);
      b.reply.Done? ==>
        && (forall a, j :: a in w.achievements && LastNaming(items, j, a) ==>
              b.store.achievements[a].description == items[j].description)
        && (forall a :: a in w.achievements && (forall j :: 0 <= j < |items| ==> items[j].id != Some(a)) ==>
              b.store.achievements[a] == w.achievements[a])
    decreases |items|
  {
    if items != [] {
      var u := items[0];
      var rest := items[1..];
      assert ById(rest) by {
        forall j | 0 <= j < |rest| ensures !Given(rest[j].oldTitle) {
          assert rest[j] == items[j + 1];
        }
      }
      assert ItemSel(w, u.oldTitle, u.id) == IdSel(w, u.id);
      var f := OneOrNone(ItemSel(w, u.oldTitle, u.id));
      var w' := if f.Found? then w.(achievements := w.achievements[f.id := PatchedAchievement(w.achievements[f.id], u)]) else w;
      var out' := if f.Found? then out + [f.id] else out;
      assert UpdateLoop(s, w, items, out) == UpdateLoop(s, w', rest, out');
      UpdateLoopById(s, w', rest, out');
      var b := UpdateLoop(s, w, items, out);
      if b.reply.Done? {
        forall a, j | a in w.achievements && LastNaming(items, j, a)
          ensures b.store.achievements[a].description == items[j].description
        {
          if j == 0 {
            assert f == Found(a);
            forall j' | 0 <= j' < |rest| ensures rest[j'].id != Some(a) {
              assert rest[j'] == items[j' + 1];
            }
          } else {
            assert LastNaming(rest, j - 1, a) by {
              forall j' | j - 1 < j' < |rest| ensures rest[j'].id != Some(a) {
                assert rest[j'] == items[j' + 1];
              }
            }
          }
        }
        forall a | a in w.achievements && (forall j :: 0 <= j < |items| ==> items[j].id != Some(a))
          ensures b.store.achievements[a] == w.achievements[a]
        {
          assert items[0].id != Some(a);
          forall j' | 0 <= j' < |rest| ensures rest[j'].id != Some(a) {
            assert rest[j'] == items[j' + 1];
          }
        }
      }
    }
  }

  /** For a batch that addresses achievements by id, a committed update
      leaves every achievement with the description of the last item naming
      it, None when that item carries none, and every achievement no item
      names as it was. */
  lemma UpdateAchievementsSetsDescriptions(s: Store, items: seq<AchievementUpdate>)
    requires ById(items)
    ensures var b := UpdateAchievements(s, items);
      b.reply.Done? ==>
        && (forall a, j :: a in s.achievements && LastNaming(items, j, a) ==>
              b.store.achievements[a].description == items[j].description)
        && (forall a :: a in s.achievements && (forall j :: 0 <= j < |items| ==> items[j].id != Some(a)) ==>
              b.store.achievements[a] == s.achievements[a])
  {
    UpdateLoopById(s, s, items, []);
  }

  lemma {:induction false} UpdateLoopDescribes(s: Store, w: Store, items: seq<AchievementUpdate>, out: seq<Id>,
                                               ds: set<Option<string>>)
    requires w == s.(achievements := w.achievements) && w.achievements.Keys == s.achievements.Keys
    requires forall a :: a in w.achievements && w.achievements[a] != s.achievements[a] ==> w.achievements[a].description in ds
    requires forall j :: 0 <= j < |items| ==> items[j].description in ds
    ensures var b := UpdateLoop(s, w, items, out);
      forall a :: a in b.store.achievements && b.store.achievements[a] != s.achievements[a] ==>
        b.store.achievements[a].description in ds
    decreases |items|
  {
    if items != [] {
      var u := items[0];
      assert u.description in ds;
      match OneOrNone(ItemSel(w, u.oldTitle, u.id))
      case Absent => UpdateLoopDescribes(s, w, items[1..], out, ds);
      case Ambiguous => UpdateLoopDescribes(s, s, items[1..], out, ds);
      case Found(a) =>
        UpdateLoopDescribes(s, w.(achievements := w.achievements[a := PatchedAchievement(w.achievements[a], u)]),
                            items[1..], out + [a], ds);
    }
  }

  /** Whatever the selection, an achievement an update changes carries the
      description of one of the items. */
  lemma UpdateAchievementsDescribes(s: Store, items: seq<AchievementUpdate>)
    ensures var b := UpdateAchievements(s, items);
      forall a :: a in b.store.achievements && b.store.achievements[a] != s.achievements[a] ==>
        exists j :: 0 <= j < |items| && b.store.achievements[a].description == items[j].description
  {
    var ds := set j | 0 <= j < |items| :: items[j].description;
    UpdateLoopDescribes(s, s, items, [], ds);
  }

  lemma {:induction false} UpdateLoopKeeps(s: Store, w: Store, items: seq<AchievementUpdate>, out: seq<Id>)
    requires w == s.(achievements := w.achievements) && w.achievements.Keys == s.achievements.Keys
    requires Valid(s) && FullyLinked(s)
    ensures Valid(UpdateLoop(s, w, items, out).store)
    ensures FullyLinked(UpdateLoop(s, w, items, out).store)
    decreases |items|
  {
    if items != [] {
      var u := items[0];
      match OneOrNone(ItemSel(w, u.oldTitle, u.id))
      case Absent => UpdateLoopKeeps(s, w, items[1..], out);
      case Ambiguous => UpdateLoopKeeps(s, s, items[1..], out);
      case Found(a) =>
        UpdateLoopKeeps(s, w.(achievements := w.achievements[a := PatchedAchievement(w.achievements[a], u)]),
                        items[1..], out + [a]);
    }
  }

  lemma UpdateAchievementsKeeps(s: Store, items: seq<AchievementUpdate>)
    requires Valid(s) && FullyLinked(s)
    ensures Valid(UpdateAchievements(s, items).store)
    ensures FullyLinked(UpdateAchievements(s, items).store)
  {
    UpdateLoopKeeps(s, s, items, []);
  }

  // ---------------------------------------------------------------------
  // delete_achievements (db/crud.py:834-852)
  // ---------------------------------------------------------------------

  predicate NoAchievementKey(d: AchievementDelete) {
    !Given(d.title) && !GivenInt(d.id)
  }

  /** A keyless item, no match or several matches skip the item (the last
      without a rollback); a match is deleted with its link rows. */
  function DeleteLoop(s: Store, w: Store, items: seq<AchievementDelete>, out: seq<Id>): (b: Batch<Id>)
    decreases |items|
    ensures !b.reply.Done? ==> b.store == s
  {
    if items == [] then Commit(s, w, out)
    else
      var d := items[0];
      if NoAchievementKey(d) then DeleteLoop(s, w, items[1..], out)
      else
        match OneOrNone(ItemSel(w, d.title, d.id))
        case Found(a) => DeleteLoop(s, RemoveAchievement(w, a), items[1..], out + [a])
        case _ => DeleteLoop(s, w, items[1..], out)
  }

  function DeleteAchievements(s: Store, items: seq<AchievementDelete>): (b: Batch<Id>)
    ensures !b.reply.Done? ==> b.store == s
  {
    DeleteLoop(s, s, items, [])
  }

  lemma {:induction false} DeleteLoopRemoves(s: Store, w: Store, items: seq<AchievementDelete>, out: seq<Id>)
    requires w.achievements.Keys == s.achievements.Keys - Elems(out)
    requires forall a :: a in w.achievements ==> w.achievements[a] == s.achievements[a]
    requires forall k :: k in w.unlocks ==> k in s.unlocks && k.achievementId !in Elems(out)
    requires forall k :: k in s.unlocks && k.achievementId !in Elems(out) ==>
               k in w.unlocks && w.unlocks[k] == s.unlocks[k]
    ensures var b := DeleteLoop(s, w, items, out);
      b.reply.Done? ==>
        && b.store.achievements.Keys == s.achievements.Keys - Elems(b.reply.items)
        && (forall a :: a in b.store.achievements ==> b.store.achievements[a] == s.achievements[a])
        && (forall k :: k in b.store.unlocks ==> k in s.unlocks && k.achievementId !in Elems(b.reply.items))
        && (forall k :: k in s.unlocks && k.achievementId !in Elems(b.reply.items) ==>
              k in b.store.unlocks && b.store.unlocks[k] == s.unlocks[k])
    decreases |items|
  {
    if items != [] {
      var d := items[0];
      if NoAchievementKey(d) {
        DeleteLoopRemoves(s, w, items[1..], out);
      } else {
        match OneOrNone(ItemSel(w, d.title, d.id))
        case Found(a) =>
          assert Elems(out + [a]) == Elems(out) + {a};
          DeleteLoopRemoves(s, RemoveAchievement(w, a), items[1..], out + [a]);
        case _ => DeleteLoopRemoves(s, w, items[1..], out);
      }
    }
  }

  /** A committed delete removes exactly the achievements it returns, with
      every link row pointing at them, and keeps every other link row as it
      was. */
  lemma DeleteAchievementsRemoves(s: Store, items: seq<AchievementDelete>)
    ensures var b := DeleteAchievements(s, items);
      b.reply.Done? ==>
        && b.store.achievements.Keys == s.achievements.Keys - Elems(b.reply.items)
        && (forall a :: a in b.store.achievements ==> b.store.achievements[a] == s.achievements[a])
        && (forall k :: k in b.store.unlocks ==> k in s.unlocks && k.achievementId !in Elems(b.reply.items))
        && (forall k :: k in s.unlocks && k.achievementId !in Elems(b.reply.items) ==>
              k in b.store.unlocks && b.store.unlocks[k] == s.unlocks[k])
  {
    DeleteLoopRemoves(s, s, items, []);
  }

  /** The items without a title or id. */
  function WithKey(items: seq<AchievementDelete>): (r: seq<AchievementDelete>)
    ensures forall j :: 0 <= j < |r| ==> !NoAchievementKey(r[j])
  {
    if items == [] then []
    else if NoAchievementKey(items[0]) then WithKey(items[1..])
    else [items[0]] + WithKey(items[1..])
  }

  lemma {:induction false} DeleteLoopWithKey(s: Store, w: Store, items: seq<AchievementDelete>, out: seq<Id>)
    ensures DeleteLoop(s, w, items, out) == DeleteLoop(s, w, WithKey(items), out)
    decreases |items|
  {
    if items != [] {
      var d := items[0];
      if NoAchievementKey(d) {
        DeleteLoopWithKey(s, w, items[1..], out);
      } else {
        var rest := WithKey(items[1..]);
        assert ([d] + rest)[0] == d && ([d] + rest)[1..] == rest;
        match OneOrNone(ItemSel(w, d.title, d.id))
        case Found(a) => DeleteLoopWithKey(s, RemoveAchievement(w, a), items[1..], out + [a]);
        case _ => DeleteLoopWithKey(s, w, items[1..], out);
      }
    }
  }

  /** Items with neither a title nor an id are ignored. */
  lemma DeleteAchievementsSkipsKeyless(s: Store, items: seq<AchievementDelete>)
    ensures DeleteAchievements(s, items) == DeleteAchievements(s, WithKey(items))
  {
    DeleteLoopWithKey(s, s, items, []);
  }

  lemma {:induction false} DeleteLoopKeeps(s: Store, w: Store, items: seq<AchievementDelete>, out: seq<Id>)
    requires Valid(s) && RefsResolve(w) && FullyLinked(w)
    ensures Valid(DeleteLoop(s, w, items, out).store)
    ensures FullyLinked(s) ==> FullyLinked(DeleteLoop(s, w, items, out).store)
    decreases |items|
  {
    if items != [] {
      var d := items[0];
      if NoAchievementKey(d) {
        DeleteLoopKeeps(s, w, items[1..], out);
      } else {
        match OneOrNone(ItemSel(w, d.title, d.id))
        case Found(a) =>
          RemoveAchievementKeeps(w, a);
          DeleteLoopKeeps(s, RemoveAchievement(w, a), items[1..], out + [a]);
        case _ => DeleteLoopKeeps(s, w, items[1..], out);
      }
    }
  }

  lemma DeleteAchievementsKeeps(s: Store, items: seq<AchievementDelete>)
    requires Valid(s) && FullyLinked(s)
    ensures Valid(DeleteAchievements(s, items).store)
    ensures FullyLinked(DeleteAchievements(s, items).store)
  {
    DeleteLoopKeeps(s, s, items, []);
  }
}

=== FILE: cascade.dfy ===
/** What deleting one row does to the rest of the store under the ORM's
    relationship rules (db/sql_models.py): a deleted parent of a one-to-many
    relationship leaves its children with a NULL foreign key, and a deleted
    row on either side of a link table takes its link rows with it. */
module Cascade {
  import opened Wrappers
  import opened Schema

  // ---------------------------------------------------------------------
  // Building blocks: each clears one kind of reference
  // ---------------------------------------------------------------------

  /** The link rows of achievements, minus those of the given users and achievements. */
  function DropUnlocks(unlocks: map<AchievementKey, Unlock>, users: set<Id>, achievements: set<Id>)
    : (m: map<AchievementKey, Unlock>)
    ensures forall k :: k in m <==> k in unlocks && k.userId !in users && k.achievementId !in achievements
    ensures forall k :: k in m ==> m[k] == unlocks[k]
  {
    map k | k in unlocks && k.userId !in users && k.achievementId !in achievements :: unlocks[k]
  }

  /** Requests that referenced user `u` no longer reference any user. */
  function ClearRequestUser(requests: map<Id, DeliveryRequest>, u: Id): (m: map<Id, DeliveryRequest>)
    ensures m.Keys == requests.Keys
    ensures forall r :: r in m ==> m[r].userId != Some(u)
    ensures forall r :: r in m ==> m[r].userId.Some? ==> m[r].userId == requests[r].userId
    ensures forall r :: r in m ==> m[r].courierId == requests[r].courierId && m[r].statusId == requests[r].statusId
  {
    map r | r in requests :: if requests[r].userId == Some(u) then requests[r].(userId := None) else requests[r]
  }

  /** Requests that referenced courier `c` no longer reference any courier. */
  function ClearRequestCourier(requests: map<Id, DeliveryRequest>, c: Id): (m: map<Id, DeliveryRequest>)
    ensures m.Keys == requests.Keys
    ensures forall r :: r in m ==> m[r].courierId != Some(c)
    ensures forall r :: r in m ==> m[r].courierId.Some? ==> m[r].courierId == requests[r].courierId
    ensures forall r :: r in m ==> m[r].userId == requests[r].userId && m[r].statusId == requests[r].statusId
  {
    map r | r in requests :: if requests[r].courierId == Some(c) then requests[r].(courierId := None) else requests[r]
  }

  /** Requests that had status `i` no longer have a status. */
  function ClearRequestStatus(requests: map<Id, DeliveryRequest>, i: Id): (m: map<Id, DeliveryRequest>)
    ensures m.Keys == requests.Keys
    ensures forall r :: r in m ==> m[r].statusId != Some(i)
    ensures forall r :: r in m ==> m[r].statusId.Some? ==> m[r].statusId == requests[r].statusId
    ensures forall r :: r in m ==> m[r].userId == requests[r].userId && m[r].courierId == requests[r].courierId
  {
    map r | r in requests :: if requests[r].statusId == Some(i) then requests[r].(statusId := None) else requests[r]
  }

  /** Users that had role `i` no longer have a role; nothing else about them changes. */
  function ClearUserRole(users: map<Id, User>, i: Id): (m: map<Id, User>)
    ensures m.Keys == users.Keys
    ensures forall u :: u in m ==> m[u].roleId != Some(i)
    ensures forall u :: u in m ==> m[u].roleId.Some? ==> m[u].roleId == users[u].roleId
    ensures forall u :: u in m ==> m[u].phone == users[u].phone && m[u].username == users[u].username
  {
    map u | u in users :: if users[u].roleId == Some(i) then users[u].(roleId := None) else users[u]
  }

  /** Points that were on map `i` are on no map. */
  function ClearPointMap(points: map<Id, MapPoint>, i: Id): (m: map<Id, MapPoint>)
    ensures m.Keys == points.Keys
    ensures forall p :: p in m ==> m[p].mapId != Some(i)
    ensures forall p :: p in m ==> m[p].mapId.Some? ==> m[p].mapId == points[p].mapId
  {
    map p | p in points :: if points[p].mapId == Some(i) then points[p].(mapId := None) else points[p]
  }

  // ---------------------------------------------------------------------
  // Row deletions
  // ---------------------------------------------------------------------

  /** Deleting a user: its achievement links go with it and the delivery
      requests that named it keep no user. The achievements themselves stay. */
  function RemoveUser(s: Store, u: Id): (t: Store)
    ensures t.users.Keys == s.users.Keys - {u}
    ensures forall v :: v in t.users ==> t.users[v] == s.users[v]
    ensures forall k :: k in t.unlocks <==> k in s.unlocks && k.userId != u
    ensures t.achievements == s.achievements
    ensures t.requests.Keys == s.requests.Keys
    ensures forall r :: r in t.requests ==> t.requests[r].userId != Some(u)
  {
    s.(users := s.users - {u},
       unlocks := DropUnlocks(s.unlocks, {u}, {}),
       requests := ClearRequestUser(s.requests, u))
  }

  lemma RemoveUserKeeps(s: Store, u: Id)
    ensures RefsResolve(s) ==> RefsResolve(RemoveUser(s, u))
    ensures KeysUnique(s) ==> KeysUnique(RemoveUser(s, u))
    ensures FullyLinked(s) ==> FullyLinked(RemoveUser(s, u))
  {
    RemoveUserRefs(s, u);
    RemoveUserKeys(s, u);
    RemoveUserLinked(s, u);
  }

  lemma RemoveUserRefs(s: Store, u: Id)
    ensures RefsResolve(s) ==> RefsResolve(RemoveUser(s, u))
  {
  }

  lemma RemoveUserKeys(s: Store, u: Id)
    ensures KeysUnique(s) ==> KeysUnique(RemoveUser(s, u))
  {
    var t := RemoveUser(s, u);
    InjectiveSub(UserPhones(s), UserPhones(t));
    InjectiveSub(UserNames(s), UserNames(t));
    assert CourierPhones(t) == CourierPhones(s) && CourierNames(t) == CourierNames(s);
    assert Titles(t) == Titles(s);
  }

  lemma RemoveUserLinked(s: Store, u: Id)
    ensures FullyLinked(s) ==> FullyLinked(RemoveUser(s, u))
  {
  }

  /** The achievements a user is linked to. */
  function LinkedTo(s: Store, u: Id): set<Id> {
    set k | k in s.unlocks && k.userId == u :: k.achievementId
  }

  /** Deleting a user as the schema declares it: `cascade="all, delete"` on
      the many-to-many `User.achievements` deletes every achievement the user
      is linked to, and with them every other user's links to those
      achievements. */
  function RemoveUserAsWritten(s: Store, u: Id): (t: Store)
    ensures t.users.Keys == s.users.Keys - {u}
    ensures t.achievements.Keys == s.achievements.Keys - LinkedTo(s, u)
    ensures forall k :: k in t.unlocks <==> k in s.unlocks && k.userId != u && k.achievementId !in LinkedTo(s, u)
    ensures t.requests.Keys == s.requests.Keys
    ensures forall r :: r in t.requests ==> t.requests[r].userId != Some(u)
  {
    var gone := LinkedTo(s, u);
    s.(users := s.users - {u},
       achievements := s.achievements - gone,
       unlocks := DropUnlocks(s.unlocks, {u}, gone),
       requests := ClearRequestUser(s.requests, u))
  }

  lemma RemoveUserAsWrittenKeeps(s: Store, u: Id)
    ensures RefsResolve(s) ==> RefsResolve(RemoveUserAsWritten(s, u))
    ensures KeysUnique(s) ==> KeysUnique(RemoveUserAsWritten(s, u))
    ensures FullyLinked(s) ==> FullyLinked(RemoveUserAsWritten(s, u))
  {
    AsWrittenRefs(s, u);
    AsWrittenKeys(s, u);
    AsWrittenLinked(s, u);
  }

  lemma AsWrittenRefs(s: Store, u: Id)
    ensures RefsResolve(s) ==> RefsResolve(RemoveUserAsWritten(s, u))
  {
  }

  lemma AsWrittenKeys(s: Store, u: Id)
    ensures KeysUnique(s) ==> KeysUnique(RemoveUserAsWritten(s, u))
  {
    var t := RemoveUserAsWritten(s, u);
    InjectiveSub(UserPhones(s), UserPhones(t));
    InjectiveSub(UserNames(s), UserNames(t));
    InjectiveSub(Titles(s), Titles(t));
    assert CourierPhones(t) == CourierPhones(s) && CourierNames(t) == CourierNames(s);
  }

  lemma AsWrittenLinked(s: Store, u: Id)
    ensures FullyLinked(s) ==> FullyLinked(RemoveUserAsWritten(s, u))
  {
    var t := RemoveUserAsWritten(s, u);
    if FullyLinked(s) {
      forall v, b | v in t.users && b in t.achievements
        ensures AchievementKey(v, b) in t.unlocks
      {
        assert AchievementKey(v, b) in s.unlocks;
      }
    }
  }

  /** Deleting a courier: requests that named it keep no courier. */
  function RemoveCourier(s: Store, c: Id): (t: Store)
    ensures t.couriers.Keys == s.couriers.Keys - {c}
    ensures forall v :: v in t.couriers ==> t.couriers[v] == s.couriers[v]
    ensures t.requests.Keys == s.requests.Keys
    ensures forall r :: r in t.requests ==> t.requests[r].courierId != Some(c)
    ensures forall r :: r in t.requests && t.requests[r].courierId.Some? ==>
      t.requests[r].courierId == s.requests[r].courierId
    ensures t.users == s.users && t.achievements == s.achievements && t.unlocks == s.unlocks
  {
    s.(couriers := s.couriers - {c},
       requests := ClearRequestCourier(s.requests, c))
  }

  lemma RemoveCourierKeeps(s: Store, c: Id)
    ensures RefsResolve(s) ==> RefsResolve(RemoveCourier(s, c))
    ensures KeysUnique(s) ==> KeysUnique(RemoveCourier(s, c))
    ensures FullyLinked(s) ==> FullyLinked(RemoveCourier(s, c))
  {
    RemoveCourierRefs(s, c);
    RemoveCourierKeys(s, c);
  }

  lemma RemoveCourierRefs(s: Store, c: Id)
    ensures RefsResolve(s) ==> RefsResolve(RemoveCourier(s, c))
  {
  }

  lemma RemoveCourierKeys(s: Store, c: Id)
    ensures KeysUnique(s) ==> KeysUnique(RemoveCourier(s, c))
  {
    var t := RemoveCourier(s, c);
    InjectiveSub(CourierPhones(s), CourierPhones(t));
    InjectiveSub(CourierNames(s), CourierNames(t));
    assert UserPhones(t) == UserPhones(s) && UserNames(t) == UserNames(s);
    assert Titles(t) == Titles(s);
  }

  /** Deleting an achievement: its link rows go through the secondary
      relationship `Achievement.users_with_achievement`. */
  function RemoveAchievement(s: Store, a: Id): (t: Store)
    ensures t.achievements.Keys == s.achievements.Keys - {a}
    ensures forall b :: b in t.achievements ==> t.achievements[b] == s.achievements[b]
    ensures forall k :: k in t.unlocks <==> k in s.unlocks && k.achievementId != a
    ensures forall k :: k in t.unlocks ==> t.unlocks[k] == s.unlocks[k]
    ensures t.users == s.users
  {
    s.(achievements := s.achievements - {a},
       unlocks := DropUnlocks(s.unlocks, {}, {a}))
  }

  lemma RemoveAchievementKeeps(s: Store, a: Id)
    ensures RefsResolve(s) ==> RefsResolve(RemoveAchievement(s, a))
    ensures KeysUnique(s) ==> KeysUnique(RemoveAchievement(s, a))
    ensures FullyLinked(s) ==> FullyLinked(RemoveAchievement(s, a))
  {
    var t := RemoveAchievement(s, a);
    InjectiveSub(Titles(s), Titles(t));
    assert UserPhones(t) == UserPhones(s) && UserNames(t) == UserNames(s);
    assert CourierPhones(t) == CourierPhones(s) && CourierNames(t) == CourierNames(s);
  }

  /** Deleting a role, thrash type, status or map: users lose the role,
      link rows of the thrash type go, requests lose the status, points
      lose the map. */
  function RemoveCatalogRow(s: Store, c: Catalog, i: Id): (t: Store)
    ensures Rows(t, c).Keys == Rows(s, c).Keys - {i}
    ensures forall j :: j in Rows(t, c) ==> Rows(t, c)[j] == Rows(s, c)[j]
    ensures forall d :: d != c ==> Rows(t, d) == Rows(s, d)
    ensures t.couriers == s.couriers && t.nextId == s.nextId
    ensures t.users.Keys == s.users.Keys && t.achievements == s.achievements
    ensures t.unlocks == s.unlocks
    ensures c == Roles ==> forall u :: u in t.users ==> t.users[u].roleId != Some(i)
    ensures c == ThrashTypes ==> forall l :: l in t.pointThrash ==> l.thrashTypeId != i
    ensures c == ThrashTypes ==> forall l :: l in t.deliveryThrash ==> l.requestId != i
    ensures c == Statuses ==> forall r :: r in t.requests ==> t.requests[r].statusId != Some(i)
    ensures c == Maps ==> forall p :: p in t.points ==> t.points[p].mapId != Some(i)
  {
    match c
    case Roles =>
      s.(roles := s.roles - {i}, users := ClearUserRole(s.users, i))
    case ThrashTypes =>
      s.(thrashTypes := s.thrashTypes - {i},
         pointThrash := (set l | l in s.pointThrash && l.thrashTypeId != i),
         deliveryThrash := (set l | l in s.deliveryThrash && l.requestId != i))
    case Statuses =>
      s.(statuses := s.statuses - {i}, requests := ClearRequestStatus(s.requests, i))
    case Maps =>
      s.(maps := s.maps - {i}, points := ClearPointMap(s.points, i))
  }

  lemma RemoveCatalogRowKeeps(s: Store, c: Catalog, i: Id)
    ensures RefsResolve(s) ==> RefsResolve(RemoveCatalogRow(s, c, i))
    ensures KeysUnique(s) ==> KeysUnique(RemoveCatalogRow(s, c, i))
    ensures FullyLinked(s) ==> FullyLinked(RemoveCatalogRow(s, c, i))
  {
    RemoveCatalogRowKeys(s, c, i);
    match c
    case Roles => RemoveRoleRefs(s, i);
    case ThrashTypes => RemoveThrashRefs(s, i);
    case Statuses => RemoveStatusRefs(s, i);
    case Maps => RemoveMapRefs(s, i);
  }

  lemma RemoveCatalogRowKeys(s: Store, c: Catalog, i: Id)
    ensures KeysUnique(s) ==> KeysUnique(RemoveCatalogRow(s, c, i))
  {
    var t := RemoveCatalogRow(s, c, i);
    assert UserPhones(t) == UserPhones(s) && UserNames(t) == UserNames(s);
    assert CourierPhones(t) == CourierPhones(s) && CourierNames(t) == CourierNames(s);
    assert Titles(t) == Titles(s);
    InjectiveSub(s.roles, t.roles);
    InjectiveSub(s.thrashTypes, t.thrashTypes);
  }

  lemma RemoveRoleRefs(s: Store, i: Id)
    ensures RefsResolve(s) ==> RefsResolve(RemoveCatalogRow(s, Roles, i))
  {
  }

  lemma RemoveThrashRefs(s: Store, i: Id)
    ensures RefsResolve(s) ==> RefsResolve(RemoveCatalogRow(s, ThrashTypes, i))
  {
  }

  lemma RemoveStatusRefs(s: Store, i: Id)
    ensures RefsResolve(s) ==> RefsResolve(RemoveCatalogRow(s, Statuses, i))
  {
  }

  lemma RemoveMapRefs(s: Store, i: Id)
    ensures RefsResolve(s) ==> RefsResolve(RemoveCatalogRow(s, Maps, i))
  {
  }

  /** Deleting a map point: its PointThrashLink rows go with it. */
  function RemovePoint(s: Store, p: Id): (t: Store)
    ensures t.points.Keys == s.points.Keys - {p}
    ensures forall q :: q in t.points ==> t.points[q] == s.points[q]
    ensures forall l :: l in t.pointThrash <==> l in s.pointThrash && l.mapPointId != p
    ensures t.users == s.users && t.achievements == s.achievements && t.unlocks == s.unlocks
    ensures RefsResolve(s) ==> RefsResolve(t)
    ensures KeysUnique(s) ==> KeysUnique(t)
  {
    s.(points := s.points - {p},
       pointThrash := (set l | l in s.pointThrash && l.mapPointId != p))
  }

  /** Deleting a delivery request: its link rows, whose `thrashTypeId`
      column holds the request id, go with it. */
  function RemoveRequest(s: Store, r: Id): (t: Store)
    ensures t.requests.Keys == s.requests.Keys - {r}
    ensures forall q :: q in t.requests ==> t.requests[q] == s.requests[q]
    ensures forall l :: l in t.deliveryThrash <==> l in s.deliveryThrash && l.thrashTypeId != r
    ensures t.users == s.users && t.achievements == s.achievements && t.unlocks == s.unlocks
    ensures RefsResolve(s) ==> RefsResolve(t)
    ensures KeysUnique(s) ==> KeysUnique(t)
  {
    s.(requests := s.requests - {r},
       deliveryThrash := (set l | l in s.deliveryThrash && l.thrashTypeId != r))
  }
}

=== FILE: catalog.dfy ===
/** create_*, update_* and delete_* of the four name-only tables
    (db/crud.py:230-509): Role, ThrashType, Status and Map. The four
    functions of each kind have the same shape and differ only in how the
    create pre-check reads the table: `get_role`, `get_thrash_type` and
    `get_status` return a list, `get_map` returns `one_or_none()`. This
    module holds the selection helpers and the creates; the properties of
    the creates are in `CatalogCreates`, the updates and deletes in
    `CatalogUpdates` and `CatalogDeletes`. */
module Catalogs {
  import opened Wrappers
  import opened Schema
  import opened Session
  import opened Lookup
  import opened Cascade
  import opened Dto

  // ---------------------------------------------------------------------
  // Building blocks
  // ---------------------------------------------------------------------

  /** Every table except catalog `c`, and every other catalog, agree. */
  predicate SameOutside(s: Store, t: Store, c: Catalog) {
    && (forall d :: d != c ==> Rows(t, d) == Rows(s, d))
    && t.users == s.users && t.couriers == s.couriers && t.achievements == s.achievements
    && t.points == s.points && t.requests == s.requests && t.unlocks == s.unlocks
    && t.pointThrash == s.pointThrash && t.deliveryThrash == s.deliveryThrash
  }

  /** Every row of `m` is in `n` unchanged. */
  predicate Extends(m: map<Id, string>, n: map<Id, string>) {
    forall i :: i in m ==> i in n && n[i] == m[i]
  }

  /** The row an update or delete names: `X.name == old` when the old name
      is truthy, otherwise `X.id == old_id`, which a null or zero id never
      satisfies. */
  function Pick(m: map<Id, string>, name: Option<string>, id: Option<int>): (sel: set<Id>)
    ensures sel <= m.Keys
    ensures Given(name) || GivenInt(id) ==> sel == Select(m, name, id)
    ensures !Given(name) && !GivenInt(id) ==> sel == {}
  {
    if Given(name) then Named(m, name.value)
    else if id.Some? && id.value in m then {id.value as Id}
    else {}
  }

  /** The create pre-check: the list `get_role(name)` (and its siblings)
      returns is non-empty, or `get_map(city)` returns a row. */
  predicate Taken(w: Store, c: Catalog, n: string) {
    if c == Maps then GetMap(w, Some(n), None).Found?
    else Select(Rows(w, c), Some(n), None) != {}
  }

  /** `session.add(X(name=n))`: a new row under the next serial id. */
  function Stage(w: Store, c: Catalog, n: string): (t: Store)
    ensures Rows(t, c) == Rows(w, c)[w.nextId := n]
    ensures SameOutside(w, t, c)
    ensures t.nextId == w.nextId + 1
  {
    WithRows(w, c, Rows(w, c)[w.nextId := n]).(nextId := w.nextId + 1)
  }

  /** `res.name = new_name` on a selected row. */
  function Rename(w: Store, c: Catalog, i: Id, n: string): (t: Store)
    requires i in Rows(w, c)
    ensures Rows(t, c) == Rows(w, c)[i := n]
    ensures SameOutside(w, t, c)
    ensures t.nextId == w.nextId
  {
    WithRows(w, c, Rows(w, c)[i := n])
  }

  /** An earlier item that selects a row by id does not select one of the rows named `n`. */
  predicate SparesById(m: map<Id, string>, name: Option<string>, id: Option<int>, n: string) {
    !Given(name) && id.Some? ==> id.value !in Named(m, n)
  }

  /** `m` with `names[k]` added under the id `start + k`. */
  function Appended(m: map<Id, string>, start: Id, names: seq<string>): map<Id, string>
    decreases |names|
  {
    if names == [] then m
    else Appended(m, start, names[..|names| - 1])[start + |names| - 1 := names[|names| - 1]]
  }

  // ---------------------------------------------------------------------
  // create_role, create_thrash_type, create_status, create_map (db/crud.py:230-245, 303-318, 378-393, 453-468)
  // ---------------------------------------------------------------------

  /** The store the next name is staged on. An ambiguous `get_map` rolls
      the staged rows back inside the lookup; the ids they drew from the
      sequence stay drawn. */
  function StageBase(s: Store, c: Catalog, w: Store, n: string): (base: Store)
    ensures base.nextId == w.nextId
  {
    if c == Maps && GetMap(w, Some(n), None).Ambiguous? then s.(nextId := w.nextId) else w
  }

  /** The loop over the names still to create: `w` holds the rows staged
      so far, `out` their ids. A taken name returns the conflict without
      committing; an ambiguous `get_map` rolls the staged rows back inside
      the lookup and the map is then staged on the bare store. */
  function CreateLoop(s: Store, c: Catalog, w: Store, names: seq<string>, out: seq<Id>): (b: Batch<Id>)
    decreases |names|
    ensures !b.reply.Done? ==> b.store == s
    ensures b.reply.Conflict? ==> b.reply.key in names
    ensures b.reply.Done? ==> |b.reply.items| == |out| + |names|
  {
    if names == [] then Commit(s, w, out)
    else
      var n := names[0];
      if Taken(w, c, n) then Batch(s, Conflict(n))
      else
        var base := StageBase(s, c, w, n);
        CreateLoop(s, c, Stage(base, c, n), names[1..], out + [base.nextId])
  }

  function CreateCatalog(s: Store, c: Catalog, names: seq<string>): (b: Batch<Id>)
    ensures !b.reply.Done? ==> b.store == s
    ensures b.reply.Conflict? ==> b.reply.key in names
    ensures b.reply.Done? ==> |b.reply.items| == |names|
  {
    CreateLoop(s, c, s, names, [])
  }

  lemma SelectGrows(m: map<Id, string>, n: map<Id, string>, name: string)
    requires Extends(m, n)
    ensures Select(m, Some(name), None) <= Select(n, Some(name), None)
  {
  }

  lemma DrawnRows(s: Store, c: Catalog)
    requires IdsDrawn(s)
    ensures Below(Rows(s, c), s.nextId)
  {
  }

  lemma {:induction false} CreateLoopConflicts(s: Store, c: Catalog, w: Store, names: seq<string>,
                                               out: seq<Id>, k: nat)
    requires c != Maps
    requires Extends(Rows(s, c), Rows(w, c)) && Below(Rows(w, c), w.nextId)
    requires k < |names| && Select(Rows(s, c), Some(names[k]), None) != {}
    ensures CreateLoop(s, c, w, names, out) == Batch(s, Conflict(names[k])) || CreateLoop(s, c, w, names, out).reply.Conflict?
    decreases |names|
  {
    var n := names[0];
    if !Taken(w, c, n) {
      if k == 0 {
        SelectGrows(Rows(s, c), Rows(w, c), n);
        assert false;
      }
      var t := Stage(w, c, n);
      assert Extends(Rows(s, c), Rows(t, c));
      CreateLoopConflicts(s, c, t, names[1..], out + [w.nextId], k - 1);
    }
  }

  /** A name that already names a role, thrash type or status makes the
      whole batch return the conflict, and no row of the batch is stored. */
  lemma CreateCatalogConflicts(s: Store, c: Catalog, names: seq<string>, k: nat)
    requires c != Maps && IdsDrawn(s)
    requires k < |names| && Select(Rows(s, c), Some(names[k]), None) != {}
    ensures CreateCatalog(s, c, names).reply.Conflict?
    ensures CreateCatalog(s, c, names).store == s
  {
    DrawnRows(s, c);
    CreateLoopConflicts(s, c, s, names, [], k);
  }
}

=== FILE: catalog_create.dfy ===
/** Properties of create_role, create_thrash_type, create_status and
    create_map (db/crud.py:230-245, 303-318, 378-393, 453-468): a
    successful batch appends its names under fresh, consecutive ids and
    keeps the store consistent. */

module CatalogCreates {
  import opened Wrappers
  import opened Schema
  import opened Session
  import opened Lookup
  import opened Dto
  import opened Catalogs

  lemma {:induction false} CreateLoopAppends(s: Store, c: Catalog, w: Store, done: seq<string>,
                                             names: seq<string>, out: seq<Id>)
    requires c == Maps ==> Injective(Rows(w, c)) && forall j :: 0 <= j < |names| ==> names[j] != ""
    requires Rows(w, c) == Appended(Rows(s, c), s.nextId, done) && SameOutside(s, w, c)
    requires w.nextId == s.nextId + |done|
    requires |out| == |done| && forall j :: 0 <= j < |out| ==> out[j] == s.nextId + j
    ensures var b := CreateLoop(s, c, w, names, out);
      b.reply.Done? ==>
        && Rows(b.store, c) == Appended(Rows(s, c), s.nextId, done + names)
        && SameOutside(s, b.store, c)
        && |b.reply.items| == |done| + |names|
        && forall j :: 0 <= j < |b.reply.items| ==> b.reply.items[j] == s.nextId + j
    decreases |names|
  {
    if names != [] {
      var n := names[0];
      if !Taken(w, c, n) {
        if c == Maps {
          assert names[0] != "";
          InjectiveNamed(Rows(w, c), n);
          StageKeepsDistinct(w, c, n);
        }
        assert StageBase(s, c, w, n) == w;
        var t := Stage(w, c, n);
        var done' := done + [n];
        assert done'[..|done'| - 1] == done;
        assert Rows(t, c) == Appended(Rows(s, c), s.nextId, done');
        assert done' + names[1..] == done + names;
        CreateLoopAppends(s, c, t, done', names[1..], out + [w.nextId]);
      }
    } else {
      assert done + names == done;
    }
  }

  lemma {:induction false} AppendedRows(m: map<Id, string>, start: Id, names: seq<string>)
    requires Below(m, start)
    ensures var r := Appended(m, start, names);
      && (forall i :: i in m ==> i in r && r[i] == m[i])
      && (forall i: Id :: start <= i < start + |names| ==> i !in m && i in r && r[i] == names[i - start])
      && (forall i :: i in r ==> i in m || start <= i < start + |names|)
    decreases |names|
  {
    if names != [] {
      var n := |names| - 1;
      var front := names[..n];
      AppendedRows(m, start, front);
      var r := Appended(m, start, names);
      assert r == Appended(m, start, front)[start + n := names[n]];
      forall i: Id | start <= i < start + |names|
        ensures i !in m && i in r && r[i] == names[i - start]
      {
        if i < start + n {
          assert front[i - start] == names[i - start];
        }
      }
    }
  }

  lemma AppendedAdds(m: map<Id, string>, r: map<Id, string>, start: Id, names: seq<string>, items: seq<Id>)
    requires Below(m, start) && r == Appended(m, start, names)
    requires |items| == |names| && forall j :: 0 <= j < |items| ==> items[j] == start + j
    ensures forall j :: 0 <= j < |names| ==> items[j] !in m && items[j] in r && r[items[j]] == names[j]
    ensures forall i :: i in m ==> i in r && r[i] == m[i]
    ensures forall i :: i in r ==> i in m || i in items
  {
    AppendedRows(m, start, names);
    forall j | 0 <= j < |names|
      ensures items[j] !in m && items[j] in r && r[items[j]] == names[j]
    {
      var i: Id := items[j];
      assert i == start + j && i - start == j;
      assert i in r && r[i] == names[i - start];
    }
    forall i | i in r && i !in m
      ensures i in items
    {
      assert items[i - start] == i;
    }
  }

  /** A committed create adds exactly one row per name, under consecutive
      fresh ids in batch order, and changes nothing else. For maps this
      holds when no two maps share a city and no city is empty, the cases
      in which `get_map` finds at most one row. */
  lemma CreateCatalogAdds(s: Store, c: Catalog, names: seq<string>)
    requires IdsDrawn(s)
    requires c == Maps ==> Injective(Rows(s, c)) && forall j :: 0 <= j < |names| ==> names[j] != ""
    ensures var b := CreateCatalog(s, c, names);
      b.reply.Done? ==>
        && |b.reply.items| == |names|
        && (forall j :: 0 <= j < |names| ==>
              && b.reply.items[j] !in Rows(s, c) && b.reply.items[j] in Rows(b.store, c)
              && Rows(b.store, c)[b.reply.items[j]] == names[j])
        && (forall i :: i in Rows(s, c) ==> i in Rows(b.store, c) && Rows(b.store, c)[i] == Rows(s, c)[i])
        && (forall i :: i in Rows(b.store, c) ==> i in Rows(s, c) || i in b.reply.items)
        && SameOutside(s, b.store, c)
  {
    var b := CreateCatalog(s, c, names);
    assert Rows(s, c) == Appended(Rows(s, c), s.nextId, []);
    CreateLoopAppends(s, c, s, [], names, []);
    assert [] + names == names;
    if b.reply.Done? {
      DrawnRows(s, c);
      AppendedAdds(Rows(s, c), Rows(b.store, c), s.nextId, names, b.reply.items);
    }
  }

  lemma {:induction false} CreateLoopFresh(s: Store, c: Catalog, w: Store, names: seq<string>, out: seq<Id>)
    requires s.nextId <= w.nextId
    requires forall j :: 0 <= j < |out| ==> s.nextId <= out[j] < w.nextId
    requires forall i, j :: 0 <= i < j < |out| ==> out[i] != out[j]
    ensures var b := CreateLoop(s, c, w, names, out);
      b.reply.Done? ==>
        && (forall j :: 0 <= j < |b.reply.items| ==> s.nextId <= b.reply.items[j])
        && (forall i, j :: 0 <= i < j < |b.reply.items| ==> b.reply.items[i] != b.reply.items[j])
    decreases |names|
  {
    if names != [] {
      var n := names[0];
      if !Taken(w, c, n) {
        var base := StageBase(s, c, w, n);
        var out' := out + [base.nextId];
        assert forall j :: 0 <= j < |out| ==> out'[j] == out[j];
        CreateLoopFresh(s, c, Stage(base, c, n), names[1..], out');
        var b := CreateLoop(s, c, w, names, out);
        assert b.reply.Done? ==> forall j :: 0 <= j < |b.reply.items| ==> s.nextId <= b.reply.items[j];
      }
    }
  }

  /** Every id a committed create returns is new: none names a row the table
      held before, and no two are equal, also when an ambiguous `get_map`
      has discarded the maps staged before it. */
  lemma CreateCatalogFreshIds(s: Store, c: Catalog, names: seq<string>)
    requires IdsDrawn(s)
    ensures var b := CreateCatalog(s, c, names);
      b.reply.Done? ==>
        && (forall j :: 0 <= j < |b.reply.items| ==> b.reply.items[j] !in Rows(s, c))
        && (forall i, j :: 0 <= i < j < |b.reply.items| ==> b.reply.items[i] != b.reply.items[j])
  {
    CreateLoopFresh(s, c, s, names, []);
    DrawnRows(s, c);
    var b := CreateCatalog(s, c, names);
    assert b == CreateLoop(s, c, s, names, []);
    if b.reply.Done? {
      forall j | 0 <= j < |b.reply.items|
        ensures b.reply.items[j] !in Rows(s, c)
      {
        assert s.nextId <= b.reply.items[j];
      }
    }
  }

  /** There is at most one row of a given name in a table without duplicates. */
  lemma InjectiveNamed(m: map<Id, string>, n: string)
    requires Injective(m)
    ensures |Named(m, n)| <= 1
  {
    var sel := Named(m, n);
    if sel != {} {
      HasMember(sel);
      var i :| i in sel;
      assert sel == {i};
    }
  }

  /** Staging a name the pre-check let through keeps the names of the table distinct. */
  lemma StageKeepsDistinct(w: Store, c: Catalog, n: string)
    requires Injective(Rows(w, c)) && !Taken(w, c, n)
    requires c == Maps ==> n != ""
    ensures Injective(Rows(Stage(w, c, n), c))
  {
    if c == Maps {
      InjectiveNamed(Rows(w, c), n);
    }
  }

  lemma {:induction false} CreateLoopDistinct(s: Store, c: Catalog, w: Store, names: seq<string>, out: seq<Id>)
    requires Injective(Rows(s, c)) && Injective(Rows(w, c))
    requires c == Maps ==> forall j :: 0 <= j < |names| ==> names[j] != ""
    ensures Injective(Rows(CreateLoop(s, c, w, names, out).store, c))
    decreases |names|
  {
    if names != [] {
      var n := names[0];
      if !Taken(w, c, n) {
        var base := StageBase(s, c, w, n);
        if c == Maps && GetMap(w, Some(n), None).Ambiguous? {
          assert Given(Some(n));
          InjectiveNamed(Rows(w, c), n);
          assert false;
        }
        StageKeepsDistinct(base, c, n);
        CreateLoopDistinct(s, c, Stage(base, c, n), names[1..], out + [base.nextId]);
      }
    }
  }

  /** Status and Map carry no unique constraint: their names stay distinct
      only through the create pre-check, which holds for every catalog as
      long as no city name is empty (an empty city selects every map). */
  lemma CreateCatalogKeepsNamesDistinct(s: Store, c: Catalog, names: seq<string>)
    requires Injective(Rows(s, c))
    requires c == Maps ==> forall j :: 0 <= j < |names| ==> names[j] != ""
    ensures Injective(Rows(CreateCatalog(s, c, names).store, c))
  {
    CreateLoopDistinct(s, c, s, names, []);
  }

  lemma StageKeepsKeys(w: Store, c: Catalog, n: string)
    requires KeysUnique(w) && (NameConstrained(c) ==> !Taken(w, c, n))
    ensures KeysUnique(Stage(w, c, n))
  {
    var t := Stage(w, c, n);
    assert UserPhones(t) == UserPhones(w) && UserNames(t) == UserNames(w);
    assert CourierPhones(t) == CourierPhones(w) && CourierNames(t) == CourierNames(w);
    assert Titles(t) == Titles(w);
    if c == Roles || c == ThrashTypes {
      StageKeepsDistinct(w, c, n);
    } else {
      assert t.roles == w.roles && t.thrashTypes == w.thrashTypes;
    }
  }

  lemma {:induction false} CreateLoopUnique(s: Store, c: Catalog, w: Store, names: seq<string>, out: seq<Id>)
    requires KeysUnique(s) && KeysUnique(w)
    ensures CreateLoop(s, c, w, names, out).reply != Rejected
    decreases |names|
  {
    if names != [] {
      var n := names[0];
      if !Taken(w, c, n) {
        var base := StageBase(s, c, w, n);
        StageKeepsKeys(base, c, n);
        CreateLoopUnique(s, c, Stage(base, c, n), names[1..], out + [base.nextId]);
      }
    }
  }

  /** The pre-check also reads the rows staged earlier in the batch, so a
      create never reaches the commit with a duplicate name: it is never
      rejected by the unique constraints. */
  lemma CreateCatalogNeverRejected(s: Store, c: Catalog, names: seq<string>)
    requires KeysUnique(s)
    ensures CreateCatalog(s, c, names).reply != Rejected
  {
    CreateLoopUnique(s, c, s, names, []);
  }

  lemma StageKeepsRefs(w: Store, c: Catalog, n: string)
    requires RefsResolve(w)
    ensures RefsResolve(Stage(w, c, n))
  {
  }

  lemma {:induction false} CreateLoopKeeps(s: Store, c: Catalog, w: Store, names: seq<string>, out: seq<Id>)
    requires Valid(s) && RefsResolve(w) && FullyLinked(s) && FullyLinked(w) && s.nextId <= w.nextId
    ensures Valid(CreateLoop(s, c, w, names, out).store)
    ensures FullyLinked(CreateLoop(s, c, w, names, out).store)
    decreases |names|
  {
    if names != [] {
      var n := names[0];
      if !Taken(w, c, n) {
        var base := StageBase(s, c, w, n);
        StageKeepsRefs(base, c, n);
        CreateLoopKeeps(s, c, Stage(base, c, n), names[1..], out + [base.nextId]);
      }
    }
  }

  /** A create keeps the store consistent, and every user linked to every achievement. */
  lemma CreateCatalogKeeps(s: Store, c: Catalog, names: seq<string>)
    requires Valid(s) && FullyLinked(s)
    ensures Valid(CreateCatalog(s, c, names).store)
    ensures FullyLinked(CreateCatalog(s, c, names).store)
  {
    CreateLoopKeeps(s, c, s, names, []);
  }
}

=== FILE: catalog_delete.dfy ===
/** delete_role, delete_thrash_type, delete_status and delete_map
    (db/crud.py:267-284, 341-359, 416-434, 491-509): delete the rows of a
    name-only table selected by name or id, with the cascades of
    `Cascade.RemoveCatalogRow`. */

module CatalogDeletes {
  import opened Wrappers
  import opened Schema
  import opened Session
  import opened Lookup
  import opened Cascade
  import opened Dto
  import opened Catalogs

  // ---------------------------------------------------------------------
  // delete_role, delete_thrash_type, delete_status, delete_map (db/crud.py:267-284, 341-359, 416-434, 491-509)
  // ---------------------------------------------------------------------

  /** An item with neither a truthy name nor a truthy id returns None at
      once; `.one()` failing rolls back and returns None. */
  function DeleteLoop(s: Store, c: Catalog, w: Store, items: seq<CatalogDelete>, out: seq<Id>): (b: Batch<Id>)
    decreases |items|
    ensures !b.reply.Done? ==> b.store == s
    ensures b.reply.Done? ==> |b.reply.items| == |out| + |items|
  {
    if items == [] then Commit(s, w, out)
    else
      var d := items[0];
      if !Given(d.name) && !GivenInt(d.id) then Batch(s, Nothing)
      else
        match OneOrNone(Pick(Rows(w, c), d.name, d.id))
        case Found(i) => DeleteLoop(s, c, RemoveCatalogRow(w, c, i), items[1..], out + [i])
        case _ => Batch(s, Nothing)
  }

  function DeleteCatalog(s: Store, c: Catalog, items: seq<CatalogDelete>): (b: Batch<Id>)
    ensures !b.reply.Done? ==> b.store == s
    ensures b.reply.Done? ==> |b.reply.items| == |items|
  {
    DeleteLoop(s, c, s, items, [])
  }

  /** An item without a key. */
  predicate Keyless(d: CatalogDelete) {
    !Given(d.name) && !GivenInt(d.id)
  }

  lemma {:induction false} DeleteLoopAborts(s: Store, c: Catalog, w: Store, items: seq<CatalogDelete>,
                                            out: seq<Id>, k: nat)
    requires Rows(w, c).Keys <= Rows(s, c).Keys
    requires k < |items|
    requires Keyless(items[k]) || (!Given(items[k].name) && items[k].id.value !in Rows(s, c))
    ensures DeleteLoop(s, c, w, items, out) == Batch(s, Nothing)
    decreases |items|
  {
    var d := items[0];
    if !Keyless(d) {
      var f := OneOrNone(Pick(Rows(w, c), d.name, d.id));
      if f.Found? {
        assert k != 0;
        DeleteLoopAborts(s, c, RemoveCatalogRow(w, c, f.id), items[1..], out + [f.id], k - 1);
      }
    }
  }

  /** A keyless item anywhere in the batch, or one whose id names no
      stored row, makes the call return None with nothing committed. */
  lemma DeleteCatalogAborts(s: Store, c: Catalog, items: seq<CatalogDelete>, k: nat)
    requires k < |items|
    requires Keyless(items[k]) || (!Given(items[k].name) && items[k].id.value !in Rows(s, c))
    ensures DeleteCatalog(s, c, items) == Batch(s, Nothing)
  {
    DeleteLoopAborts(s, c, s, items, [], k);
  }

  /** Deleting row `i` takes it, and only it, out of the rows named `n`. */
  lemma NamedAfterRemove(w: Store, c: Catalog, i: Id, n: string)
    ensures Named(Rows(RemoveCatalogRow(w, c, i), c), n) == Named(Rows(w, c), n) - {i}
  {
    var t := RemoveCatalogRow(w, c, i);
    forall j | j in Named(Rows(t, c), n)
      ensures j in Named(Rows(w, c), n) - {i}
    {
      assert Rows(t, c)[j] == Rows(w, c)[j];
    }
    forall j | j in Named(Rows(w, c), n) - {i}
      ensures j in Named(Rows(t, c), n)
    {
      assert Rows(t, c)[j] == Rows(w, c)[j];
    }
  }

  /** An earlier delete that spares the rows named `n` keeps them all. */
  lemma DeleteStepSpares(s: Store, c: Catalog, w: Store, d: CatalogDelete, i: Id, n: string)
    requires n != "" && OneOrNone(Pick(Rows(w, c), d.name, d.id)) == Found(i)
    requires Named(Rows(w, c), n) <= Named(Rows(s, c), n) && |Named(Rows(s, c), n)| != 1
    requires Named(Rows(s, c), n) == {} ||
      (Named(Rows(w, c), n) == Named(Rows(s, c), n) && SparesById(Rows(s, c), d.name, d.id, n))
    ensures var t := RemoveCatalogRow(w, c, i);
      && Named(Rows(t, c), n) <= Named(Rows(s, c), n)
      && (Named(Rows(s, c), n) == {} || Named(Rows(t, c), n) == Named(Rows(s, c), n))
  {
    NamedAfterRemove(w, c, i, n);
    if Named(Rows(s, c), n) != {} {
      assert i !in Named(Rows(w, c), n);
    }
  }

  lemma {:induction false} DeleteLoopNameFails(s: Store, c: Catalog, w: Store, items: seq<CatalogDelete>,
                                               out: seq<Id>, k: nat, n: string)
    requires k < |items| && items[k].name == Some(n) && n != ""
    requires |Named(Rows(s, c), n)| != 1
    requires Named(Rows(w, c), n) <= Named(Rows(s, c), n)
    requires Named(Rows(s, c), n) == {} ||
      (Named(Rows(w, c), n) == Named(Rows(s, c), n) &&
       forall j :: 0 <= j < k ==> SparesById(Rows(s, c), items[j].name, items[j].id, n))
    ensures DeleteLoop(s, c, w, items, out) == Batch(s, Nothing)
    decreases |items|
  {
    var d := items[0];
    if !Keyless(d) {
      var f := OneOrNone(Pick(Rows(w, c), d.name, d.id));
      if k == 0 {
        assert Pick(Rows(w, c), d.name, d.id) == Named(Rows(w, c), n);
        assert !f.Found?;
      } else if f.Found? {
        assert SparesById(Rows(s, c), d.name, d.id, n) || Named(Rows(s, c), n) == {};
        DeleteStepSpares(s, c, w, d, f.id, n);
        DeleteLoopNameFails(s, c, RemoveCatalogRow(w, c, f.id), items[1..], out + [f.id], k - 1, n);
      }
    }
  }

  /** An item whose truthy name names no row makes the whole batch return
      None with nothing committed. Two or more rows of that name (status
      and map names are not unique) do the same, as long as no earlier item
      deleted one of them by id. */
  lemma DeleteCatalogNameFails(s: Store, c: Catalog, items: seq<CatalogDelete>, k: nat)
    requires k < |items| && Given(items[k].name)
    requires |Named(Rows(s, c), items[k].name.value)| != 1
    requires Named(Rows(s, c), items[k].name.value) == {} ||
      forall j :: 0 <= j < k ==> SparesById(Rows(s, c), items[j].name, items[j].id, items[k].name.value)
    ensures DeleteCatalog(s, c, items) == Batch(s, Nothing)
  {
    DeleteLoopNameFails(s, c, s, items, [], k, items[k].name.value);
  }

  /** Every item the delete validator refuses is keyless, so the crud
      function aborts on it as well. */
  lemma UnvalidatedDeleteAborts(s: Store, c: Catalog, items: seq<CatalogDelete>, k: nat)
    requires k < |items| && !DeleteAccepted(items[k])
    ensures DeleteCatalog(s, c, items) == Batch(s, Nothing)
  {
    DeleteCatalogAborts(s, c, items, k);
  }

  lemma {:induction false} DeleteLoopRemoves(s: Store, c: Catalog, w: Store, items: seq<CatalogDelete>, out: seq<Id>)
    requires Rows(w, c).Keys == Rows(s, c).Keys - Elems(out)
    requires Extends(Rows(w, c), Rows(s, c))
    requires forall d :: d != c ==> Rows(w, d) == Rows(s, d)
    ensures var b := DeleteLoop(s, c, w, items, out);
      b.reply.Done? ==>
        && Rows(b.store, c).Keys == Rows(s, c).Keys - Elems(b.reply.items)
        && Extends(Rows(b.store, c), Rows(s, c))
        && (forall d :: d != c ==> Rows(b.store, d) == Rows(s, d))
    decreases |items|
  {
    if items != [] {
      var d := items[0];
      if !Keyless(d) {
        var f := OneOrNone(Pick(Rows(w, c), d.name, d.id));
        if f.Found? {
          var out' := out + [f.id];
          var t := RemoveCatalogRow(w, c, f.id);
          assert Elems(out') == Elems(out) + {f.id};
          assert Rows(t, c).Keys == Rows(s, c).Keys - Elems(out');
          assert Extends(Rows(t, c), Rows(s, c));
          DeleteLoopRemoves(s, c, t, items[1..], out');
        }
      }
    }
  }

  /** A committed delete removes exactly the rows it returns and leaves
      every other row of every catalog as it was. */
  lemma DeleteCatalogRemoves(s: Store, c: Catalog, items: seq<CatalogDelete>)
    ensures var b := DeleteCatalog(s, c, items);
      b.reply.Done? ==>
        && Rows(b.store, c).Keys == Rows(s, c).Keys - Elems(b.reply.items)
        && Extends(Rows(b.store, c), Rows(s, c))
        && (forall d :: d != c ==> Rows(b.store, d) == Rows(s, d))
  {
    DeleteLoopRemoves(s, c, s, items, []);
  }

  lemma {:induction false} DeleteLoopKeeps(s: Store, c: Catalog, w: Store, items: seq<CatalogDelete>, out: seq<Id>)
    requires Valid(s) && RefsResolve(w) && FullyLinked(s) && FullyLinked(w)
    ensures Valid(DeleteLoop(s, c, w, items, out).store)
    ensures FullyLinked(DeleteLoop(s, c, w, items, out).store)
    decreases |items|
  {
    if items != [] {
      var d := items[0];
      if !Keyless(d) {
        var f := OneOrNone(Pick(Rows(w, c), d.name, d.id));
        if f.Found? {
          RemoveCatalogRowKeeps(w, c, f.id);
          DeleteLoopKeeps(s, c, RemoveCatalogRow(w, c, f.id), items[1..], out + [f.id]);
        }
      }
    }
  }

  /** A delete keeps every foreign key resolved: users lose the deleted
      role, points the deleted map, requests the deleted status, and the
      link rows of a deleted thrash type go. */
  lemma DeleteCatalogKeeps(s: Store, c: Catalog, items: seq<CatalogDelete>)
    requires Valid(s) && FullyLinked(s)
    ensures Valid(DeleteCatalog(s, c, items).store)
    ensures FullyLinked(DeleteCatalog(s, c, items).store)
  {
    DeleteLoopKeeps(s, c, s, items, []);
  }
}

=== FILE: catalog_update.dfy ===
/** update_role, update_thrash_type, update_status and update_map
    (db/crud.py:248-264, 321-338, 396-413, 471-488): rename the rows of a
    name-only table selected by old name or old id. */

module CatalogUpdates {
  import opened Wrappers
  import opened Schema
  import opened Session
  import opened Lookup
  import opened Dto
  import opened Catalogs

  // ---------------------------------------------------------------------
  // update_role, update_thrash_type, update_status, update_map (db/crud.py:248-264, 321-338, 396-413, 471-488)
  // ---------------------------------------------------------------------

  /** `.one()` on the selection: anything but exactly one row raises,
      rolls the batch back and returns None. */
  function UpdateLoop(s: Store, c: Catalog, w: Store, items: seq<CatalogUpdate>, out: seq<Id>): (b: Batch<Id>)
    decreases |items|
    ensures !b.reply.Done? ==> b.store == s
    ensures b.reply.Done? ==> |b.reply.items| == |out| + |items|
  {
    if items == [] then Commit(s, w, out)
    else
      var u := items[0];
      match OneOrNone(Pick(Rows(w, c), u.oldName, u.oldId))
      case Found(i) => UpdateLoop(s, c, Rename(w, c, i, u.newName), items[1..], out + [i])
      case _ => Batch(s, Nothing)
  }

  function UpdateCatalog(s: Store, c: Catalog, items: seq<CatalogUpdate>): (b: Batch<Id>)
    ensures !b.reply.Done? ==> b.store == s
    ensures b.reply.Done? ==> |b.reply.items| == |items|
  {
    UpdateLoop(s, c, s, items, [])
  }

  lemma {:induction false} UpdateLoopMissing(s: Store, c: Catalog, w: Store, items: seq<CatalogUpdate>,
                                             out: seq<Id>, k: nat)
    requires Rows(w, c).Keys == Rows(s, c).Keys
    requires k < |items| && !Given(items[k].oldName)
    requires items[k].oldId.None? || items[k].oldId.value !in Rows(s, c)
    ensures UpdateLoop(s, c, w, items, out) == Batch(s, Nothing)
    decreases |items|
  {
    var u := items[0];
    var f := OneOrNone(Pick(Rows(w, c), u.oldName, u.oldId));
    if f.Found? {
      assert k != 0;
      UpdateLoopMissing(s, c, Rename(w, c, f.id, u.newName), items[1..], out + [f.id], k - 1);
    }
  }

  /** An item that names no row by its old name and no stored row by its
      old id aborts the whole batch: None, and nothing committed. */
  lemma UpdateCatalogMissingAborts(s: Store, c: Catalog, items: seq<CatalogUpdate>, k: nat)
    requires k < |items| && !Given(items[k].oldName)
    requires items[k].oldId.None? || items[k].oldId.value !in Rows(s, c)
    ensures UpdateCatalog(s, c, items) == Batch(s, Nothing)
  {
    UpdateLoopMissing(s, c, s, items, [], k);
  }

  /** An item the update validator refuses (no old id, no old name) would
      select nothing, so the crud function aborts on it as well. */
  lemma UnvalidatedUpdateAborts(s: Store, c: Catalog, items: seq<CatalogUpdate>, k: nat)
    requires k < |items| && !UpdateAccepted(items[k])
    ensures UpdateCatalog(s, c, items) == Batch(s, Nothing)
  {
    UpdateCatalogMissingAborts(s, c, items, k);
  }

  /** Giving row `i` a name other than `n` takes it out of the rows named `n`. */
  lemma NamedAfterRename(m: map<Id, string>, i: Id, x: string, n: string)
    requires x != n
    ensures Named(m[i := x], n) == Named(m, n) - {i}
  {
  }

  lemma {:induction false} UpdateLoopNameFails(s: Store, c: Catalog, w: Store, items: seq<CatalogUpdate>,
                                               out: seq<Id>, k: nat, n: string)
    requires k < |items| && items[k].oldName == Some(n) && n != ""
    requires |Named(Rows(s, c), n)| != 1
    requires forall j :: 0 <= j < k ==> items[j].newName != n
    requires Named(Rows(w, c), n) <= Named(Rows(s, c), n)
    requires Named(Rows(s, c), n) == {} ||
      (Named(Rows(w, c), n) == Named(Rows(s, c), n) &&
       forall j :: 0 <= j < k ==> SparesById(Rows(s, c), items[j].oldName, items[j].oldId, n))
    ensures UpdateLoop(s, c, w, items, out) == Batch(s, Nothing)
    decreases |items|
  {
    var u := items[0];
    var f := OneOrNone(Pick(Rows(w, c), u.oldName, u.oldId));
    if k == 0 {
      assert Pick(Rows(w, c), u.oldName, u.oldId) == Named(Rows(w, c), n);
      assert !f.Found?;
    } else if f.Found? {
      var i := f.id;
      var t := Rename(w, c, i, u.newName);
      NamedAfterRename(Rows(w, c), i, u.newName, n);
      if Named(Rows(s, c), n) != {} {
        assert SparesById(Rows(s, c), items[0].oldName, items[0].oldId, n);
        assert i !in Named(Rows(w, c), n);
      }
      UpdateLoopNameFails(s, c, t, items[1..], out + [i], k - 1, n);
    }
  }

  /** An item whose truthy old name names no row makes the whole batch
      return None with nothing committed, unless an earlier item renamed a
      row to that name. Two or more rows of that name (status and map names
      are not unique) do the same, as long as no earlier item renamed one of
      them away. */
  lemma UpdateCatalogNameFails(s: Store, c: Catalog, items: seq<CatalogUpdate>, k: nat)
    requires k < |items| && Given(items[k].oldName)
    requires |Named(Rows(s, c), items[k].oldName.value)| != 1
    requires forall j :: 0 <= j < k ==> items[j].newName != items[k].oldName.value
    requires Named(Rows(s, c), items[k].oldName.value) == {} ||
      forall j :: 0 <= j < k ==> SparesById(Rows(s, c), items[j].oldName, items[j].oldId, items[k].oldName.value)
    ensures UpdateCatalog(s, c, items) == Batch(s, Nothing)
  {
    UpdateLoopNameFails(s, c, s, items, [], k, items[k].oldName.value);
  }

  /** The set of new names a batch hands out. */
  function NewNames(items: seq<CatalogUpdate>): set<string> {
    set j | 0 <= j < |items| :: items[j].newName
  }

  lemma {:induction false} UpdateLoopRenames(s: Store, c: Catalog, w: Store, items: seq<CatalogUpdate>,
                                             out: seq<Id>, names: set<string>)
    requires Rows(w, c).Keys == Rows(s, c).Keys && SameOutside(s, w, c)
    requires forall i :: i in Rows(s, c) && i !in out ==> Rows(w, c)[i] == Rows(s, c)[i]
    requires forall j :: 0 <= j < |out| ==> out[j] in Rows(w, c) && Rows(w, c)[out[j]] in names
    requires forall j :: 0 <= j < |items| ==> items[j].newName in names
    ensures var b := UpdateLoop(s, c, w, items, out);
      b.reply.Done? ==>
        && Rows(b.store, c).Keys == Rows(s, c).Keys && SameOutside(s, b.store, c)
        && (forall i :: i in Rows(s, c) && i !in b.reply.items ==> Rows(b.store, c)[i] == Rows(s, c)[i])
        && (forall j :: 0 <= j < |b.reply.items| ==>
              b.reply.items[j] in Rows(b.store, c) && Rows(b.store, c)[b.reply.items[j]] in names)
    decreases |items|
  {
    if items != [] {
      var u := items[0];
      var f := OneOrNone(Pick(Rows(w, c), u.oldName, u.oldId));
      if f.Found? {
        UpdateLoopRenames(s, c, Rename(w, c, f.id, u.newName), items[1..], out + [f.id], names);
      }
    }
  }

  lemma {:induction false} UpdateLoopLast(s: Store, c: Catalog, w: Store, items: seq<CatalogUpdate>, out: seq<Id>)
    requires items != []
    ensures var b := UpdateLoop(s, c, w, items, out);
      b.reply.Done? ==> var last := b.reply.items[|b.reply.items| - 1];
        last in Rows(b.store, c) && Rows(b.store, c)[last] == items[|items| - 1].newName
    decreases |items|
  {
    var u := items[0];
    var f := OneOrNone(Pick(Rows(w, c), u.oldName, u.oldId));
    if f.Found? && |items| > 1 {
      UpdateLoopLast(s, c, Rename(w, c, f.id, u.newName), items[1..], out + [f.id]);
      assert items[1..][|items[1..]| - 1] == items[|items| - 1];
    }
  }

  /** A committed update renames only the rows it selected, each to a new
      name of the batch, the row of the last item to its name, and keeps
      every id and every other table. */
  lemma UpdateCatalogRenames(s: Store, c: Catalog, items: seq<CatalogUpdate>)
    ensures var b := UpdateCatalog(s, c, items);
      b.reply.Done? ==>
        && Rows(b.store, c).Keys == Rows(s, c).Keys && SameOutside(s, b.store, c)
        && (forall i :: i in Rows(s, c) && i !in b.reply.items ==> Rows(b.store, c)[i] == Rows(s, c)[i])
        && (forall j :: 0 <= j < |b.reply.items| ==>
              b.reply.items[j] in Rows(b.store, c) && Rows(b.store, c)[b.reply.items[j]] in NewNames(items))
        && (items != [] ==> var last := b.reply.items[|b.reply.items| - 1];
              last in Rows(b.store, c) && Rows(b.store, c)[last] == items[|items| - 1].newName)
  {
    assert forall j :: 0 <= j < |items| ==> items[j].newName in NewNames(items);
    UpdateLoopRenames(s, c, s, items, [], NewNames(items));
    if items != [] {
      UpdateLoopLast(s, c, s, items, []);
    }
  }

  lemma RenameKeepsRefs(w: Store, c: Catalog, i: Id, n: string)
    requires i in Rows(w, c) && RefsResolve(w)
    ensures RefsResolve(Rename(w, c, i, n))
  {
  }

  lemma {:induction false} UpdateLoopKeeps(s: Store, c: Catalog, w: Store, items: seq<CatalogUpdate>, out: seq<Id>)
    requires Valid(s) && RefsResolve(w) && FullyLinked(s) && FullyLinked(w)
    ensures Valid(UpdateLoop(s, c, w, items, out).store)
    ensures FullyLinked(UpdateLoop(s, c, w, items, out).store)
    decreases |items|
  {
    if items != [] {
      var u := items[0];
      var f := OneOrNone(Pick(Rows(w, c), u.oldName, u.oldId));
      if f.Found? {
        RenameKeepsRefs(w, c, f.id, u.newName);
        UpdateLoopKeeps(s, c, Rename(w, c, f.id, u.newName), items[1..], out + [f.id]);
      }
    }
  }

  lemma UpdateCatalogKeeps(s: Store, c: Catalog, items: seq<CatalogUpdate>)
    requires Valid(s) && FullyLinked(s)
    ensures Valid(UpdateCatalog(s, c, items).store)
    ensures FullyLinked(UpdateCatalog(s, c, items).store)
  {
    UpdateLoopKeeps(s, c, s, items, []);
  }
}

=== FILE: couriers.dfy ===
/** The courier table (db/crud.py:531-626): create_courier,
    update_couriers and delete_courier. */
module Couriers {
  import opened Wrappers
  import opened Schema
  import opened Session
  import opened Lookup
  import opened Cascade
  import opened Dto

  // ---------------------------------------------------------------------
  // create_courier (db/crud.py:531-545)
  // ---------------------------------------------------------------------

  /** The fields the body set, with the table's fixed role. */
  function NewCourier(d: CourierCreate): Courier {
    Courier(d.phone, d.username, d.name, d.surname, d.birthday, d.deliveryCount, d.salary, d.password, CourierRole)
  }

  /** Every field the create payload names is stored as given. */
  predicate Carries(x: Courier, d: CourierCreate) {
    && x.phone == d.phone && x.username == d.username && x.name == d.name && x.surname == d.surname
    && x.birthday == d.birthday && x.deliveryCount == d.deliveryCount && x.salary == d.salary
    && x.password == d.password
  }

  /** create_courier: one row, committed at once; a duplicate phone or
      username fails the commit and the call returns None. */
  function CreateCourier(s: Store, d: CourierCreate): (b: Batch<Id>)
    ensures !b.reply.Done? ==> b == Batch(s, Nothing)
    ensures b.reply.Done? ==> b.reply.items == [s.nextId]
    ensures b.reply.Done? ==> b.store == s.(couriers := b.store.couriers, nextId := s.nextId + 1)
    ensures b.reply.Done? ==> s.nextId in b.store.couriers && b.store.couriers[s.nextId].role == CourierRole
    ensures b.reply.Done? ==> b.store.couriers[s.nextId].phone == d.phone && b.store.couriers[s.nextId].password == d.password
    ensures b.reply.Done? ==> forall c :: c in s.couriers && c != s.nextId ==> c in b.store.couriers && b.store.couriers[c] == s.couriers[c]
    ensures b.reply.Done? ==> Carries(b.store.couriers[s.nextId], d)
    ensures b.reply.Done? ==> b.store.couriers.Keys == s.couriers.Keys + {s.nextId}
  {
    var c := s.nextId;
    var w := s.(couriers := s.couriers[c := NewCourier(d)], nextId := c + 1);
    if KeysUnique(w) then Batch(w, Done([c])) else Batch(s, Nothing)
  }

  /** Some other courier has the phone, or the (present) username. */
  predicate Duplicates(s: Store, d: CourierCreate) {
    exists v :: v in s.couriers && (s.couriers[v].phone == d.phone || (d.username.Some? && s.couriers[v].username == d.username))
  }

  /** On a consistent store, create_courier succeeds exactly when neither
      the phone nor the username is taken. */
  lemma CreateCourierSucceedsIff(s: Store, d: CourierCreate)
    requires Valid(s)
    ensures CreateCourier(s, d).reply.Done? <==> !Duplicates(s, d)
  {
    var c := s.nextId;
    var w := s.(couriers := s.couriers[c := NewCourier(d)], nextId := c + 1);
    assert c !in s.couriers;
    assert CreateCourier(s, d).reply.Done? <==> KeysUnique(w);
    if Duplicates(s, d) {
      var v :| v in s.couriers && (s.couriers[v].phone == d.phone || (d.username.Some? && s.couriers[v].username == d.username));
      if s.couriers[v].phone == d.phone {
        assert CourierPhones(w)[v] == CourierPhones(w)[c];
      } else {
        assert CourierNames(w)[v] == CourierNames(w)[c];
      }
    } else {
      assert UserPhones(w) == UserPhones(s) && UserNames(w) == UserNames(s);
      assert Titles(w) == Titles(s);
      forall i, j | i in CourierPhones(w) && j in CourierPhones(w) && i != j
        ensures CourierPhones(w)[i] != CourierPhones(w)[j]
      {
        if i != c && j != c {
          assert CourierPhones(s)[i] == CourierPhones(w)[i] && CourierPhones(s)[j] == CourierPhones(w)[j];
        }
      }
      forall i, j | i in CourierNames(w) && j in CourierNames(w) && i != j
        ensures CourierNames(w)[i] != CourierNames(w)[j]
      {
        if i != c && j != c {
          assert CourierNames(s)[i] == CourierNames(w)[i] && CourierNames(s)[j] == CourierNames(w)[j];
        }
      }
    }
  }

  lemma CreateCourierKeeps(s: Store, d: CourierCreate)
    requires Valid(s)
    ensures Valid(CreateCourier(s, d).store)
    ensures FullyLinked(s) ==> FullyLinked(CreateCourier(s, d).store)
  {
  }

  // ---------------------------------------------------------------------
  // update_couriers (db/crud.py:577-609)
  // ---------------------------------------------------------------------

  predicate NoCourierKey(u: CourierUpdate) {
    !Given(u.phone) && !Given(u.username)
  }

  /** The courier an item edits: by phone, and by username when the phone
      finds nobody. */
  function CourierTarget(w: Store, u: CourierUpdate): (r: Option<Id>)
    ensures r.Some? ==> r.value in w.couriers
    ensures r.Some? ==>
      (Given(u.phone) && w.couriers[r.value].phone == u.phone.value)
      || (Given(u.username) && w.couriers[r.value].username == u.username)
    ensures NoCourierKey(u) ==> r.None?
  {
    var byPhone := GetCourier(w, None, None, u.phone);
    if byPhone.Some? then byPhone else GetCourier(w, None, u.username, None)
  }

  /** With unique phones and usernames, the courier whose phone the item
      gives is picked; failing that, the courier whose username it gives. */
  lemma CourierTargetFinds(w: Store, u: CourierUpdate, v: Id)
    requires KeysUnique(w) && v in w.couriers
    requires (Given(u.phone) && u.phone.value == w.couriers[v].phone)
      || (Given(u.username) && u.username == w.couriers[v].username
          && forall c :: c in w.couriers ==> !(Given(u.phone) && w.couriers[c].phone == u.phone.value))
    ensures CourierTarget(w, u) == Some(v)
  {
    if Given(u.phone) && u.phone.value == w.couriers[v].phone {
      PhoneFindsCourier(w, v);
    } else {
      var n := u.username.value;
      forall c | c in CouriersNamed(w, n)
        ensures c == v
      {
        assert CourierNames(w)[c] == n == CourierNames(w)[v];
      }
      assert CouriersNamed(w, n) == {v};
    }
  }

  /** A field changes only when the item gives a truthy value for it,
      and then takes that value; password and role never change. */
  function PatchedCourier(was: Courier, u: CourierUpdate): (now: Courier)
    ensures now.phone != was.phone ==> Given(u.phone)
    ensures Given(u.phone) ==> now.phone == u.phone.value
    ensures now.username != was.username ==> Given(u.username)
    ensures Given(u.username) ==> now.username == u.username
    ensures now.name != was.name ==> Given(u.name)
    ensures Given(u.name) ==> now.name == u.name
    ensures now.surname != was.surname ==> Given(u.surname)
    ensures Given(u.surname) ==> now.surname == u.surname
    ensures now.birthday != was.birthday ==> u.birthday.Some?
    ensures u.birthday.Some? ==> now.birthday == u.birthday
    ensures now.salary != was.salary ==> GivenInt(u.salary)
    ensures GivenInt(u.salary) ==> now.salary == u.salary
    ensures now.deliveryCount != was.deliveryCount ==> GivenInt(u.deliveryCount)
    ensures GivenInt(u.deliveryCount) ==> now.deliveryCount == u.deliveryCount
    ensures now.password == was.password && now.role == was.role
  {
    was.(
      phone := if Given(u.phone) then u.phone.value else was.phone,
      username := if Given(u.username) then u.username else was.username,
      name := if Given(u.name) then u.name else was.name,
      surname := if Given(u.surname) then u.surname else was.surname,
      birthday := if u.birthday.Some? then u.birthday else was.birthday,
      salary := if GivenInt(u.salary) then u.salary else was.salary,
      deliveryCount := if GivenInt(u.deliveryCount) then u.deliveryCount else was.deliveryCount)
  }

  /** Items that find no courier are skipped; the commit at the end is
      outside any `try`, so a duplicate phone or username fails the call. */
  function UpdateLoop(s: Store, w: Store, items: seq<CourierUpdate>, out: seq<Id>): (b: Batch<Id>)
    requires w == s.(couriers := w.couriers) && w.couriers.Keys == s.couriers.Keys
    decreases |items|
    ensures !b.reply.Done? ==> b.store == s
    ensures b.store == s.(couriers := b.store.couriers) && b.store.couriers.Keys == s.couriers.Keys
  {
    if items == [] then Commit(s, w, out)
    else
      var u := items[0];
      if NoCourierKey(u) then UpdateLoop(s, w, items[1..], out)
      else
        match CourierTarget(w, u)
        case None => UpdateLoop(s, w, items[1..], out)
        case Some(c) =>
          UpdateLoop(s, w.(couriers := w.couriers[c := PatchedCourier(w.couriers[c], u)]), items[1..], out + [c])
  }

  /** update_couriers touches no other table and no courier id. */
  function UpdateCouriers(s: Store, items: seq<CourierUpdate>): (b: Batch<Id>)
    ensures !b.reply.Done? ==> b.store == s
    ensures b.store == s.(couriers := b.store.couriers) && b.store.couriers.Keys == s.couriers.Keys
  {
    UpdateLoop(s, s, items, [])
  }

  lemma {:induction false} UpdateLoopTouches(s: Store, w: Store, items: seq<CourierUpdate>, out: seq<Id>)
    requires w == s.(couriers := w.couriers) && w.couriers.Keys == s.couriers.Keys
    requires forall c :: c in w.couriers && c !in Elems(out) ==> w.couriers[c] == s.couriers[c]
    ensures var b := UpdateLoop(s, w, items, out);
      b.reply.Done? ==>
        forall c :: c in b.store.couriers && c !in Elems(b.reply.items) ==> b.store.couriers[c] == s.couriers[c]
    decreases |items|
  {
    if items != [] {
      var u := items[0];
      if NoCourierKey(u) {
        UpdateLoopTouches(s, w, items[1..], out);
      } else {
        match CourierTarget(w, u)
        case None => UpdateLoopTouches(s, w, items[1..], out);
        case Some(c) =>
          assert Elems(out + [c]) == Elems(out) + {c};
          UpdateLoopTouches(s, w.(couriers := w.couriers[c := PatchedCourier(w.couriers[c], u)]), items[1..], out + [c]);
      }
    }
  }

  /** Only the couriers the call returns can differ afterwards. */
  lemma UpdateCouriersTouchesListed(s: Store, items: seq<CourierUpdate>)
    ensures var b := UpdateCouriers(s, items);
      b.reply.Done? ==>
        forall c :: c in b.store.couriers && c !in Elems(b.reply.items) ==> b.store.couriers[c] == s.couriers[c]
  {
    UpdateLoopTouches(s, s, items, []);
  }

  lemma {:induction false} UpdateLoopKeeps(s: Store, w: Store, items: seq<CourierUpdate>, out: seq<Id>)
    requires w == s.(couriers := w.couriers) && w.couriers.Keys == s.couriers.Keys
    requires Valid(s)
    ensures Valid(UpdateLoop(s, w, items, out).store)
    decreases |items|
  {
    if items != [] {
      var u := items[0];
      if NoCourierKey(u) {
        UpdateLoopKeeps(s, w, items[1..], out);
      } else {
        match CourierTarget(w, u)
        case None => UpdateLoopKeeps(s, w, items[1..], out);
        case Some(c) =>
          UpdateLoopKeeps(s, w.(couriers := w.couriers[c := PatchedCourier(w.couriers[c], u)]), items[1..], out + [c]);
      }
    }
  }

  lemma UpdateCouriersKeeps(s: Store, items: seq<CourierUpdate>)
    requires Valid(s)
    ensures Valid(UpdateCouriers(s, items).store)
    ensures FullyLinked(s) ==> FullyLinked(UpdateCouriers(s, items).store)
  {
    UpdateLoopKeeps(s, s, items, []);
  }

  // ---------------------------------------------------------------------
  // delete_courier (db/crud.py:612-626)
  // ---------------------------------------------------------------------

  predicate NoDeleteKey(d: CourierDelete) {
    !GivenInt(d.id) && !Given(d.phone)
  }

  /** A keyless item returns None at once; a courier that is not found
      makes `session.delete(None)` raise, which rolls back and returns None. */
  function DeleteLoop(s: Store, w: Store, items: seq<CourierDelete>, out: seq<Id>): (b: Batch<Id>)
    decreases |items|
    ensures !b.reply.Done? ==> b.store == s
  {
    if items == [] then Commit(s, w, out)
    else
      var d := items[0];
      if NoDeleteKey(d) then Batch(s, Nothing)
      else
        match GetCourier(w, d.id, None, d.phone)
        case None => Batch(s, Nothing)
        case Some(c) => DeleteLoop(s, RemoveCourier(w, c), items[1..], out + [c])
  }

  function DeleteCouriers(s: Store, items: seq<CourierDelete>): (b: Batch<Id>)
    ensures !b.reply.Done? ==> b.store == s
  {
    DeleteLoop(s, s, items, [])
  }

  lemma {:induction false} DeleteLoopAborts(s: Store, w: Store, items: seq<CourierDelete>, out: seq<Id>, k: nat)
    requires w.couriers.Keys <= s.couriers.Keys
    requires k < |items|
    requires NoDeleteKey(items[k]) || (GivenInt(items[k].id) && items[k].id.value !in s.couriers)
    ensures DeleteLoop(s, w, items, out) == Batch(s, Nothing)
    decreases |items|
  {
    var d := items[0];
    if !NoDeleteKey(d) {
      match GetCourier(w, d.id, None, d.phone)
      case None =>
      case Some(c) => DeleteLoopAborts(s, RemoveCourier(w, c), items[1..], out + [c], k - 1);
    }
  }

  /** A keyless item, or an id that names no courier, anywhere in the
      batch: None, and nothing is deleted. */
  lemma DeleteCouriersAborts(s: Store, items: seq<CourierDelete>, k: nat)
    requires k < |items|
    requires NoDeleteKey(items[k]) || (GivenInt(items[k].id) && items[k].id.value !in s.couriers)
    ensures DeleteCouriers(s, items) == Batch(s, Nothing)
  {
    DeleteLoopAborts(s, s, items, [], k);
  }

  lemma {:induction false} DeleteLoopRemoves(s: Store, w: Store, items: seq<CourierDelete>, out: seq<Id>)
    requires w.couriers.Keys == s.couriers.Keys - Elems(out)
    requires forall c :: c in w.couriers ==> w.couriers[c] == s.couriers[c]
    requires w.requests.Keys == s.requests.Keys
    requires forall r :: r in w.requests && w.requests[r].courierId.Some? ==>
      w.requests[r].courierId == s.requests[r].courierId && w.requests[r].courierId.value !in Elems(out)
    ensures var b := DeleteLoop(s, w, items, out);
      b.reply.Done? ==>
        && b.store.couriers.Keys == s.couriers.Keys - Elems(b.reply.items)
        && (forall c :: c in b.store.couriers ==> b.store.couriers[c] == s.couriers[c])
        && b.store.requests.Keys == s.requests.Keys
        && (forall r :: r in b.store.requests && b.store.requests[r].courierId.Some? ==>
              b.store.requests[r].courierId == s.requests[r].courierId
              && b.store.requests[r].courierId.value !in Elems(b.reply.items))
    decreases |items|
  {
    if items != [] {
      var d := items[0];
      if !NoDeleteKey(d) {
        match GetCourier(w, d.id, None, d.phone)
        case None =>
        case Some(c) =>
          assert Elems(out + [c]) == Elems(out) + {c};
          DeleteLoopRemoves(s, RemoveCourier(w, c), items[1..], out + [c]);
      }
    }
  }

  /** A committed delete removes exactly the couriers it returns, and the
      requests they served keep no courier; every other request keeps its
      courier. */
  lemma DeleteCouriersRemoves(s: Store, items: seq<CourierDelete>)
    ensures var b := DeleteCouriers(s, items);
      b.reply.Done? ==>
        && b.store.couriers.Keys == s.couriers.Keys - Elems(b.reply.items)
        && (forall c :: c in b.store.couriers ==> b.store.couriers[c] == s.couriers[c])
        && b.store.requests.Keys == s.requests.Keys
        && (forall r :: r in b.store.requests && b.store.requests[r].courierId.Some? ==>
              b.store.requests[r].courierId == s.requests[r].courierId
              && b.store.requests[r].courierId.value !in Elems(b.reply.items))
  {
    DeleteLoopRemoves(s, s, items, []);
  }

  lemma {:induction false} DeleteLoopKeeps(s: Store, w: Store, items: seq<CourierDelete>, out: seq<Id>)
    requires Valid(s) && RefsResolve(w) && FullyLinked(s) && FullyLinked(w)
    ensures Valid(DeleteLoop(s, w, items, out).store)
    ensures FullyLinked(DeleteLoop(s, w, items, out).store)
    decreases |items|
  {
    if items != [] {
      var d := items[0];
      if !NoDeleteKey(d) {
        match GetCourier(w, d.id, None, d.phone)
        case None =>
        case Some(c) =>
          RemoveCourierKeeps(w, c);
          DeleteLoopKeeps(s, RemoveCourier(w, c), items[1..], out + [c]);
      }
    }
  }

  lemma DeleteCouriersKeeps(s: Store, items: seq<CourierDelete>)
    requires Valid(s) && FullyLinked(s)
    ensures Valid(DeleteCouriers(s, items).store)
    ensures FullyLinked(DeleteCouriers(s, items).store)
  {
    DeleteLoopKeeps(s, s, items, []);
  }
}

=== FILE: dto.dfy ===
/** The request bodies of db/base_models.py that reach the crud functions.
    A field the caller left out, or sent as null, is `None`; a required
    field is a plain value. Phone numbers are opaque strings. */
module Dto {
  import opened Wrappers
  import opened Schema

  // ---------------------------------------------------------------------
  // Role, ThrashType, Status and Map
  // ---------------------------------------------------------------------

  /** RoleUpdate / ThrashTypeUpdate / StatusUpdate / MapUpdate: the row is
      named by `oldName` (old_name, old_thrash_type, old_status, old_city)
      or by `oldId`; `newName` is required. */
  datatype CatalogUpdate = CatalogUpdate(oldId: Option<int>, oldName: Option<string>, newName: string)

  /** RoleDelete / ThrashTypeDelete / StatusDelete / MapDelete. */
  datatype CatalogDelete = CatalogDelete(id: Option<int>, name: Option<string>)

  /** The `@validator` on the required new name: the item is refused when
      both the old id and the old name are falsy. */
  predicate UpdateAccepted(u: CatalogUpdate) {
    GivenInt(u.oldId) || Given(u.oldName)
  }

  /** The `@validator` on the optional name. A pydantic validator does not
      run on a field that is absent or null, so only a present name can
      make it refuse the item, and then only when the id is falsy too. */
  predicate DeleteAccepted(d: CatalogDelete) {
    d.name.None? || Given(d.name) || GivenInt(d.id)
  }

  // ---------------------------------------------------------------------
  // Users and their achievement links
  // ---------------------------------------------------------------------

  /** UserCreate: `password` is stored as given (hashing is not part of
      this model). There is no role field. */
  datatype UserCreate = UserCreate(
    phone: string,
    username: Option<string>,
    name: Option<string>,
    surname: Option<string>,
    birthday: Option<Time>,
    password: string)

  /** UserUpdate. The inherited required `phone_number` is never read by
      update_user and is left out. */
  datatype UserUpdate = UserUpdate(
    id: Option<int>,
    phoneOld: Option<string>,
    phoneNew: Option<string>,
    username: Option<string>,
    usernameNew: Option<string>,
    name: Option<string>,
    surname: Option<string>,
    birthday: Option<Time>,
    role: Option<string>)

  datatype UserDelete = UserDelete(id: Option<int>, phone: Option<string>, username: Option<string>)

  /** A UserAchievementUpdate body as sent: `unlocked` may be left out
      (it defaults to false) and `unlock_date` is required. */
  datatype UnlockRequest = UnlockRequest(
    userId: int,
    achievementId: int,
    unlocked: Option<bool>,
    unlockDate: Option<Time>)

  /** A UserAchievementUpdate that passed validation. */
  datatype UnlockUpdate = UnlockUpdate(userId: int, achievementId: int, unlocked: bool, unlockDate: Time)

  /** Parsing a UserAchievementUpdate: a missing date fails as a required
      field, and the date validator refuses every item whose `unlocked`
      is false, so every accepted item is an unlock. */
  function ParseUnlock(raw: UnlockRequest): (r: Option<UnlockUpdate>)
    ensures r.Some? <==> raw.unlockDate.Some? && raw.unlocked == Some(true)
    ensures r.Some? ==> r.value.unlocked && r.value.unlockDate == raw.unlockDate.value
    ensures r.Some? ==> r.value.userId == raw.userId && r.value.achievementId == raw.achievementId
  {
    var unlocked := raw.unlocked.GetOr(false);
    if raw.unlockDate.None? then None
    else if !unlocked then None
    else Some(UnlockUpdate(raw.userId, raw.achievementId, unlocked, raw.unlockDate.value))
  }

  // ---------------------------------------------------------------------
  // Achievements
  // ---------------------------------------------------------------------

  datatype AchievementCreate = AchievementCreate(title: string, description: Option<string>)

  datatype AchievementUpdate = AchievementUpdate(
    id: Option<int>,
    oldTitle: Option<string>,
    newTitle: Option<string>,
    description: Option<string>)

  datatype AchievementDelete = AchievementDelete(id: Option<int>, title: Option<string>)

  // ---------------------------------------------------------------------
  // Couriers
  // ---------------------------------------------------------------------

  /** CourierCreate: phone and password are required; there is no role field. */
  datatype CourierCreate = CourierCreate(
    phone: string,
    username: Option<string>,
    name: Option<string>,
    surname: Option<string>,
    birthday: Option<Time>,
    deliveryCount: Option<int>,
    salary: Option<Money>,
    password: string)

  datatype CourierUpdate = CourierUpdate(
    phone: Option<string>,
    username: Option<string>,
    name: Option<string>,
    surname: Option<string>,
    birthday: Option<Time>,
    deliveryCount: Option<int>,
    salary: Option<Money>)

  datatype CourierDelete = CourierDelete(id: Option<int>, phone: Option<string>)

  // ---------------------------------------------------------------------
  // Map points
  // ---------------------------------------------------------------------

  datatype MapPointCreate = MapPointCreate(
    title: string,
    address: string,
    phone: Option<string>,
    email: Option<string>,
    website: Option<string>,
    description: Option<string>,
    coordinates: Coord,
    city: Option<string>,
    acceptedThrash: Option<seq<string>>)

  /** MapPointUpdate: the id is required, everything else optional. */
  datatype MapPointUpdate = MapPointUpdate(
    id: int,
    title: Option<string>,
    address: Option<string>,
    phone: Option<string>,
    email: Option<string>,
    website: Option<string>,
    description: Option<string>,
    coordinates: Option<Coord>,
    city: Option<string>,
    acceptedThrash: Option<seq<string>>)

  // ---------------------------------------------------------------------
  // Delivery requests
  // ---------------------------------------------------------------------

  /** DeliveryRequestCreate, with the `price` and `thrash_types` fields the
      crud function reads. */
  datatype RequestCreate = RequestCreate(
    courierPhone: string,
    userPhone: string,
    address: string,
    createDate: Time,
    price: Option<Money>,
    thrashTypes: seq<string>)

  /** DeliveryRequestUpdate, with the `price` field the crud function reads.
      Its `thrash_type_filter` is never read and is left out. */
  datatype RequestUpdate = RequestUpdate(
    idReq: Option<int>,
    address: Option<string>,
    createDate: Option<Time>,
    status: Option<string>,
    courierPhone: Option<string>,
    userPhone: Option<string>,
    price: Option<Money>)

  // ---------------------------------------------------------------------
  // Query filters
  // ---------------------------------------------------------------------

  datatype UserGet = UserGet(
    id: Option<int>,
    phone: Option<string>,
    username: Option<string>,
    name: Option<string>,
    lastName: Option<string>,
    birthdayFrom: Option<Time>,
    birthdayTo: Option<Time>,
    role: Option<string>)

  datatype CourierGet = CourierGet(
    id: Option<int>,
    phone: Option<string>,
    username: Option<string>,
    name: Option<string>,
    lastName: Option<string>,
    deliveryCountFrom: Option<int>,
    deliveryCountTo: Option<int>,
    salaryFrom: Option<Money>,
    salaryTo: Option<Money>,
    birthdayFrom: Option<Time>,
    birthdayTo: Option<Time>)

  datatype MapPointGet = MapPointGet(
    id: Option<int>,
    title: Option<string>,
    address: Option<string>,
    phone: Option<string>,
    email: Option<string>,
    website: Option<string>,
    coordinates: Option<Coord>,
    city: Option<string>)

  datatype RequestGet = RequestGet(
    id: Option<int>,
    address: Option<string>,
    createDateFrom: Option<Time>,
    createDateTo: Option<Time>,
    thrashType: Option<string>,
    status: Option<string>,
    courierName: Option<string>,
    courierSurname: Option<string>,
    courierPhone: Option<string>,
    userPhone: Option<string>,
    userSurname: Option<string>,
    userName: Option<string>,
    userUsername: Option<string>)
}

=== FILE: filters.dfy ===
/** The filtered reads of db/crud.py: get_users, get_couriers,
    get_map_points and get_delivery_requests. A filter field takes part
    only when it is truthy; a comparison with a NULL column is false, so a
    row with a NULL column never passes a filter on that column. */
module Filters {
  import opened Wrappers
  import opened Schema
  import opened Lookup
  import opened Dto

  /** What a query hands back: the one row an identity filter finds (or
      None), the matching rows, or None after an exception. */
  datatype Query = One(found: Option<Id>) | Rows(ids: set<Id>) | Failed

  /** `column >= bound` and `column <= bound` on a nullable column. */
  predicate AtLeast(v: Option<int>, bound: int) {
    v.Some? && v.value >= bound
  }

  predicate AtMost(v: Option<int>, bound: int) {
    v.Some? && v.value <= bound
  }

  // ---------------------------------------------------------------------
  // get_users (db/crud.py:20-42)
  // ---------------------------------------------------------------------

  /** An id, username or phone filter hands the query to get_user. */
  predicate UserIdentity(f: UserGet) {
    GivenInt(f.id) || Given(f.username) || Given(f.phone)
  }

  /** A role filter naming no role makes `role[0]` raise. */
  predicate UnknownRole(s: Store, f: UserGet) {
    Given(f.role) && FirstNamed(s.roles, f.role.value).None?
  }

  /** The filters both versions of get_users share: name, surname, lower
      birthday bound and role. */
  predicate UserShared(s: Store, x: User, f: UserGet) {
    && (Given(f.name) ==> x.name == f.name)
    && (Given(f.lastName) ==> x.surname == f.lastName)
    && (f.birthdayFrom.Some? ==> AtLeast(x.birthday, f.birthdayFrom.value))
    && (Given(f.role) ==> x.roleId == FirstNamed(s.roles, f.role.value))
  }

  /** get_users as written: the upper birthday bound is compared with `>=`,
      so it acts as a second lower bound. */
  function GetUsersAsWritten(s: Store, f: UserGet): (r: Query)
    ensures UserIdentity(f) ==> r == One(GetUser(s, f.id, f.username, f.phone))
    ensures !UserIdentity(f) ==> (r.Failed? <==> UnknownRole(s, f))
    ensures r.Rows? ==> r.ids <= s.users.Keys
    ensures r.Rows? && f.birthdayTo.Some? ==>
      forall u :: u in r.ids ==> AtLeast(s.users[u].birthday, f.birthdayTo.value)
  {
    if UserIdentity(f) then One(GetUser(s, f.id, f.username, f.phone))
    else if UnknownRole(s, f) then Failed
    else Rows(set u | u in s.users && UserShared(s, s.users[u], f)
                      && (f.birthdayTo.Some? ==> AtLeast(s.users[u].birthday, f.birthdayTo.value)))
  }

  /** get_users with `birthday <= birthday_filter_to`. */
  function GetUsers(s: Store, f: UserGet): (r: Query)
    ensures UserIdentity(f) ==> r.One? && (r.found.Some? ==> r.found.value in s.users)
    ensures !UserIdentity(f) ==> (r.Failed? <==> UnknownRole(s, f))
    ensures r.Rows? ==> r.ids <= s.users.Keys
    ensures r.Rows? ==> forall u :: u in r.ids ==>
      && (f.birthdayFrom.Some? ==> AtLeast(s.users[u].birthday, f.birthdayFrom.value))
      && (f.birthdayTo.Some? ==> AtMost(s.users[u].birthday, f.birthdayTo.value))
    ensures r.Rows? && Given(f.role) ==> forall u :: u in r.ids ==>
      s.users[u].roleId.Some? && s.users[u].roleId.value in s.roles
      && s.roles[s.users[u].roleId.value] == f.role.value
  {
    if UserIdentity(f) then One(GetUser(s, f.id, f.username, f.phone))
    else if UnknownRole(s, f) then Failed
    else Rows(set u | u in s.users && UserShared(s, s.users[u], f)
                      && (f.birthdayTo.Some? ==> AtMost(s.users[u].birthday, f.birthdayTo.value)))
  }

  /** With an identity filter the other filters are never read. */
  lemma GetUsersIdentityFirst(s: Store, f: UserGet, g: UserGet)
    requires UserIdentity(f) && g.id == f.id && g.username == f.username && g.phone == f.phone
    ensures GetUsers(s, f) == GetUsers(s, g)
    ensures GetUsers(s, f) == One(GetUser(s, f.id, f.username, f.phone))
  {
  }

  /** A user passes the filters exactly when every given filter holds. */
  lemma GetUsersFinds(s: Store, f: UserGet, u: Id)
    requires !UserIdentity(f) && !UnknownRole(s, f) && u in s.users
    ensures GetUsers(s, f).Rows?
    ensures u in GetUsers(s, f).ids <==>
      && (Given(f.name) ==> s.users[u].name == f.name)
      && (Given(f.lastName) ==> s.users[u].surname == f.lastName)
      && (f.birthdayFrom.Some? ==> AtLeast(s.users[u].birthday, f.birthdayFrom.value))
      && (f.birthdayTo.Some? ==> AtMost(s.users[u].birthday, f.birthdayTo.value))
      && (Given(f.role) ==> s.users[u].roleId == FirstNamed(s.roles, f.role.value))
  {
  }

  /** The filter that reads nothing returns every user. */
  lemma GetUsersAll(s: Store)
    ensures GetUsers(s, UserGet(None, None, None, None, None, None, None, None)) == Rows(s.users.Keys)
  {
  }

  /** A user born before the upper bound is dropped by the query as
      written and kept by the corrected one. */
  lemma GetUsersBirthdayTo(s: Store, f: UserGet, u: Id)
    requires !UserIdentity(f) && !UnknownRole(s, f)
    requires u in s.users && UserShared(s, s.users[u], f)
    requires f.birthdayTo.Some? && s.users[u].birthday.Some? && s.users[u].birthday.value < f.birthdayTo.value
    ensures u !in GetUsersAsWritten(s, f).ids
    ensures u in GetUsers(s, f).ids
  {
  }

  // ---------------------------------------------------------------------
  // get_couriers (db/crud.py:548-574)
  // ---------------------------------------------------------------------

  predicate CourierIdentity(f: CourierGet) {
    GivenInt(f.id) || Given(f.username) || Given(f.phone)
  }

  /** Every filter but the upper delivery-count bound. Integer bounds take
      part only when non-zero. */
  predicate CourierShared(x: Courier, f: CourierGet) {
    && (Given(f.name) ==> x.name == f.name)
    && (Given(f.lastName) ==> x.surname == f.lastName)
    && (GivenInt(f.deliveryCountFrom) ==> AtLeast(x.deliveryCount, f.deliveryCountFrom.value))
    && (GivenInt(f.salaryFrom) ==> AtLeast(x.salary, f.salaryFrom.value))
    && (GivenInt(f.salaryTo) ==> AtMost(x.salary, f.salaryTo.value))
    && (f.birthdayFrom.Some? ==> AtLeast(x.birthday, f.birthdayFrom.value))
    && (f.birthdayTo.Some? ==> AtMost(x.birthday, f.birthdayTo.value))
  }

  /** get_couriers as written: delivery_count_to is compared with `>=`. */
  function GetCouriersAsWritten(s: Store, f: CourierGet): (r: Query)
    ensures !r.Failed?
    ensures CourierIdentity(f) ==> r == One(GetCourier(s, f.id, f.username, f.phone))
    ensures r.Rows? ==> r.ids <= s.couriers.Keys
    ensures r.Rows? && GivenInt(f.deliveryCountTo) ==>
      forall c :: c in r.ids ==> AtLeast(s.couriers[c].deliveryCount, f.deliveryCountTo.value)
  {
    if CourierIdentity(f) then One(GetCourier(s, f.id, f.username, f.phone))
    else Rows(set c | c in s.couriers && CourierShared(s.couriers[c], f)
                      && (GivenInt(f.deliveryCountTo) ==> AtLeast(s.couriers[c].deliveryCount, f.deliveryCountTo.value)))
  }

  /** get_couriers with `delivery_count <= delivery_count_to`. */
  function GetCouriers(s: Store, f: CourierGet): (r: Query)
    ensures !r.Failed?
    ensures CourierIdentity(f) ==> r.One? && (r.found.Some? ==> r.found.value in s.couriers)
    ensures !CourierIdentity(f) ==> r.Rows?
    ensures r.Rows? ==> r.ids <= s.couriers.Keys
    ensures r.Rows? ==> forall c :: c in r.ids ==>
      && (GivenInt(f.deliveryCountFrom) ==> AtLeast(s.couriers[c].deliveryCount, f.deliveryCountFrom.value))
      && (GivenInt(f.deliveryCountTo) ==> AtMost(s.couriers[c].deliveryCount, f.deliveryCountTo.value))
      && (GivenInt(f.salaryFrom) ==> AtLeast(s.couriers[c].salary, f.salaryFrom.value))
      && (GivenInt(f.salaryTo) ==> AtMost(s.couriers[c].salary, f.salaryTo.value))
  {
    if CourierIdentity(f) then One(GetCourier(s, f.id, f.username, f.phone))
    else Rows(set c | c in s.couriers && CourierShared(s.couriers[c], f)
                      && (GivenInt(f.deliveryCountTo) ==> AtMost(s.couriers[c].deliveryCount, f.deliveryCountTo.value)))
  }

  /** A courier passes the filters exactly when every given filter holds;
      a zero bound is no bound. */
  lemma GetCouriersFinds(s: Store, f: CourierGet, c: Id)
    requires !CourierIdentity(f) && c in s.couriers
    ensures c in GetCouriers(s, f).ids <==>
      && (Given(f.name) ==> s.couriers[c].name == f.name)
      && (Given(f.lastName) ==> s.couriers[c].surname == f.lastName)
      && (GivenInt(f.deliveryCountFrom) ==> AtLeast(s.couriers[c].deliveryCount, f.deliveryCountFrom.value))
      && (GivenInt(f.deliveryCountTo) ==> AtMost(s.couriers[c].deliveryCount, f.deliveryCountTo.value))
      && (GivenInt(f.salaryFrom) ==> AtLeast(s.couriers[c].salary, f.salaryFrom.value))
      && (GivenInt(f.salaryTo) ==> AtMost(s.couriers[c].salary, f.salaryTo.value))
      && (f.birthdayFrom.Some? ==> AtLeast(s.couriers[c].birthday, f.birthdayFrom.value))
      && (f.birthdayTo.Some? ==> AtMost(s.couriers[c].birthday, f.birthdayTo.value))
  {
  }

  /** A courier with fewer deliveries than the upper bound is dropped by
      the query as written and kept by the corrected one. */
  lemma GetCouriersDeliveryCountTo(s: Store, f: CourierGet, c: Id)
    requires !CourierIdentity(f) && c in s.couriers && CourierShared(s.couriers[c], f)
    requires GivenInt(f.deliveryCountTo) && s.couriers[c].deliveryCount.Some?
    requires s.couriers[c].deliveryCount.value < f.deliveryCountTo.value
    ensures c !in GetCouriersAsWritten(s, f).ids
    ensures c in GetCouriers(s, f).ids
  {
  }

  // ---------------------------------------------------------------------
  // get_map_points (db/crud.py:674-702)
  // ---------------------------------------------------------------------

  /** The map a city filter restricts to: one only when get_map finds
      exactly one; otherwise the filter is dropped. */
  function CityMap(s: Store, city: Option<string>): (m: Option<Id>)
    ensures m.Some? ==> Given(city) && m.value in s.maps && s.maps[m.value] == city.value
    ensures m.Some? ==> Named(s.maps, city.value) == {m.value}
  {
    if Given(city) then
      match GetMap(s, city, None)
      case Found(m) => Some(m)
      case _ => None
    else None
  }

  predicate PointMatches(s: Store, x: MapPoint, f: MapPointGet) {
    && (Given(f.phone) ==> x.phone == f.phone)
    && (Given(f.email) ==> x.email == f.email)
    && (Given(f.title) ==> x.title == f.title.value)
    && (Given(f.website) ==> x.website == f.website)
    && (Given(f.address) ==> x.address == f.address.value)
    && (f.coordinates.Some? ==> x.coordinates == f.coordinates.value)
    && (CityMap(s, f.city).Some? ==> x.mapId == CityMap(s, f.city))
  }

  /** get_map_points: a truthy id returns that point or None. */
  function GetMapPoints(s: Store, f: MapPointGet): (r: Query)
    ensures !r.Failed?
    ensures GivenInt(f.id) ==> r.One? && (r.found.Some? <==> f.id.value in s.points)
    ensures r.One? ==> GivenInt(f.id) && (r.found.Some? ==> r.found.value in s.points && r.found.value == f.id.value)
    ensures !GivenInt(f.id) ==> r.Rows? && r.ids <= s.points.Keys
    ensures r.Rows? && CityMap(s, f.city).Some? ==> forall p :: p in r.ids ==>
      s.points[p].mapId.Some? && s.points[p].mapId.value in s.maps && s.maps[s.points[p].mapId.value] == f.city.value
  {
    if GivenInt(f.id) then One(GetMapPoint(s, f.id.value))
    else Rows(set p | p in s.points && PointMatches(s, s.points[p], f))
  }

  /** Without an id filter, a point is listed exactly when it meets every
      given column filter, and lies on the city's map when exactly one map
      has that city. */
  lemma GetMapPointsFinds(s: Store, f: MapPointGet, p: Id)
    requires !GivenInt(f.id) && p in s.points
    ensures GetMapPoints(s, f).Rows?
    ensures p in GetMapPoints(s, f).ids <==>
      && (Given(f.phone) ==> s.points[p].phone == f.phone)
      && (Given(f.email) ==> s.points[p].email == f.email)
      && (Given(f.title) ==> s.points[p].title == f.title.value)
      && (Given(f.website) ==> s.points[p].website == f.website)
      && (Given(f.address) ==> s.points[p].address == f.address.value)
      && (f.coordinates.Some? ==> s.points[p].coordinates == f.coordinates.value)
      && (Given(f.city) && |Named(s.maps, f.city.value)| == 1 ==>
            s.points[p].mapId.Some? && s.points[p].mapId.value in Named(s.maps, f.city.value))
  {
  }

  /** A city that names no map, or several, filters nothing. */
  lemma GetMapPointsUnknownCity(s: Store, f: MapPointGet)
    requires |Select(s.maps, f.city, None)| != 1
    ensures GetMapPoints(s, f) == GetMapPoints(s, f.(city := None))
  {
    assert CityMap(s, f.city).None?;
  }

  /** The filter that reads nothing returns every point. */
  lemma GetMapPointsAll(s: Store)
    ensures GetMapPoints(s, MapPointGet(None, None, None, None, None, None, None, None)) == Rows(s.points.Keys)
  {
  }

  // ---------------------------------------------------------------------
  // get_delivery_requests (db/crud.py:888-942)
  // ---------------------------------------------------------------------

  /** Request `r` carries a thrash type of that name (through the crossed
      link columns). */
  predicate CarriesThrash(s: Store, r: Id, name: string) {
    exists l :: l in s.deliveryThrash && l.thrashTypeId == r && l.requestId in s.thrashTypes
      && s.thrashTypes[l.requestId] == name
  }

  /** The courier, user and status row a request refers to; none when
      the reference is NULL. */
  function CourierOf(s: Store, c: Option<Id>): Option<Courier> {
    if c.Some? && c.value in s.couriers then Some(s.couriers[c.value]) else None
  }

  function UserOf(s: Store, u: Option<Id>): Option<User> {
    if u.Some? && u.value in s.users then Some(s.users[u.value]) else None
  }

  function StatusName(s: Store, st: Option<Id>): Option<string> {
    if st.Some? && st.value in s.statuses then Some(s.statuses[st.value]) else None
  }

  /** One request's rows pass the filters. The address filter is never
      applied, as in the source. */
  predicate RequestMatches(s: Store, r: Id, x: DeliveryRequest, f: RequestGet) {
    && (GivenInt(f.id) ==> r == f.id.value)
    && (f.createDateFrom.Some? ==> x.createDate >= f.createDateFrom.value)
    && (f.createDateTo.Some? ==> x.createDate <= f.createDateTo.value)
    && (Given(f.thrashType) ==> CarriesThrash(s, r, f.thrashType.value))
    && (Given(f.status) ==> StatusName(s, x.statusId) == f.status)
    && (Given(f.courierName) ==> CourierOf(s, x.courierId).Some? && CourierOf(s, x.courierId).value.name == f.courierName)
    && (Given(f.courierSurname) ==> CourierOf(s, x.courierId).Some? && CourierOf(s, x.courierId).value.surname == f.courierSurname)
    && (Given(f.courierPhone) ==> CourierOf(s, x.courierId).Some? && CourierOf(s, x.courierId).value.phone == f.courierPhone.value)
    && (Given(f.userName) ==> UserOf(s, x.userId).Some? && UserOf(s, x.userId).value.name == f.userName)
    && (Given(f.userSurname) ==> UserOf(s, x.userId).Some? && UserOf(s, x.userId).value.surname == f.userSurname)
    && (Given(f.userUsername) ==> UserOf(s, x.userId).Some? && UserOf(s, x.userId).value.username == f.userUsername)
    && (Given(f.userPhone) ==> UserOf(s, x.userId).Some? && UserOf(s, x.userId).value.phone == f.userPhone.value)
  }

  /** get_delivery_requests: the requests some joined row of which passes
      the filters. */
  function GetDeliveryRequests(s: Store, f: RequestGet): (r: set<Id>)
    ensures r <= s.requests.Keys
    ensures GivenInt(f.id) ==> forall q :: q in r ==> q == f.id.value
    ensures forall q :: q in r ==>
      && (f.createDateFrom.Some? ==> s.requests[q].createDate >= f.createDateFrom.value)
      && (f.createDateTo.Some? ==> s.requests[q].createDate <= f.createDateTo.value)
    ensures Given(f.thrashType) ==> forall q :: q in r ==>
      exists t :: t in s.thrashTypes && s.thrashTypes[t] == f.thrashType.value
        && DeliveryThrashLink(q, t) in s.deliveryThrash
    ensures Given(f.status) ==> forall q :: q in r ==>
      s.requests[q].statusId.Some? && s.requests[q].statusId.value in s.statuses
      && s.statuses[s.requests[q].statusId.value] == f.status.value
  {
    set q | q in s.requests && RequestMatches(s, q, s.requests[q], f)
  }

  /** A request is returned exactly when each given filter holds of it:
      its id, its creation date within the bounds, a linked thrash type of
      that name, a status of that name, and a courier and a user whose
      columns equal the given ones. A NULL courier, user or status fails
      every filter on its columns. */
  lemma GetDeliveryRequestsFinds(s: Store, f: RequestGet, q: Id)
    requires q in s.requests
    ensures var x := s.requests[q];
      q in GetDeliveryRequests(s, f) <==>
        && (GivenInt(f.id) ==> q == f.id.value)
        && (f.createDateFrom.Some? ==> x.createDate >= f.createDateFrom.value)
        && (f.createDateTo.Some? ==> x.createDate <= f.createDateTo.value)
        && (Given(f.thrashType) ==>
              exists t :: t in s.thrashTypes && s.thrashTypes[t] == f.thrashType.value
                && DeliveryThrashLink(q, t) in s.deliveryThrash)
        && (Given(f.status) ==>
              x.statusId.Some? && x.statusId.value in s.statuses && s.statuses[x.statusId.value] == f.status.value)
        && (Given(f.courierName) ==>
              x.courierId.Some? && x.courierId.value in s.couriers && s.couriers[x.courierId.value].name == f.courierName)
        && (Given(f.courierSurname) ==>
              x.courierId.Some? && x.courierId.value in s.couriers && s.couriers[x.courierId.value].surname == f.courierSurname)
        && (Given(f.courierPhone) ==>
              x.courierId.Some? && x.courierId.value in s.couriers && s.couriers[x.courierId.value].phone == f.courierPhone.value)
        && (Given(f.userName) ==>
              x.userId.Some? && x.userId.value in s.users && s.users[x.userId.value].name == f.userName)
        && (Given(f.userSurname) ==>
              x.userId.Some? && x.userId.value in s.users && s.users[x.userId.value].surname == f.userSurname)
        && (Given(f.userUsername) ==>
              x.userId.Some? && x.userId.value in s.users && s.users[x.userId.value].username == f.userUsername)
        && (Given(f.userPhone) ==>
              x.userId.Some? && x.userId.value in s.users && s.users[x.userId.value].phone == f.userPhone.value)
  {
  }

  /** The address filter changes nothing. */
  lemma GetDeliveryRequestsIgnoresAddress(s: Store, f: RequestGet, a: Option<string>)
    ensures GetDeliveryRequests(s, f) == GetDeliveryRequests(s, f.(address := a))
  {
  }

  /** The outer joins keep requests without thrash types, courier, user or
      status: with no filter every request is returned. */
  lemma GetDeliveryRequestsAll(s: Store)
    ensures GetDeliveryRequests(s, RequestGet(None, None, None, None, None, None, None, None, None, None, None, None, None))
      == s.requests.Keys
  {
  }
}

=== FILE: lookup.dfy ===
/** The single-table reads of db/crud.py: get_user, get_courier, get_role,
    get_thrash_type, get_status, get_map, get_map_point, get_achievements and
    get_users_achievements. Each is a function of the (working) store. */
module Lookup {
  import opened Wrappers
  import opened Schema

  /** The outcome of `.one_or_none()` on a selection: the one row, no row,
      or more than one (MultipleResultsFound). */
  datatype Found = Found(id: Id) | Absent | Ambiguous

  function OneOrNone(sel: set<Id>): (f: Found)
    ensures f.Found? <==> |sel| == 1
    ensures f.Found? ==> sel == {f.id}
    ensures f.Absent? <==> sel == {}
    ensures f.Ambiguous? <==> |sel| >= 2
  {
    if sel == {} then Absent
    else
      var i := Least(sel);
      if sel == {i} then Found(i)
      else
        assert sel == (sel - {i}) + {i};
        assert sel - {i} != {};
        Ambiguous
  }

  /** `.one_or_none()` inside a get_* function whose `except` returns None. */
  function OneOrNothing(sel: set<Id>): (r: Option<Id>)
    ensures r.Some? <==> |sel| == 1
    ensures r.Some? ==> sel == {r.value}
  {
    match OneOrNone(sel)
    case Found(i) => Some(i)
    case _ => None
  }

  // ---------------------------------------------------------------------
  // Users and couriers (db/crud.py:97-113, 512-528)
  // ---------------------------------------------------------------------

  function UsersNamed(s: Store, n: string): set<Id> {
    set u | u in s.users && s.users[u].username == Some(n)
  }

  function UsersWithPhone(s: Store, p: string): set<Id> {
    set u | u in s.users && s.users[u].phone == p
  }

  /** get_user: the id if it is truthy, else the username, else the phone;
      exactly one query, and None when no key is given. */
  function GetUser(s: Store, id: Option<int>, username: Option<string>, phone: Option<string>)
    : (r: Option<Id>)
    ensures r.Some? ==> r.value in s.users
    ensures GivenInt(id) ==> (r.Some? <==> id.value in s.users) && (r.Some? ==> r.value == id.value)
    ensures !GivenInt(id) && Given(username) ==>
      (r.Some? <==> |UsersNamed(s, username.value)| == 1)
      && (r.Some? ==> s.users[r.value].username == username)
    ensures !GivenInt(id) && !Given(username) && Given(phone) ==>
      (r.Some? <==> |UsersWithPhone(s, phone.value)| == 1)
      && (r.Some? ==> s.users[r.value].phone == phone.value)
    ensures !GivenInt(id) && !Given(username) && !Given(phone) ==> r.None?
  {
    if GivenInt(id) then
      (if id.value in s.users then Some(id.value as Id) else None)
    else if Given(username) then OneOrNothing(UsersNamed(s, username.value))
    else if Given(phone) then OneOrNothing(UsersWithPhone(s, phone.value))
    else None
  }

  function CouriersNamed(s: Store, n: string): set<Id> {
    set c | c in s.couriers && s.couriers[c].username == Some(n)
  }

  function CouriersWithPhone(s: Store, p: string): set<Id> {
    set c | c in s.couriers && s.couriers[c].phone == p
  }

  /** get_courier: the same precedence as get_user over the courier table. */
  function GetCourier(s: Store, id: Option<int>, username: Option<string>, phone: Option<string>)
    : (r: Option<Id>)
    ensures r.Some? ==> r.value in s.couriers
    ensures GivenInt(id) ==> (r.Some? <==> id.value in s.couriers) && (r.Some? ==> r.value == id.value)
    ensures !GivenInt(id) && Given(username) ==>
      (r.Some? <==> |CouriersNamed(s, username.value)| == 1)
      && (r.Some? ==> s.couriers[r.value].username == username)
    ensures !GivenInt(id) && !Given(username) && Given(phone) ==>
      (r.Some? <==> |CouriersWithPhone(s, phone.value)| == 1)
      && (r.Some? ==> s.couriers[r.value].phone == phone.value)
    ensures !GivenInt(id) && !Given(username) && !Given(phone) ==> r.None?
  {
    if GivenInt(id) then
      (if id.value in s.couriers then Some(id.value as Id) else None)
    else if Given(username) then OneOrNothing(CouriersNamed(s, username.value))
    else if Given(phone) then OneOrNothing(CouriersWithPhone(s, phone.value))
    else None
  }

  /** Under the unique constraint on phone numbers, a stored phone always
      resolves to its user. */
  lemma {:induction false} PhoneFindsUser(s: Store, u: Id)
    requires KeysUnique(s)
    requires u in s.users && s.users[u].phone != ""
    ensures GetUser(s, None, None, Some(s.users[u].phone)) == Some(u)
  {
    var p := s.users[u].phone;
    forall v | v in UsersWithPhone(s, p)
      ensures v == u
    {
      assert UserPhones(s)[v] == p == UserPhones(s)[u];
    }
    assert UsersWithPhone(s, p) == {u};
  }

  /** Under the unique constraint on phone numbers, a stored phone always
      resolves to its courier. */
  lemma {:induction false} PhoneFindsCourier(s: Store, c: Id)
    requires KeysUnique(s)
    requires c in s.couriers && s.couriers[c].phone != ""
    ensures GetCourier(s, None, None, Some(s.couriers[c].phone)) == Some(c)
  {
    var p := s.couriers[c].phone;
    forall v | v in CouriersWithPhone(s, p)
      ensures v == c
    {
      assert CourierPhones(s)[v] == p == CourierPhones(s)[c];
    }
    assert CouriersWithPhone(s, p) == {c};
  }

  // ---------------------------------------------------------------------
  // Catalogs: get_role, get_thrash_type, get_status, get_map (db/crud.py:215-227, 287-300, 362-375, 437-450)
  // ---------------------------------------------------------------------

  function Named(m: map<Id, string>, n: string): set<Id> {
    set i | i in m && m[i] == n
  }

  /** The rows a catalog query returns: by name when the name is truthy,
      otherwise by id when the id is truthy, otherwise every row. */
  function Select(m: map<Id, string>, name: Option<string>, id: Option<int>): (sel: set<Id>)
    ensures sel <= m.Keys
    ensures Given(name) ==> forall i :: i in m ==> (i in sel <==> m[i] == name.value)
    ensures !Given(name) && GivenInt(id) ==> forall i :: i in m ==> (i in sel <==> i == id.value)
    ensures !Given(name) && !GivenInt(id) ==> sel == m.Keys
  {
    if Given(name) then Named(m, name.value)
    else if GivenInt(id) then (if id.value in m then {id.value as Id} else {})
    else m.Keys
  }

  /** `get_x(name)[0]`: the first row a name query returns, if any. */
  function FirstNamed(m: map<Id, string>, name: string): (r: Option<Id>)
    ensures r.Some? <==> Select(m, Some(name), None) != {}
    ensures r.Some? ==> r.value in m && (name != "" ==> m[r.value] == name)
  {
    var sel := Select(m, Some(name), None);
    if sel == {} then None else Some(Least(sel))
  }

  /** get_map: `.one_or_none()` over the same selection. */
  function GetMap(s: Store, city: Option<string>, id: Option<int>): (f: Found)
    ensures f.Found? ==> f.id in s.maps
    ensures f.Found? && Given(city) ==> s.maps[f.id] == city.value
    ensures f.Found? <==> |Select(s.maps, city, id)| == 1
    ensures f.Found? ==> Select(s.maps, city, id) == {f.id}
    ensures f.Absent? <==> Select(s.maps, city, id) == {}
    ensures f.Ambiguous? <==> |Select(s.maps, city, id)| >= 2
  {
    OneOrNone(Select(s.maps, city, id))
  }

  /** get_map_point: None for a falsy id. */
  function GetMapPoint(s: Store, id: int): (r: Option<Id>)
    ensures r.Some? <==> id != 0 && id in s.points
    ensures r.Some? ==> r.value == id
  {
    if id != 0 && id in s.points then Some(id as Id) else None
  }

  /** get_achievements: by id when truthy, else by title when truthy, else all. */
  function GetAchievements(s: Store, id: Option<int>, title: Option<string>): (sel: set<Id>)
    ensures sel <= s.achievements.Keys
    ensures GivenInt(id) ==> sel == (if id.value in s.achievements then {id.value as Id} else {})
    ensures !GivenInt(id) && Given(title) ==>
      forall a :: a in s.achievements ==> (a in sel <==> s.achievements[a].title == title.value)
    ensures !GivenInt(id) && !Given(title) ==> sel == s.achievements.Keys
  {
    if GivenInt(id) then (if id.value in s.achievements then {id.value as Id} else {})
    else if Given(title) then set a | a in s.achievements && s.achievements[a].title == title.value
    else s.achievements.Keys
  }

  /** get_users_achievements: the achievements joined through the user's link rows. */
  function LinkedAchievements(s: Store, u: Id): (linked: set<Id>)
    ensures forall a :: a in linked <==> a in s.achievements && AchievementKey(u, a) in s.unlocks
  {
    set a | a in s.achievements && AchievementKey(u, a) in s.unlocks
  }

  // ---------------------------------------------------------------------
  // Name lists of thrash types
  // ---------------------------------------------------------------------

  /** create_map_point / update_map_points: each name that finds a thrash
      type contributes the first one; the others are dropped. */
  function ResolveKnown(thrash: map<Id, string>, names: seq<string>): (ids: seq<Id>)
    ensures |ids| <= |names|
    ensures forall i :: i in ids ==> i in thrash
    ensures |ids| == |names| <==> forall n :: n in names ==> Select(thrash, Some(n), None) != {}
  {
    if names == [] then []
    else
      var rest := ResolveKnown(thrash, names[1..]);
      assert forall n :: n in names <==> n == names[0] || n in names[1..];
      match FirstNamed(thrash, names[0])
      case Some(t) => [t] + rest
      case None => rest
  }

  /** A thrash type is in the resolved list exactly when some name of the
      list resolves to it. */
  lemma {:induction false} ResolveKnownHas(thrash: map<Id, string>, names: seq<string>, t: Id)
    ensures t in ResolveKnown(thrash, names) <==> exists n :: n in names && FirstNamed(thrash, n) == Some(t)
  {
    if names != [] {
      ResolveKnownHas(thrash, names[1..], t);
      assert forall n :: n in names <==> n == names[0] || n in names[1..];
    }
  }

  /** No id occurs twice: a list of ids that can become link rows of one
      row without violating the link table's primary key. */
  predicate NoRepeats(ids: seq<Id>) {
    forall i, j :: 0 <= i < j < |ids| ==> ids[i] != ids[j]
  }

  /** Two names of the list that resolve to the same thrash type (the same
      known name twice, say) give a list with a repeated id. */
  lemma {:induction false} ResolveKnownRepeats(thrash: map<Id, string>, names: seq<string>, i: nat, j: nat)
    requires i < j < |names|
    requires FirstNamed(thrash, names[i]).Some? && FirstNamed(thrash, names[i]) == FirstNamed(thrash, names[j])
    ensures !NoRepeats(ResolveKnown(thrash, names))
  {
    if i == 0 {
      RepeatsAtHead(thrash, names, j);
    } else {
      assert names[1..][i - 1] == names[i] && names[1..][j - 1] == names[j];
      ResolveKnownRepeats(thrash, names[1..], i - 1, j - 1);
      RepeatsInTail(thrash, names);
    }
  }

  /** The first name's type found again further on. */
  lemma RepeatsAtHead(thrash: map<Id, string>, names: seq<string>, j: nat)
    requires 0 < j < |names|
    requires FirstNamed(thrash, names[0]).Some? && FirstNamed(thrash, names[0]) == FirstNamed(thrash, names[j])
    ensures !NoRepeats(ResolveKnown(thrash, names))
  {
    var t := FirstNamed(thrash, names[0]).value;
    var rest := ResolveKnown(thrash, names[1..]);
    assert names[1..][j - 1] == names[j];
    ResolveKnownHas(thrash, names[1..], t);
    assert t in rest;
    var k :| 0 <= k < |rest| && rest[k] == t;
    var r := ResolveKnown(thrash, names);
    assert r == [t] + rest;
    assert r[0] == r[k + 1];
  }

  /** A repeat among the later names stays a repeat. */
  lemma RepeatsInTail(thrash: map<Id, string>, names: seq<string>)
    requires names != [] && !NoRepeats(ResolveKnown(thrash, names[1..]))
    ensures !NoRepeats(ResolveKnown(thrash, names))
  {
    var rest := ResolveKnown(thrash, names[1..]);
    var r := ResolveKnown(thrash, names);
    var a, b :| 0 <= a < b < |rest| && rest[a] == rest[b];
    if FirstNamed(thrash, names[0]).Some? {
      assert r == [r[0]] + rest;
      assert r[a + 1] == r[b + 1];
    } else {
      assert r == rest;
    }
  }

  /** create_delivery_request: `get_thrash_type(name)[0]` for every name;
      one name that finds nothing raises IndexError and fails the whole list. */
  function ResolveAll(thrash: map<Id, string>, names: seq<string>): (r: Option<seq<Id>>)
    ensures r.Some? ==> |r.value| == |names| && forall i :: i in r.value ==> i in thrash
  {
    if names == [] then Some([])
    else
      match FirstNamed(thrash, names[0])
      case None => None
      case Some(t) =>
        match ResolveAll(thrash, names[1..])
        case None => None
        case Some(rest) => Some([t] + rest)
  }

  /** Resolving every name succeeds exactly when dropping unknown names
      drops nothing, and then both give the same ids. */
  lemma {:induction false} ResolveAllIsStrictResolveKnown(thrash: map<Id, string>, names: seq<string>)
    ensures ResolveAll(thrash, names).Some? <==> forall n :: n in names ==> Select(thrash, Some(n), None) != {}
    ensures ResolveAll(thrash, names).Some? ==> ResolveAll(thrash, names).value == ResolveKnown(thrash, names)
  {
    if names != [] {
      ResolveAllIsStrictResolveKnown(thrash, names[1..]);
      assert forall n :: n in names <==> n == names[0] || n in names[1..];
    }
  }
}

=== FILE: mappoints.dfy ===
/** Map points and their accepted thrash types (db/crud.py:643-763):
    create_map_point, update_map_points and delete_map_points. */
module MapPoints {
  import opened Wrappers
  import opened Schema
  import opened Session
  import opened Lookup
  import opened Cascade
  import opened Dto

  /** The map a city names: `get_map(city)` when the city is present; a
      city that matches no map or several leaves the point on no map. */
  function MapOf(s: Store, city: Option<string>): (r: Option<Id>)
    ensures r.Some? <==> city.Some? && |Select(s.maps, city, None)| == 1
    ensures r.Some? ==> Select(s.maps, city, None) == {r.value} && r.value in s.maps
  {
    if city.Some? then
      match GetMap(s, city, None)
      case Found(m) => Some(m)
      case _ => None
    else None
  }

  /** The link rows giving point `p` the thrash types `ids`. */
  function LinksOf(p: Id, ids: set<Id>): (links: set<PointThrashLink>)
    ensures forall l :: l in links <==> l.mapPointId == p && l.thrashTypeId in ids
  {
    set t | t in ids :: PointThrashLink(t, p)
  }

  /** The thrash types point `p` accepts. */
  function Accepted(s: Store, p: Id): set<Id> {
    set l | l in s.pointThrash && l.mapPointId == p :: l.thrashTypeId
  }

  // ---------------------------------------------------------------------
  // create_map_point (db/crud.py:643-671)
  // ---------------------------------------------------------------------

  function NewPoint(s: Store, d: MapPointCreate): MapPoint {
    MapPoint(d.title, d.address, d.phone, d.email, d.website, d.description, d.coordinates, MapOf(s, d.city))
  }

  /** The thrash types an accepted_thrash list resolves to; names that
      find nothing are dropped. */
  function ThrashOf(s: Store, names: Option<seq<string>>): seq<Id> {
    if names.Some? then ResolveKnown(s.thrashTypes, names.value) else []
  }

  /** create_map_point: a thrash type resolved twice makes two identical
      link rows, which the commit refuses, and the call returns None. */
  function CreateMapPoint(s: Store, d: MapPointCreate): (b: Batch<Id>)
    ensures !b.reply.Done? ==> b == Batch(s, Nothing)
    ensures b.reply.Done? <==> KeysUnique(s) && NoRepeats(ThrashOf(s, d.acceptedThrash))
    ensures b.reply.Done? ==> b.reply.items == [s.nextId]
    ensures b.reply.Done? ==> b.store == s.(points := b.store.points, pointThrash := b.store.pointThrash, nextId := s.nextId + 1)
    ensures b.reply.Done? ==> s.nextId in b.store.points && b.store.points[s.nextId] == NewPoint(s, d)
    ensures b.reply.Done? ==> forall q :: q in s.points && q != s.nextId ==> q in b.store.points && b.store.points[q] == s.points[q]
  {
    var thrash := ThrashOf(s, d.acceptedThrash);
    var p := s.nextId;
    var w := s.(points := s.points[p := NewPoint(s, d)],
                pointThrash := s.pointThrash + LinksOf(p, Elems(thrash)),
                nextId := p + 1);
    assert UserPhones(w) == UserPhones(s) && UserNames(w) == UserNames(s);
    assert CourierPhones(w) == CourierPhones(s) && CourierNames(w) == CourierNames(s);
    assert Titles(w) == Titles(s);
    if KeysUnique(w) && NoRepeats(thrash) then Batch(w, Done([p])) else Batch(s, Nothing)
  }

  /** The new point accepts exactly the thrash types some name of the
      list finds (the first one each name finds), and no other link row
      changes. */
  lemma CreateMapPointLinks(s: Store, d: MapPointCreate)
    requires RefsResolve(s)
    ensures var b := CreateMapPoint(s, d);
      b.reply.Done? ==>
        && (forall l :: l in s.pointThrash ==> l in b.store.pointThrash)
        && (forall l :: l in b.store.pointThrash && l !in s.pointThrash ==> l.mapPointId == s.nextId)
        && (forall t: Id :: PointThrashLink(t, s.nextId) in b.store.pointThrash <==>
              d.acceptedThrash.Some? && exists n :: n in d.acceptedThrash.value && FirstNamed(s.thrashTypes, n) == Some(t))
  {
    var b := CreateMapPoint(s, d);
    if b.reply.Done? {
      forall t: Id
        ensures PointThrashLink(t, s.nextId) in b.store.pointThrash <==>
          d.acceptedThrash.Some? && exists n :: n in d.acceptedThrash.value && FirstNamed(s.thrashTypes, n) == Some(t)
      {
        assert PointThrashLink(t, s.nextId) !in s.pointThrash;
        if d.acceptedThrash.Some? {
          ResolveKnownHas(s.thrashTypes, d.acceptedThrash.value, t);
        }
      }
    }
  }

  /** A known thrash name listed twice makes create_map_point return None. */
  lemma CreateMapPointRepeatedName(s: Store, d: MapPointCreate, i: nat, j: nat)
    requires d.acceptedThrash.Some? && i < j < |d.acceptedThrash.value|
    requires d.acceptedThrash.value[i] == d.acceptedThrash.value[j]
    requires FirstNamed(s.thrashTypes, d.acceptedThrash.value[i]).Some?
    ensures CreateMapPoint(s, d) == Batch(s, Nothing)
  {
    ResolveKnownRepeats(s.thrashTypes, d.acceptedThrash.value, i, j);
  }

  lemma CreateMapPointKeeps(s: Store, d: MapPointCreate)
    requires Valid(s)
    ensures Valid(CreateMapPoint(s, d).store)
    ensures FullyLinked(s) ==> FullyLinked(CreateMapPoint(s, d).store)
  {
  }

  // ---------------------------------------------------------------------
  // update_map_points (db/crud.py:705-746)
  // ---------------------------------------------------------------------

  /** Truthy fields overwrite; coordinates overwrite when present. */
  function PatchedPoint(was: MapPoint, u: MapPointUpdate): (now: MapPoint)
    ensures now.title != was.title ==> Given(u.title)
    ensures Given(u.title) ==> now.title == u.title.value
    ensures now.address != was.address ==> Given(u.address)
    ensures Given(u.address) ==> now.address == u.address.value
    ensures now.phone != was.phone ==> Given(u.phone)
    ensures Given(u.phone) ==> now.phone == u.phone
    ensures now.email != was.email ==> Given(u.email)
    ensures Given(u.email) ==> now.email == u.email
    ensures now.website != was.website ==> Given(u.website)
    ensures Given(u.website) ==> now.website == u.website
    ensures now.description != was.description ==> Given(u.description)
    ensures Given(u.description) ==> now.description == u.description
    ensures now.coordinates != was.coordinates ==> u.coordinates.Some?
    ensures u.coordinates.Some? ==> now.coordinates == u.coordinates.value
    ensures now.mapId == was.mapId
  {
    was.(
      title := if Given(u.title) then u.title.value else was.title,
      address := if Given(u.address) then u.address.value else was.address,
      phone := if Given(u.phone) then u.phone else was.phone,
      email := if Given(u.email) then u.email else was.email,
      website := if Given(u.website) then u.website else was.website,
      description := if Given(u.description) then u.description else was.description,
      coordinates := if u.coordinates.Some? then u.coordinates.value else was.coordinates)
  }

  /** The item's columns written into point `p`. */
  function PatchPoint(w: Store, p: Id, u: MapPointUpdate): (t: Store)
    requires p in w.points
    ensures t == w.(points := t.points) && t.points.Keys == w.points.Keys
    ensures forall q :: q in t.points && q != p ==> t.points[q] == w.points[q]
    ensures t.points[p] == PatchedPoint(w.points[p], u)
  {
    w.(points := w.points[p := PatchedPoint(w.points[p], u)])
  }

  /** Point `p` moved onto map `m`. */
  function PlaceOnMap(w: Store, p: Id, m: Id): (t: Store)
    requires p in w.points
    ensures t == w.(points := t.points) && t.points.Keys == w.points.Keys
    ensures forall q :: q in t.points && q != p ==> t.points[q] == w.points[q]
    ensures t.points[p].mapId == Some(m)
  {
    w.(points := w.points[p := w.points[p].(mapId := Some(m))])
  }

  /** Point `p` accepting exactly the thrash types `ids`. */
  function ReplaceLinks(w: Store, p: Id, ids: set<Id>): (t: Store)
    ensures t == w.(pointThrash := t.pointThrash)
    ensures forall l :: l in t.pointThrash <==>
      (l in w.pointThrash && l.mapPointId != p) || (l.mapPointId == p && l.thrashTypeId in ids)
  {
    w.(pointThrash := (set l | l in w.pointThrash && l.mapPointId != p) + LinksOf(p, ids))
  }

  /** The store states of one item on point `p`. With `applyThrash` off
      the item's accepted_thrash list is resolved but never assigned to
      the point, as in the source; with it on, a non-empty list replaces
      the point's thrash types. A city that matches several maps makes
      get_map roll the session back, which discards every staged edit. */
  function ApplyItem(s: Store, w: Store, p: Id, u: MapPointUpdate, applyThrash: bool): (t: Store)
    requires p in w.points
    requires w == s.(points := w.points, pointThrash := w.pointThrash) && w.points.Keys == s.points.Keys
    ensures t == s.(points := t.points, pointThrash := t.pointThrash) && t.points.Keys == s.points.Keys
    ensures !applyThrash ==> t.pointThrash == w.pointThrash || t == s
  {
    var w2 := CityStep(s, PatchPoint(w, p, u), p, u.city);
    if applyThrash then ThrashStep(w2, p, u.acceptedThrash) else w2
  }

  /** `if city: ... point.map = get_map(city)`: one map found moves the
      point; none leaves it; several roll the session back to `s`. */
  function CityStep(s: Store, w: Store, p: Id, city: Option<string>): (t: Store)
    requires p in w.points
    requires w == s.(points := w.points, pointThrash := w.pointThrash) && w.points.Keys == s.points.Keys
    ensures t == s || (t == w.(points := t.points) && t.points.Keys == w.points.Keys)
    ensures t != s ==> forall q :: q in t.points && q != p ==> t.points[q] == w.points[q]
    ensures t != s && t.points[p] != w.points[p] ==> t.points[p] == w.points[p].(mapId := t.points[p].mapId)
    ensures t != s && t.points[p].mapId != w.points[p].mapId ==> t.points[p].mapId == MapOf(w, city)
  {
    if Given(city) then
      match GetMap(w, city, None)
      case Found(m) => PlaceOnMap(w, p, m)
      case Absent => w
      case Ambiguous => s
    else w
  }

  /** A non-empty accepted_thrash list replaces the point's thrash types
      with those its names find. */
  function ThrashStep(w: Store, p: Id, names: Option<seq<string>>): (t: Store)
    ensures t == w.(pointThrash := t.pointThrash)
  {
    if names.Some? && names.value != [] then
      ReplaceLinks(w, p, Elems(ResolveKnown(w.thrashTypes, names.value)))
    else w
  }

  /** A zero id or an id with no point skips the item; the commit at the
      end is outside any `try`. */
  function UpdateLoop(s: Store, w: Store, items: seq<MapPointUpdate>, out: seq<Id>, applyThrash: bool): (b: Batch<Id>)
    requires w == s.(points := w.points, pointThrash := w.pointThrash) && w.points.Keys == s.points.Keys
    decreases |items|
    ensures !b.reply.Done? ==> b.store == s
    ensures b.store == s.(points := b.store.points, pointThrash := b.store.pointThrash)
    ensures b.store.points.Keys == s.points.Keys
  {
    if items == [] then Commit(s, w, out)
    else
      var u := items[0];
      match GetMapPoint(w, u.id)
      case None => UpdateLoop(s, w, items[1..], out, applyThrash)
      case Some(p) => UpdateLoop(s, ApplyItem(s, w, p, u, applyThrash), items[1..], out + [p], applyThrash)
  }

  /** update_map_points as written: no point's thrash types ever change. */
  function UpdateMapPointsAsWritten(s: Store, items: seq<MapPointUpdate>): (b: Batch<Id>)
    ensures !b.reply.Done? ==> b.store == s
    ensures b.store == s.(points := b.store.points)
    ensures b.store.points.Keys == s.points.Keys
  {
    AsWrittenKeepsLinks(s, s, items, []);
    UpdateLoop(s, s, items, [], false)
  }

  lemma {:induction false} AsWrittenKeepsLinks(s: Store, w: Store, items: seq<MapPointUpdate>, out: seq<Id>)
    requires w == s.(points := w.points) && w.points.Keys == s.points.Keys
    ensures UpdateLoop(s, w, items, out, false).store.pointThrash == s.pointThrash
    decreases |items|
  {
    if items != [] {
      var u := items[0];
      match GetMapPoint(w, u.id)
      case None => AsWrittenKeepsLinks(s, w, items[1..], out);
      case Some(p) => AsWrittenKeepsLinks(s, ApplyItem(s, w, p, u, false), items[1..], out + [p]);
    }
  }

  /** update_map_points with the accepted_thrash list applied. */
  function UpdateMapPoints(s: Store, items: seq<MapPointUpdate>): (b: Batch<Id>)
    ensures !b.reply.Done? ==> b.store == s
    ensures b.store == s.(points := b.store.points, pointThrash := b.store.pointThrash)
    ensures b.store.points.Keys == s.points.Keys
  {
    UpdateLoop(s, s, items, [], true)
  }

  /** One item on an existing point with a non-empty thrash list and no
      city: the point then accepts exactly the types the names find. */
  lemma UpdateMapPointsSetsThrash(s: Store, u: MapPointUpdate)
    requires KeysUnique(s) && u.id in s.points && !Given(u.city)
    requires u.acceptedThrash.Some? && u.acceptedThrash.value != []
    ensures var b := UpdateMapPoints(s, [u]);
      && b.reply == Done([u.id as Id])
      && (forall t: Id :: PointThrashLink(t, u.id as Id) in b.store.pointThrash <==>
            exists n :: n in u.acceptedThrash.value && FirstNamed(s.thrashTypes, n) == Some(t))
  {
    var p := u.id as Id;
    var t := ApplyItem(s, s, p, u, true);
    assert [u][1..] == [];
    var none: seq<Id> := [];
    assert none + [p] == [p];
    assert UserPhones(t) == UserPhones(s) && UserNames(t) == UserNames(s);
    assert CourierPhones(t) == CourierPhones(s) && CourierNames(t) == CourierNames(s);
    assert Titles(t) == Titles(s);
    assert KeysUnique(t);
    assert GetMapPoint(s, u.id) == Some(p);
    assert UpdateLoop(s, s, [u], [], true) == UpdateLoop(s, t, [], [p], true);
    assert UpdateMapPoints(s, [u]) == Batch(t, Done([p]));
    forall x: Id
      ensures PointThrashLink(x, p) in t.pointThrash <==>
        exists n :: n in u.acceptedThrash.value && FirstNamed(s.thrashTypes, n) == Some(x)
    {
      ResolveKnownHas(s.thrashTypes, u.acceptedThrash.value, x);
    }
  }

  /** The same item as written: the point keeps the thrash types it had,
      whatever the list names. */
  lemma UpdateMapPointsAsWrittenIgnoresThrash(s: Store, u: MapPointUpdate)
    requires KeysUnique(s) && u.id in s.points && !Given(u.city)
    requires u.acceptedThrash.Some? && u.acceptedThrash.value != []
    ensures var b := UpdateMapPointsAsWritten(s, [u]);
      && b.reply == Done([u.id as Id])
      && Accepted(b.store, u.id as Id) == Accepted(s, u.id as Id)
  {
    var p := u.id as Id;
    var t := ApplyItem(s, s, p, u, false);
    assert [u][1..] == [];
    var none: seq<Id> := [];
    assert none + [p] == [p];
    assert UserPhones(t) == UserPhones(s) && UserNames(t) == UserNames(s);
    assert CourierPhones(t) == CourierPhones(s) && CourierNames(t) == CourierNames(s);
    assert Titles(t) == Titles(s);
    assert KeysUnique(t);
    assert GetMapPoint(s, u.id) == Some(p);
    assert UpdateLoop(s, s, [u], [], false) == UpdateLoop(s, t, [], [p], false);
    assert UpdateMapPointsAsWritten(s, [u]) == Batch(t, Done([p]));
    assert t.pointThrash == s.pointThrash;
  }

  /** Item `u` replaces the thrash types of point `p`: it names `p` and
      carries a non-empty list. */
  predicate SetsThrash(u: MapPointUpdate, p: Id) {
    u.id == p as int && u.acceptedThrash.Some? && u.acceptedThrash.value != []
  }

  /** Item `j` is the last one of the batch that replaces the thrash types of `p`. */
  predicate LastThrashing(items: seq<MapPointUpdate>, j: int, p: Id) {
    0 <= j < |items| && SetsThrash(items[j], p) && forall j' :: j < j' < |items| ==> !SetsThrash(items[j'], p)
  }

  /** No item's city matches two or more maps, so get_map never rolls back. */
  predicate NoAmbiguousCity(s: Store, items: seq<MapPointUpdate>) {
    forall j :: 0 <= j < |items| && Given(items[j].city) ==> |Named(s.maps, items[j].city.value)| <= 1
  }

  /** The thrash types a point accepts after one item of the corrected update. */
  lemma ApplyItemThrash(s: Store, w: Store, q: Id, u: MapPointUpdate)
    requires q in w.points
    requires w == s.(points := w.points, pointThrash := w.pointThrash) && w.points.Keys == s.points.Keys
    requires u.id == q as int && (Given(u.city) ==> |Named(s.maps, u.city.value)| <= 1)
    ensures var t := ApplyItem(s, w, q, u, true);
      forall p: Id, x: Id :: (p != q || !SetsThrash(u, q)) ==>
        (PointThrashLink(x, p) in t.pointThrash <==> PointThrashLink(x, p) in w.pointThrash)
    ensures var t := ApplyItem(s, w, q, u, true);
      SetsThrash(u, q) ==> forall x: Id :: PointThrashLink(x, q) in t.pointThrash <==>
        exists n :: n in u.acceptedThrash.value && FirstNamed(s.thrashTypes, n) == Some(x)
  {
    var w1 := PatchPoint(w, q, u);
    var w2 := CityStep(s, w1, q, u.city);
    CityStepLinks(s, w1, q, u.city);
    assert w2.pointThrash == w.pointThrash && w2.thrashTypes == s.thrashTypes;
    var t := ThrashStep(w2, q, u.acceptedThrash);
    assert ApplyItem(s, w, q, u, true) == t;
    if u.acceptedThrash.Some? && u.acceptedThrash.value != [] {
      var ids := Elems(ResolveKnown(s.thrashTypes, u.acceptedThrash.value));
      assert t == ReplaceLinks(w2, q, ids);
      forall p: Id, x: Id | p != q
        ensures PointThrashLink(x, p) in t.pointThrash <==> PointThrashLink(x, p) in w.pointThrash
      {
        assert PointThrashLink(x, p).mapPointId != q;
      }
      forall x: Id
        ensures PointThrashLink(x, q) in t.pointThrash <==>
          exists n :: n in u.acceptedThrash.value && FirstNamed(s.thrashTypes, n) == Some(x)
      {
        ResolveKnownHas(s.thrashTypes, u.acceptedThrash.value, x);
      }
    }
  }

  /** A city matching at most one map leaves the link table alone. */
  lemma CityStepLinks(s: Store, w: Store, p: Id, city: Option<string>)
    requires p in w.points
    requires w == s.(points := w.points, pointThrash := w.pointThrash) && w.points.Keys == s.points.Keys
    requires Given(city) ==> |Named(s.maps, city.value)| <= 1
    ensures CityStep(s, w, p, city) == w.(points := CityStep(s, w, p, city).points)
  {
    if Given(city) {
      assert Select(w.maps, city, None) == Named(s.maps, city.value);
      assert !GetMap(w, city, None).Ambiguous?;
    }
  }

  /** What the batch says of point `p`, shifted by one item. */
  lemma ThrashingShift(items: seq<MapPointUpdate>, p: Id)
    requires items != []
    ensures (forall j :: 0 <= j < |items| ==> !SetsThrash(items[j], p)) <==>
      !SetsThrash(items[0], p) && forall j :: 0 <= j < |items[1..]| ==> !SetsThrash(items[1..][j], p)
    ensures forall j :: 0 < j < |items| && LastThrashing(items, j, p) ==> LastThrashing(items[1..], j - 1, p)
    ensures LastThrashing(items, 0, p) ==> forall j :: 0 <= j < |items[1..]| ==> !SetsThrash(items[1..][j], p)
  {
    assert forall j :: 0 <= j < |items[1..]| ==> items[1..][j] == items[j + 1];
  }

  lemma NoAmbiguousCityShift(s: Store, items: seq<MapPointUpdate>)
    requires items != [] && NoAmbiguousCity(s, items)
    ensures NoAmbiguousCity(s, items[1..])
    ensures Given(items[0].city) ==> |Named(s.maps, items[0].city.value)| <= 1
  {
    assert forall j :: 0 <= j < |items[1..]| ==> items[1..][j] == items[j + 1];
  }

  /** One thrash type of point `p`: the loop's facts about the rest of the
      batch and about the first item give the types item `j` lists. */
  lemma SetsThrashCase(s: Store, b: Store, w': Store, items: seq<MapPointUpdate>, j: int, p: Id, x: Id)
    requires items != [] && p in s.points && LastThrashing(items, j, p)
    requires j > 0 ==> LastThrashing(items[1..], j - 1, p) ==>
      (PointThrashLink(x, p) in b.pointThrash <==>
         exists n :: n in items[1..][j - 1].acceptedThrash.value && FirstNamed(s.thrashTypes, n) == Some(x))
    requires j == 0 ==> (forall j' :: 0 <= j' < |items[1..]| ==> !SetsThrash(items[1..][j'], p)) ==>
      (PointThrashLink(x, p) in b.pointThrash <==> PointThrashLink(x, p) in w'.pointThrash)
    requires SetsThrash(items[0], p) ==>
      (PointThrashLink(x, p) in w'.pointThrash <==>
         exists n :: n in items[0].acceptedThrash.value && FirstNamed(s.thrashTypes, n) == Some(x))
    ensures PointThrashLink(x, p) in b.pointThrash <==>
      exists n :: n in items[j].acceptedThrash.value && FirstNamed(s.thrashTypes, n) == Some(x)
  {
    ThrashingShift(items, p);
    if j > 0 {
      assert items[1..][j - 1] == items[j];
    }
  }

  /** The store after the first item of the corrected update. */
  function StepStore(s: Store, w: Store, u: MapPointUpdate): (t: Store)
    requires w == s.(points := w.points, pointThrash := w.pointThrash) && w.points.Keys == s.points.Keys
    ensures t == s.(points := t.points, pointThrash := t.pointThrash) && t.points.Keys == s.points.Keys
  {
    match GetMapPoint(w, u.id)
    case None => w
    case Some(q) => ApplyItem(s, w, q, u, true)
  }

  /** The ids returned so far, after the first item. */
  function StepOut(w: Store, u: MapPointUpdate, out: seq<Id>): seq<Id> {
    match GetMapPoint(w, u.id)
    case None => out
    case Some(q) => out + [q]
  }

  /** One item: a point it does not replace keeps its links, and the point it
      replaces gets exactly the types its names find. */
  lemma StepThrash(s: Store, w: Store, u: MapPointUpdate)
    requires w == s.(points := w.points, pointThrash := w.pointThrash) && w.points.Keys == s.points.Keys
    requires Given(u.city) ==> |Named(s.maps, u.city.value)| <= 1
    ensures forall p: Id, x: Id :: p in s.points && !SetsThrash(u, p) ==>
      (PointThrashLink(x, p) in StepStore(s, w, u).pointThrash <==> PointThrashLink(x, p) in w.pointThrash)
    ensures forall p: Id, x: Id :: p in s.points && SetsThrash(u, p) ==>
      (PointThrashLink(x, p) in StepStore(s, w, u).pointThrash <==>
         exists n :: n in u.acceptedThrash.value && FirstNamed(s.thrashTypes, n) == Some(x))
  {
    match GetMapPoint(w, u.id)
    case None =>
    case Some(q) => ApplyItemThrash(s, w, q, u);
  }

  lemma {:induction false} UpdateLoopKeepsThrash(s: Store, w: Store, items: seq<MapPointUpdate>, out: seq<Id>)
    requires w == s.(points := w.points, pointThrash := w.pointThrash) && w.points.Keys == s.points.Keys
    requires NoAmbiguousCity(s, items)
    ensures var b := UpdateLoop(s, w, items, out, true);
      b.reply.Done? ==>
        forall p, x: Id :: p in s.points && (forall j :: 0 <= j < |items| ==> !SetsThrash(items[j], p)) ==>
          (PointThrashLink(x, p) in b.store.pointThrash <==> PointThrashLink(x, p) in w.pointThrash)
    decreases |items|
  {
    if items != [] {
      var u := items[0];
      NoAmbiguousCityShift(s, items);
      var w' := StepStore(s, w, u);
      assert UpdateLoop(s, w, items, out, true) == UpdateLoop(s, w', items[1..], StepOut(w, u, out), true);
      UpdateLoopKeepsThrash(s, w', items[1..], StepOut(w, u, out));
      StepThrash(s, w, u);
      forall p: Id | p in s.points && (forall j :: 0 <= j < |items| ==> !SetsThrash(items[j], p))
        ensures !SetsThrash(u, p) && forall j :: 0 <= j < |items[1..]| ==> !SetsThrash(items[1..][j], p)
      {
        ThrashingShift(items, p);
      }
    }
  }

  lemma {:induction false} UpdateLoopSetsThrash(s: Store, w: Store, items: seq<MapPointUpdate>, out: seq<Id>)
    requires w == s.(points := w.points, pointThrash := w.pointThrash) && w.points.Keys == s.points.Keys
    requires NoAmbiguousCity(s, items)
    ensures var b := UpdateLoop(s, w, items, out, true);
      b.reply.Done? ==>
        forall p, j, x: Id :: p in s.points && LastThrashing(items, j, p) ==>
          (PointThrashLink(x, p) in b.store.pointThrash <==>
             exists n :: n in items[j].acceptedThrash.value && FirstNamed(s.thrashTypes, n) == Some(x))
    decreases |items|
  {
    if items != [] {
      var u := items[0];
      NoAmbiguousCityShift(s, items);
      var w' := StepStore(s, w, u);
      var out' := StepOut(w, u, out);
      assert UpdateLoop(s, w, items, out, true) == UpdateLoop(s, w', items[1..], out', true);
      UpdateLoopSetsThrash(s, w', items[1..], out');
      UpdateLoopKeepsThrash(s, w', items[1..], out');
      StepThrash(s, w, u);
      var b := UpdateLoop(s, w, items, out, true);
      if b.reply.Done? {
        forall p, j, x: Id | p in s.points && LastThrashing(items, j, p)
          ensures PointThrashLink(x, p) in b.store.pointThrash <==>
            exists n :: n in items[j].acceptedThrash.value && FirstNamed(s.thrashTypes, n) == Some(x)
        {
          SetsThrashCase(s, b.store, w', items, j, p, x);
        }
      }
    }
  }

  /** The corrected update on a batch whose cities never match several
      maps: the last item that lists thrash types for a point decides
      exactly which types it accepts, and a point no such item names
      keeps the types it had. */
  lemma UpdateMapPointsLastThrashWins(s: Store, items: seq<MapPointUpdate>)
    requires NoAmbiguousCity(s, items)
    ensures var b := UpdateMapPoints(s, items);
      b.reply.Done? ==>
        && (forall p, j, t: Id :: p in s.points && LastThrashing(items, j, p) ==>
              (PointThrashLink(t, p) in b.store.pointThrash <==>
                 exists n :: n in items[j].acceptedThrash.value && FirstNamed(s.thrashTypes, n) == Some(t)))
        && (forall p, t: Id :: p in s.points && (forall j :: 0 <= j < |items| ==> !SetsThrash(items[j], p)) ==>
              (PointThrashLink(t, p) in b.store.pointThrash <==> PointThrashLink(t, p) in s.pointThrash))
  {
    UpdateLoopSetsThrash(s, s, items, []);
    UpdateLoopKeepsThrash(s, s, items, []);
  }

  lemma {:induction false} UpdateLoopTouches(s: Store, w: Store, items: seq<MapPointUpdate>, out: seq<Id>, applyThrash: bool)
    requires w == s.(points := w.points, pointThrash := w.pointThrash) && w.points.Keys == s.points.Keys
    requires forall q :: q in w.points && q !in Elems(out) ==> w.points[q] == s.points[q]
    requires forall l: PointThrashLink :: l.mapPointId !in Elems(out) ==> (l in w.pointThrash <==> l in s.pointThrash)
    ensures var b := UpdateLoop(s, w, items, out, applyThrash);
      b.reply.Done? ==>
        && (forall q :: q in b.store.points && q !in Elems(b.reply.items) ==> b.store.points[q] == s.points[q])
        && (forall l: PointThrashLink :: l.mapPointId !in Elems(b.reply.items) ==> (l in b.store.pointThrash <==> l in s.pointThrash))
    decreases |items|
  {
    if items != [] {
      var u := items[0];
      match GetMapPoint(w, u.id)
      case None => UpdateLoopTouches(s, w, items[1..], out, applyThrash);
      case Some(p) =>
        assert Elems(out + [p]) == Elems(out) + {p};
        UpdateLoopTouches(s, ApplyItem(s, w, p, u, applyThrash), items[1..], out + [p], applyThrash);
    }
  }

  /** Only the points the call returns can differ afterwards, in their
      columns or in their thrash types. */
  lemma UpdateMapPointsTouchesListed(s: Store, items: seq<MapPointUpdate>)
    ensures var b := UpdateMapPoints(s, items);
      b.reply.Done? ==>
        && (forall q :: q in b.store.points && q !in Elems(b.reply.items) ==> b.store.points[q] == s.points[q])
        && (forall l: PointThrashLink :: l.mapPointId !in Elems(b.reply.items) ==> (l in b.store.pointThrash <==> l in s.pointThrash))
  {
    UpdateLoopTouches(s, s, items, [], true);
  }

  lemma ApplyItemKeeps(s: Store, w: Store, p: Id, u: MapPointUpdate, applyThrash: bool)
    requires p in w.points
    requires w == s.(points := w.points, pointThrash := w.pointThrash) && w.points.Keys == s.points.Keys
    requires Valid(s) && RefsResolve(w)
    ensures RefsResolve(ApplyItem(s, w, p, u, applyThrash))
  {
    var w1 := PatchPoint(w, p, u);
    PatchPointKeeps(w, p, u);
    var w2 := CityStep(s, w1, p, u.city);
    CityStepKeeps(s, w1, p, u.city);
    if applyThrash {
      ThrashStepKeeps(w2, p, u.acceptedThrash);
    }
  }

  lemma PatchPointKeeps(w: Store, p: Id, u: MapPointUpdate)
    requires p in w.points && RefsResolve(w)
    ensures RefsResolve(PatchPoint(w, p, u))
  {
    var t := PatchPoint(w, p, u);
    assert PointsResolve(t.points, t.maps);
    assert PointLinksResolve(t.pointThrash, t.thrashTypes, t.points);
    assert IdsDrawn(t);
  }

  lemma CityStepKeeps(s: Store, w: Store, p: Id, city: Option<string>)
    requires p in w.points
    requires w == s.(points := w.points, pointThrash := w.pointThrash) && w.points.Keys == s.points.Keys
    requires RefsResolve(s) && RefsResolve(w)
    ensures RefsResolve(CityStep(s, w, p, city))
  {
    if Given(city) {
      match GetMap(w, city, None)
      case Found(m) =>
        var t := PlaceOnMap(w, p, m);
        assert PointsResolve(t.points, t.maps);
        assert PointLinksResolve(t.pointThrash, t.thrashTypes, t.points);
        assert IdsDrawn(t);
      case Absent =>
      case Ambiguous =>
    }
  }

  lemma ThrashStepKeeps(w: Store, p: Id, names: Option<seq<string>>)
    requires p in w.points && RefsResolve(w)
    ensures RefsResolve(ThrashStep(w, p, names))
  {
    var t := ThrashStep(w, p, names);
    assert PointLinksResolve(t.pointThrash, t.thrashTypes, t.points);
  }

  lemma {:induction false} UpdateLoopKeeps(s: Store, w: Store, items: seq<MapPointUpdate>, out: seq<Id>, applyThrash: bool)
    requires w == s.(points := w.points, pointThrash := w.pointThrash) && w.points.Keys == s.points.Keys
    requires Valid(s) && RefsResolve(w)
    ensures Valid(UpdateLoop(s, w, items, out, applyThrash).store)
    decreases |items|
  {
    if items != [] {
      var u := items[0];
      match GetMapPoint(w, u.id)
      case None => UpdateLoopKeeps(s, w, items[1..], out, applyThrash);
      case Some(p) =>
        var w' := ApplyItem(s, w, p, u, applyThrash);
        ApplyItemKeeps(s, w, p, u, applyThrash);
        assert UpdateLoop(s, w, items, out, applyThrash) == UpdateLoop(s, w', items[1..], out + [p], applyThrash);
        UpdateLoopKeeps(s, w', items[1..], out + [p], applyThrash);
    }
  }

  lemma UpdateMapPointsKeeps(s: Store, items: seq<MapPointUpdate>)
    requires Valid(s)
    ensures Valid(UpdateMapPoints(s, items).store)
    ensures FullyLinked(s) ==> FullyLinked(UpdateMapPoints(s, items).store)
  {
    UpdateLoopKeeps(s, s, items, [], true);
  }

  // ---------------------------------------------------------------------
  // delete_map_points (db/crud.py:749-763)
  // ---------------------------------------------------------------------

  /** The items are MapPointDelete ids. A zero id returns None at once; an
      id with no point makes `session.delete(None)` raise, which rolls back
      and returns None. */
  function DeleteLoop(s: Store, w: Store, ids: seq<int>, out: seq<Id>): (b: Batch<Id>)
    decreases |ids|
    ensures !b.reply.Done? ==> b.store == s
  {
    if ids == [] then Commit(s, w, out)
    else if ids[0] == 0 then Batch(s, Nothing)
    else
      match GetMapPoint(w, ids[0])
      case None => Batch(s, Nothing)
      case Some(p) => DeleteLoop(s, RemovePoint(w, p), ids[1..], out + [p])
  }

  function DeleteMapPoints(s: Store, ids: seq<int>): (b: Batch<Id>)
    ensures !b.reply.Done? ==> b.store == s
  {
    DeleteLoop(s, s, ids, [])
  }

  lemma {:induction false} DeleteLoopAborts(s: Store, w: Store, ids: seq<int>, out: seq<Id>, k: nat)
    requires w.points.Keys <= s.points.Keys
    requires k < |ids| && ids[k] !in s.points
    ensures DeleteLoop(s, w, ids, out) == Batch(s, Nothing)
    decreases |ids|
  {
    if ids[0] != 0 {
      match GetMapPoint(w, ids[0])
      case None =>
      case Some(p) => DeleteLoopAborts(s, RemovePoint(w, p), ids[1..], out + [p], k - 1);
    }
  }

  /** An id with no point (zero included) anywhere in the batch: None,
      and nothing is deleted. */
  lemma DeleteMapPointsAborts(s: Store, ids: seq<int>, k: nat)
    requires k < |ids| && ids[k] !in s.points
    ensures DeleteMapPoints(s, ids) == Batch(s, Nothing)
  {
    DeleteLoopAborts(s, s, ids, [], k);
  }

  lemma {:induction false} DeleteLoopRemoves(s: Store, w: Store, ids: seq<int>, out: seq<Id>)
    requires w.points.Keys == s.points.Keys - Elems(out)
    requires forall q :: q in w.points ==> w.points[q] == s.points[q]
    requires forall l :: l in w.pointThrash <==> l in s.pointThrash && l.mapPointId !in Elems(out)
    ensures var b := DeleteLoop(s, w, ids, out);
      b.reply.Done? ==>
        && b.store.points.Keys == s.points.Keys - Elems(b.reply.items)
        && (forall q :: q in b.store.points ==> b.store.points[q] == s.points[q])
        && (forall l :: l in b.store.pointThrash <==> l in s.pointThrash && l.mapPointId !in Elems(b.reply.items))
    decreases |ids|
  {
    if ids != [] && ids[0] != 0 {
      match GetMapPoint(w, ids[0])
      case None =>
      case Some(p) =>
        assert Elems(out + [p]) == Elems(out) + {p};
        DeleteLoopRemoves(s, RemovePoint(w, p), ids[1..], out + [p]);
    }
  }

  /** A committed delete removes exactly the points it returns, together
      with their thrash links; every other link row stays. */
  lemma DeleteMapPointsRemoves(s: Store, ids: seq<int>)
    ensures var b := DeleteMapPoints(s, ids);
      b.reply.Done? ==>
        && b.store.points.Keys == s.points.Keys - Elems(b.reply.items)
        && (forall q :: q in b.store.points ==> b.store.points[q] == s.points[q])
        && (forall l :: l in b.store.pointThrash <==> l in s.pointThrash && l.mapPointId !in Elems(b.reply.items))
  {
    DeleteLoopRemoves(s, s, ids, []);
  }

  lemma {:induction false} DeleteLoopKeeps(s: Store, w: Store, ids: seq<int>, out: seq<Id>)
    requires Valid(s) && RefsResolve(w) && FullyLinked(s) && FullyLinked(w)
    ensures Valid(DeleteLoop(s, w, ids, out).store)
    ensures FullyLinked(DeleteLoop(s, w, ids, out).store)
    decreases |ids|
  {
    if ids != [] && ids[0] != 0 {
      match GetMapPoint(w, ids[0])
      case None =>
      case Some(p) => DeleteLoopKeeps(s, RemovePoint(w, p), ids[1..], out + [p]);
    }
  }

  lemma DeleteMapPointsKeeps(s: Store, ids: seq<int>)
    requires Valid(s) && FullyLinked(s)
    ensures Valid(DeleteMapPoints(s, ids).store)
    ensures FullyLinked(DeleteMapPoints(s, ids).store)
  {
    DeleteLoopKeeps(s, s, ids, []);
  }
}

=== FILE: requests.dfy ===
/** Delivery requests (db/crud.py:945-1030): update_delivery_requests,
    delete_delivery_requests and create_delivery_request. */
module Requests {
  import opened Wrappers
  import opened Schema
  import opened Session
  import opened Lookup
  import opened Cascade
  import opened Dto

  /** The status a new request is given. */
  const Pending: string := "в ожидании"

  // ---------------------------------------------------------------------
  // update_delivery_requests (db/crud.py:945-982)
  // ---------------------------------------------------------------------

  /** `if req.status:` the first status of that name, when there is one. */
  function PatchedStatus(w: Store, was: Option<Id>, name: Option<string>): (now: Option<Id>)
    ensures now != was ==> Given(name) && now == FirstNamed(w.statuses, name.value) && now.Some?
    ensures Given(name) && FirstNamed(w.statuses, name.value).Some? ==> now == FirstNamed(w.statuses, name.value)
    ensures now.Some? && now != was ==> now.value in w.statuses
  {
    if Given(name) && FirstNamed(w.statuses, name.value).Some? then FirstNamed(w.statuses, name.value) else was
  }

  /** `if req.courier_phone:` the courier with that phone, when there is one. */
  function PatchedCourier(w: Store, was: Option<Id>, phone: Option<string>): (now: Option<Id>)
    ensures now != was ==>
      Given(phone) && now.Some? && now.value in w.couriers && w.couriers[now.value].phone == phone.value
    ensures Given(phone) && |CouriersWithPhone(w, phone.value)| == 1 ==>
      now.Some? && now.value in CouriersWithPhone(w, phone.value)
  {
    var c := if Given(phone) then GetCourier(w, None, None, phone) else None;
    if c.Some? then c else was
  }

  /** `if req.user_phone:` the user with that phone, when there is one. */
  function PatchedUser(w: Store, was: Option<Id>, phone: Option<string>): (now: Option<Id>)
    ensures now != was ==>
      Given(phone) && now.Some? && now.value in w.users && w.users[now.value].phone == phone.value
    ensures Given(phone) && |UsersWithPhone(w, phone.value)| == 1 ==>
      now.Some? && now.value in UsersWithPhone(w, phone.value)
  {
    var v := if Given(phone) then GetUser(w, None, None, phone) else None;
    if v.Some? then v else was
  }

  /** Truthy address, present date and price overwrite; status, courier
      and user move as the three lookups above say. */
  function PatchedRequest(w: Store, was: DeliveryRequest, u: RequestUpdate): (now: DeliveryRequest)
    ensures now.address != was.address ==> Given(u.address)
    ensures Given(u.address) ==> now.address == u.address.value
    ensures now.createDate != was.createDate ==> u.createDate.Some?
    ensures u.createDate.Some? ==> now.createDate == u.createDate.value
    ensures now.price != was.price ==> u.price.Some?
    ensures u.price.Some? ==> now.price == u.price
    ensures now.statusId == PatchedStatus(w, was.statusId, u.status)
    ensures now.courierId == PatchedCourier(w, was.courierId, u.courierPhone)
    ensures now.userId == PatchedUser(w, was.userId, u.userPhone)
  {
    DeliveryRequest(
      if Given(u.address) then u.address.value else was.address,
      if u.createDate.Some? then u.createDate.value else was.createDate,
      if u.price.Some? then u.price else was.price,
      PatchedCourier(w, was.courierId, u.courierPhone),
      PatchedUser(w, was.userId, u.userPhone),
      PatchedStatus(w, was.statusId, u.status))
  }

  /** A falsy id skips the item; an id that names no request makes
      `.one()` raise, which rolls back and returns None. */
  function UpdateLoop(s: Store, w: Store, items: seq<RequestUpdate>, out: seq<Id>): (b: Batch<Id>)
    requires w == s.(requests := w.requests) && w.requests.Keys == s.requests.Keys
    decreases |items|
    ensures !b.reply.Done? ==> b.store == s
    ensures b.store == s.(requests := b.store.requests) && b.store.requests.Keys == s.requests.Keys
  {
    if items == [] then Commit(s, w, out)
    else
      var u := items[0];
      if !GivenInt(u.idReq) then UpdateLoop(s, w, items[1..], out)
      else if u.idReq.value !in w.requests then Batch(s, Nothing)
      else
        var r: Id := u.idReq.value;
        UpdateLoop(s, w.(requests := w.requests[r := PatchedRequest(w, w.requests[r], u)]), items[1..], out + [r])
  }

  function UpdateRequests(s: Store, items: seq<RequestUpdate>): (b: Batch<Id>)
    ensures !b.reply.Done? ==> b.store == s
    ensures b.store == s.(requests := b.store.requests) && b.store.requests.Keys == s.requests.Keys
  {
    UpdateLoop(s, s, items, [])
  }

  /** The truthy ids of a batch, in order, repeats included. */
  function Listed(items: seq<RequestUpdate>): seq<int> {
    if items == [] then []
    else (if GivenInt(items[0].idReq) then [items[0].idReq.value] else []) + Listed(items[1..])
  }

  lemma {:induction false} UpdateLoopReply(s: Store, w: Store, items: seq<RequestUpdate>, out: seq<Id>)
    requires w == s.(requests := w.requests) && w.requests.Keys == s.requests.Keys
    ensures var b := UpdateLoop(s, w, items, out);
      && (b.reply.Done? <==> KeysUnique(s) && forall i :: i in Listed(items) ==> i in s.requests)
      && (b.reply.Done? ==> b.reply.items == out + Listed(items))
    decreases |items|
  {
    if items == [] {
      KeysUniqueFrame(s, w);
      assert out + Listed(items) == out;
    } else {
      var u := items[0];
      var rest := Listed(items[1..]);
      if !GivenInt(u.idReq) {
        assert Listed(items) == rest;
        UpdateLoopReply(s, w, items[1..], out);
      } else {
        assert Listed(items) == [u.idReq.value] + rest;
        if u.idReq.value !in w.requests {
          assert u.idReq.value in Listed(items);
        } else {
          var r: Id := u.idReq.value;
          UpdateLoopReply(s, w.(requests := w.requests[r := PatchedRequest(w, w.requests[r], u)]), items[1..], out + [r]);
          assert forall i :: i in Listed(items) <==> i == r || i in rest;
          assert out + [r] + rest == out + Listed(items);
        }
      }
    }
  }

  /** update_delivery_requests commits exactly when every truthy id of the
      batch names a request, and then returns those ids in the order given. */
  lemma UpdateRequestsReply(s: Store, items: seq<RequestUpdate>)
    ensures var b := UpdateRequests(s, items);
      && (b.reply.Done? <==> KeysUnique(s) && forall i :: i in Listed(items) ==> i in s.requests)
      && (b.reply.Done? ==> b.reply.items == Listed(items))
  {
    UpdateLoopReply(s, s, items, []);
    assert [] + Listed(items) == Listed(items);
  }

  lemma {:induction false} UpdateLoopTouches(s: Store, w: Store, items: seq<RequestUpdate>, out: seq<Id>)
    requires w == s.(requests := w.requests) && w.requests.Keys == s.requests.Keys
    requires forall r :: r in w.requests && r !in Elems(out) ==> w.requests[r] == s.requests[r]
    ensures var b := UpdateLoop(s, w, items, out);
      b.reply.Done? ==>
        forall r :: r in b.store.requests && r !in Elems(b.reply.items) ==> b.store.requests[r] == s.requests[r]
    decreases |items|
  {
    if items != [] {
      var u := items[0];
      if !GivenInt(u.idReq) {
        UpdateLoopTouches(s, w, items[1..], out);
      } else if u.idReq.value in w.requests {
        var r: Id := u.idReq.value;
        assert Elems(out + [r]) == Elems(out) + {r};
        UpdateLoopTouches(s, w.(requests := w.requests[r := PatchedRequest(w, w.requests[r], u)]), items[1..], out + [r]);
      }
    }
  }

  /** Only the requests the call returns can differ afterwards. */
  lemma UpdateRequestsTouchesListed(s: Store, items: seq<RequestUpdate>)
    ensures var b := UpdateRequests(s, items);
      b.reply.Done? ==>
        forall r :: r in b.store.requests && r !in Elems(b.reply.items) ==> b.store.requests[r] == s.requests[r]
  {
    UpdateLoopTouches(s, s, items, []);
  }

  /** A patched request refers to rows of the store it was patched in. */
  lemma PatchedRequestResolves(w: Store, was: DeliveryRequest, u: RequestUpdate)
    requires was.userId.Some? ==> was.userId.value in w.users
    requires was.courierId.Some? ==> was.courierId.value in w.couriers
    requires was.statusId.Some? ==> was.statusId.value in w.statuses
    ensures var now := PatchedRequest(w, was, u);
      && (now.userId.Some? ==> now.userId.value in w.users)
      && (now.courierId.Some? ==> now.courierId.value in w.couriers)
      && (now.statusId.Some? ==> now.statusId.value in w.statuses)
  {
  }

  lemma {:induction false} UpdateLoopKeeps(s: Store, w: Store, items: seq<RequestUpdate>, out: seq<Id>)
    requires w == s.(requests := w.requests) && w.requests.Keys == s.requests.Keys
    requires Valid(s) && RequestsResolve(w.requests, w.users, w.couriers, w.statuses)
    ensures Valid(UpdateLoop(s, w, items, out).store)
    decreases |items|
  {
    if items == [] {
      assert Valid(w);
    } else {
      var u := items[0];
      if !GivenInt(u.idReq) {
        UpdateLoopKeeps(s, w, items[1..], out);
      } else if u.idReq.value in w.requests {
        var r: Id := u.idReq.value;
        PatchedRequestResolves(w, w.requests[r], u);
        UpdateLoopKeeps(s, w.(requests := w.requests[r := PatchedRequest(w, w.requests[r], u)]), items[1..], out + [r]);
      }
    }
  }

  lemma UpdateRequestsKeeps(s: Store, items: seq<RequestUpdate>)
    requires Valid(s)
    ensures Valid(UpdateRequests(s, items).store)
    ensures FullyLinked(s) ==> FullyLinked(UpdateRequests(s, items).store)
  {
    UpdateLoopKeeps(s, s, items, []);
  }

  // ---------------------------------------------------------------------
  // delete_delivery_requests (db/crud.py:985-1002)
  // ---------------------------------------------------------------------

  /** Each DeliveryRequestDelete is its `req_id`. A falsy id, or one that
      names no request (one already deleted by this batch included), is
      skipped. */
  function DeleteLoop(s: Store, w: Store, ids: seq<int>, out: seq<Id>): (b: Batch<Id>)
    decreases |ids|
    ensures !b.reply.Done? ==> b.store == s
  {
    if ids == [] then Commit(s, w, out)
    else if ids[0] == 0 || ids[0] !in w.requests then DeleteLoop(s, w, ids[1..], out)
    else DeleteLoop(s, RemoveRequest(w, ids[0]), ids[1..], out + [ids[0]])
  }

  function DeleteRequests(s: Store, ids: seq<int>): (b: Batch<Id>)
    ensures !b.reply.Done? ==> b.store == s
  {
    DeleteLoop(s, s, ids, [])
  }

  /** The requests of `w` some truthy id of the list names. */
  function NamedBy(w: Store, ids: seq<int>): set<Id> {
    set i: Id | i in w.requests && i != 0 && i in ids
  }

  /** Dropping the head of the list: a skipped id names nothing more, a
      deleted one leaves `w` and is named by the head. */
  lemma NamedByStep(w: Store, ids: seq<int>)
    requires ids != []
    ensures ids[0] == 0 || ids[0] !in w.requests ==> NamedBy(w, ids) == NamedBy(w, ids[1..])
    ensures ids[0] != 0 && ids[0] in w.requests ==>
      NamedBy(w, ids) == NamedBy(RemoveRequest(w, ids[0]), ids[1..]) + {ids[0] as Id}
  {
    assert forall i :: i in ids <==> i == ids[0] || i in ids[1..];
  }

  lemma {:induction false} DeleteLoopReply(s: Store, w: Store, ids: seq<int>, out: seq<Id>)
    requires w == s.(requests := w.requests, deliveryThrash := w.deliveryThrash)
    ensures var b := DeleteLoop(s, w, ids, out);
      && (b.reply.Done? <==> KeysUnique(s))
      && (b.reply.Done? ==> Elems(b.reply.items) == Elems(out) + NamedBy(w, ids))
    decreases |ids|
  {
    if ids == [] {
      KeysUniqueFrame(s, w);
      assert NamedBy(w, ids) == {};
    } else {
      NamedByStep(w, ids);
      if ids[0] == 0 || ids[0] !in w.requests {
        DeleteLoopReply(s, w, ids[1..], out);
      } else {
        var r: Id := ids[0];
        assert Elems(out + [r]) == Elems(out) + {r};
        DeleteLoopReply(s, RemoveRequest(w, r), ids[1..], out + [r]);
      }
    }
  }

  lemma {:induction false} DeleteLoopRemoves(s: Store, w: Store, ids: seq<int>, out: seq<Id>)
    requires w == s.(requests := w.requests, deliveryThrash := w.deliveryThrash)
    requires w.requests.Keys == s.requests.Keys - Elems(out)
    requires forall r :: r in w.requests ==> w.requests[r] == s.requests[r]
    requires forall l :: l in w.deliveryThrash <==> l in s.deliveryThrash && l.thrashTypeId !in Elems(out)
    ensures var b := DeleteLoop(s, w, ids, out);
      b.reply.Done? ==>
        && b.store == s.(requests := b.store.requests, deliveryThrash := b.store.deliveryThrash)
        && b.store.requests.Keys == s.requests.Keys - Elems(b.reply.items)
        && (forall r :: r in b.store.requests ==> b.store.requests[r] == s.requests[r])
        && (forall l :: l in b.store.deliveryThrash <==>
              l in s.deliveryThrash && l.thrashTypeId !in Elems(b.reply.items))
    decreases |ids|
  {
    if ids != [] {
      if ids[0] == 0 || ids[0] !in w.requests {
        DeleteLoopRemoves(s, w, ids[1..], out);
      } else {
        var r: Id := ids[0];
        assert Elems(out + [r]) == Elems(out) + {r};
        DeleteLoopRemoves(s, RemoveRequest(w, r), ids[1..], out + [r]);
      }
    }
  }

  /** delete_delivery_requests commits whenever the store is consistent;
      it deletes exactly the requests the list names, with their thrash
      link rows, and leaves every other row as it was. */
  lemma DeleteRequestsRemoves(s: Store, ids: seq<int>)
    ensures var b := DeleteRequests(s, ids);
      && (b.reply.Done? <==> KeysUnique(s))
      && (b.reply.Done? ==>
        && Elems(b.reply.items) == NamedBy(s, ids)
        && b.store == s.(requests := b.store.requests, deliveryThrash := b.store.deliveryThrash)
        && b.store.requests.Keys == s.requests.Keys - NamedBy(s, ids)
        && (forall r :: r in b.store.requests ==> b.store.requests[r] == s.requests[r])
        && (forall l :: l in b.store.deliveryThrash <==>
              l in s.deliveryThrash && l.thrashTypeId !in NamedBy(s, ids)))
  {
    assert Elems<Id>([]) == {};
    DeleteLoopReply(s, s, ids, []);
    DeleteLoopRemoves(s, s, ids, []);
  }

  lemma {:induction false} DeleteLoopKeeps(s: Store, w: Store, ids: seq<int>, out: seq<Id>)
    requires Valid(s) && Valid(w)
    requires w == s.(requests := w.requests, deliveryThrash := w.deliveryThrash)
    ensures Valid(DeleteLoop(s, w, ids, out).store)
    ensures DeleteLoop(s, w, ids, out).store == s.(requests := DeleteLoop(s, w, ids, out).store.requests,
                                                  deliveryThrash := DeleteLoop(s, w, ids, out).store.deliveryThrash)
    decreases |ids|
  {
    if ids != [] {
      if ids[0] == 0 || ids[0] !in w.requests {
        DeleteLoopKeeps(s, w, ids[1..], out);
      } else {
        DeleteLoopKeeps(s, RemoveRequest(w, ids[0]), ids[1..], out + [ids[0]]);
      }
    }
  }

  lemma DeleteRequestsKeeps(s: Store, ids: seq<int>)
    requires Valid(s)
    ensures Valid(DeleteRequests(s, ids).store)
    ensures FullyLinked(s) ==> FullyLinked(DeleteRequests(s, ids).store)
  {
    DeleteLoopKeeps(s, s, ids, []);
  }

  // ---------------------------------------------------------------------
  // create_delivery_request (db/crud.py:1005-1030)
  // ---------------------------------------------------------------------

  /** The link rows giving request `r` the thrash types `ids`. */
  function LinksOf(r: Id, ids: set<Id>): (links: set<DeliveryThrashLink>)
    ensures forall l :: l in links <==> l.thrashTypeId == r && l.requestId in ids
  {
    set t | t in ids :: DeliveryThrashLink(r, t)
  }

  function NewRequest(d: RequestCreate, user: Option<Id>, courier: Option<Id>, status: Option<Id>): DeliveryRequest {
    DeliveryRequest(d.address, d.createDate, d.price, courier, user, status)
  }

  /** The user and the courier the body's phones find. */
  function UserOf(s: Store, d: RequestCreate): Option<Id> {
    GetUser(s, None, None, Some(d.userPhone))
  }

  function CourierOf(s: Store, d: RequestCreate): Option<Id> {
    GetCourier(s, None, None, Some(d.courierPhone))
  }

  /** The new row and its link rows, added and committed at once; a thrash
      type listed twice makes two identical link rows, the commit fails
      and the call returns None. */
  function Stage(s: Store, d: RequestCreate, status: Option<Id>, thrash: seq<Id>): (b: Batch<Id>)
    ensures !b.reply.Done? ==> b == Batch(s, Nothing)
    ensures b.reply.Done? <==> KeysUnique(s) && NoRepeats(thrash)
    ensures b.reply.Done? ==> b.reply.items == [s.nextId]
    ensures b.reply.Done? ==>
      b.store == s.(requests := b.store.requests, deliveryThrash := b.store.deliveryThrash, nextId := s.nextId + 1)
    ensures b.reply.Done? ==>
      b.store.requests == s.requests[s.nextId := NewRequest(d, UserOf(s, d), CourierOf(s, d), status)]
    ensures b.reply.Done? ==>
      forall l :: l in b.store.deliveryThrash <==>
        l in s.deliveryThrash || (l.thrashTypeId == s.nextId && l.requestId in thrash)
  {
    var r := s.nextId;
    var w := s.(requests := s.requests[r := NewRequest(d, UserOf(s, d), CourierOf(s, d), status)],
                deliveryThrash := s.deliveryThrash + LinksOf(r, Elems(thrash)),
                nextId := r + 1);
    assert KeysUnique(w) == KeysUnique(s);
    if KeysUnique(w) && NoRepeats(thrash) then Batch(w, Done([r])) else Batch(s, Nothing)
  }

  /** create_delivery_request as written. The status lookup returns a
      list, so `is not None` holds even when no "в ожидании" status exists,
      and `[0]` raises; likewise a thrash name that finds no type raises.
      Either way the call rolls back and returns None. */
  function CreateRequestAsWritten(s: Store, d: RequestCreate): (b: Batch<Id>)
    ensures !b.reply.Done? ==> b == Batch(s, Nothing)
    ensures b.reply.Done? ==> FirstNamed(s.statuses, Pending).Some?
    ensures b.reply.Done? ==> ResolveAll(s.thrashTypes, d.thrashTypes).Some?
  {
    if UserOf(s, d).None? && CourierOf(s, d).None? then Batch(s, Nothing)
    else
      match FirstNamed(s.statuses, Pending)
      case None => Batch(s, Nothing)
      case Some(st) =>
        match ResolveAll(s.thrashTypes, d.thrashTypes)
        case None => Batch(s, Nothing)
        case Some(thrash) => Stage(s, d, Some(st), thrash)
  }

  /** create_delivery_request as evidently intended: a missing status
      leaves the request without one, and thrash names that find nothing
      are dropped, as create_map_point drops them. */
  function CreateRequest(s: Store, d: RequestCreate): (b: Batch<Id>)
    ensures !b.reply.Done? ==> b == Batch(s, Nothing)
    ensures b.reply.Done? <==>
      (UserOf(s, d).Some? || CourierOf(s, d).Some?) && KeysUnique(s)
      && NoRepeats(ResolveKnown(s.thrashTypes, d.thrashTypes))
    ensures b.reply.Done? ==> b.reply.items == [s.nextId]
    ensures b.reply.Done? ==>
      b.store == s.(requests := b.store.requests, deliveryThrash := b.store.deliveryThrash, nextId := s.nextId + 1)
    ensures b.reply.Done? ==>
      b.store.requests == s.requests[s.nextId := NewRequest(d, UserOf(s, d), CourierOf(s, d), FirstNamed(s.statuses, Pending))]
  {
    if UserOf(s, d).None? && CourierOf(s, d).None? then Batch(s, Nothing)
    else Stage(s, d, FirstNamed(s.statuses, Pending), ResolveKnown(s.thrashTypes, d.thrashTypes))
  }

  /** The new request carries exactly the thrash types some name of the
      list finds, and every older link row stays. */
  lemma CreateRequestLinks(s: Store, d: RequestCreate)
    requires RefsResolve(s)
    ensures var b := CreateRequest(s, d);
      b.reply.Done? ==>
        && (forall l :: l in s.deliveryThrash ==> l in b.store.deliveryThrash)
        && (forall l :: l in b.store.deliveryThrash && l !in s.deliveryThrash ==> l.thrashTypeId == s.nextId)
        && (forall t: Id :: DeliveryThrashLink(s.nextId, t) in b.store.deliveryThrash <==>
              exists n :: n in d.thrashTypes && FirstNamed(s.thrashTypes, n) == Some(t))
  {
    var b := CreateRequest(s, d);
    if b.reply.Done? {
      forall t: Id
        ensures DeliveryThrashLink(s.nextId, t) in b.store.deliveryThrash <==>
          exists n :: n in d.thrashTypes && FirstNamed(s.thrashTypes, n) == Some(t)
      {
        assert DeliveryThrashLink(s.nextId, t) !in s.deliveryThrash;
        ResolveKnownHas(s.thrashTypes, d.thrashTypes, t);
      }
    }
  }

  /** When the pending status exists and every thrash name finds a type,
      the call as written and the corrected call agree. */
  lemma CreateRequestAgrees(s: Store, d: RequestCreate)
    requires FirstNamed(s.statuses, Pending).Some?
    requires forall n :: n in d.thrashTypes ==> Select(s.thrashTypes, Some(n), None) != {}
    ensures CreateRequestAsWritten(s, d) == CreateRequest(s, d)
  {
    ResolveAllIsStrictResolveKnown(s.thrashTypes, d.thrashTypes);
  }

  /** With no "в ожидании" status the call as written always returns None,
      while the corrected call creates the request without a status. */
  lemma CreateRequestNeedsPending(s: Store, d: RequestCreate)
    requires FirstNamed(s.statuses, Pending).None?
    ensures CreateRequestAsWritten(s, d) == Batch(s, Nothing)
    ensures ((UserOf(s, d).Some? || CourierOf(s, d).Some?) && KeysUnique(s)
             && NoRepeats(ResolveKnown(s.thrashTypes, d.thrashTypes))) ==>
        CreateRequest(s, d).reply.Done? && CreateRequest(s, d).store.requests[s.nextId].statusId.None?
  {
  }

  /** One thrash name that finds no type makes the call as written return
      None, while the corrected call creates the request without it. */
  lemma CreateRequestUnknownThrash(s: Store, d: RequestCreate, k: nat)
    requires k < |d.thrashTypes| && Select(s.thrashTypes, Some(d.thrashTypes[k]), None) == {}
    ensures CreateRequestAsWritten(s, d) == Batch(s, Nothing)
    ensures ((UserOf(s, d).Some? || CourierOf(s, d).Some?) && KeysUnique(s)
             && NoRepeats(ResolveKnown(s.thrashTypes, d.thrashTypes))) ==>
        CreateRequest(s, d).reply.Done?
  {
    ResolveAllIsStrictResolveKnown(s.thrashTypes, d.thrashTypes);
    assert d.thrashTypes[k] in d.thrashTypes;
  }

  lemma StageKeeps(s: Store, d: RequestCreate, status: Option<Id>, thrash: seq<Id>)
    requires Valid(s)
    requires status.Some? ==> status.value in s.statuses
    requires forall t :: t in thrash ==> t in s.thrashTypes
    ensures Valid(Stage(s, d, status, thrash).store)
    ensures FullyLinked(s) ==> FullyLinked(Stage(s, d, status, thrash).store)
  {
    var b := Stage(s, d, status, thrash);
    if b.reply.Done? {
      var t := b.store;
      KeysUniqueFrame(s, t);
      assert IdsDrawn(t);
      assert RequestsResolve(t.requests, t.users, t.couriers, t.statuses);
      assert DeliveryLinksResolve(t.deliveryThrash, t.requests, t.thrashTypes);
    }
  }

  lemma CreateRequestKeeps(s: Store, d: RequestCreate)
    requires Valid(s)
    ensures Valid(CreateRequest(s, d).store)
    ensures FullyLinked(s) ==> FullyLinked(CreateRequest(s, d).store)
  {
    if UserOf(s, d).Some? || CourierOf(s, d).Some? {
      StageKeeps(s, d, FirstNamed(s.statuses, Pending), ResolveKnown(s.thrashTypes, d.thrashTypes));
    }
  }

  lemma CreateRequestAsWrittenKeeps(s: Store, d: RequestCreate)
    requires Valid(s)
    ensures Valid(CreateRequestAsWritten(s, d).store)
    ensures FullyLinked(s) ==> FullyLinked(CreateRequestAsWritten(s, d).store)
  {
    var status := FirstNamed(s.statuses, Pending);
    var thrash := ResolveAll(s.thrashTypes, d.thrashTypes);
    if (UserOf(s, d).Some? || CourierOf(s, d).Some?) && status.Some? && thrash.Some? {
      StageKeeps(s, d, status, thrash.value);
    }
  }
}

=== FILE: schema.dfy ===
/** The relational schema of db/sql_models.py as an immutable store: one map
    from id to row per entity table, and the three link tables. */
module Schema {
  import opened Wrappers

  /** Surrogate keys are Postgres serials: positive integers. */
  type Id = i: int | i >= 1 witness 1

  /** Dates and datetimes are opaque ordered instants. */
  type Time = int

  /** The courier's float salary, treated as an opaque ordered number. */
  type Money = int

  /** A map point's (x, y) pair. */
  datatype Coord = Coord(x: int, y: int)

  /** `role` is the nullable foreign key `role_id`. */
  datatype User = User(
    phone: string,
    username: Option<string>,
    name: Option<string>,
    surname: Option<string>,
    birthday: Option<Time>,
    password: string,
    roleId: Option<Id>)

  /** The fixed role tag every courier row carries by default. */
  const CourierRole: string := "courier"

  datatype Courier = Courier(
    phone: string,
    username: Option<string>,
    name: Option<string>,
    surname: Option<string>,
    birthday: Option<Time>,
    deliveryCount: Option<int>,
    salary: Option<Money>,
    password: string,
    role: string)

  datatype Achievement = Achievement(title: string, description: Option<string>)

  /** `mapId` is the nullable foreign key `id_map`; the accepted thrash types
      live in the PointThrashLink table. */
  datatype MapPoint = MapPoint(
    title: string,
    address: string,
    phone: Option<string>,
    email: Option<string>,
    website: Option<string>,
    description: Option<string>,
    coordinates: Coord,
    mapId: Option<Id>)

  /** Courier, user and status are nullable foreign keys; the thrash types
      live in the DeliveryThrashLink table. */
  datatype DeliveryRequest = DeliveryRequest(
    address: string,
    createDate: Time,
    price: Option<Money>,
    courierId: Option<Id>,
    userId: Option<Id>,
    statusId: Option<Id>)

  /** The composite primary key of UserAchievementLink. */
  datatype AchievementKey = AchievementKey(userId: Id, achievementId: Id)

  /** The non-key columns of UserAchievementLink. */
  datatype Unlock = Unlock(unlockDate: Option<Time>, unlocked: bool)

  /** A freshly inserted link: locked, no unlock date. */
  const Locked: Unlock := Unlock(None, false)

  datatype PointThrashLink = PointThrashLink(thrashTypeId: Id, mapPointId: Id)

  /** The column names of this link table are crossed over in the source:
      `thrashTypeId` is the foreign key to the delivery request and
      `requestId` the foreign key to the thrash type. The ORM fills them
      consistently with those foreign keys, so the row for request `r` and
      thrash type `t` is `DeliveryThrashLink(r, t)`. */
  datatype DeliveryThrashLink = DeliveryThrashLink(thrashTypeId: Id, requestId: Id)

  /** The four tables whose rows carry nothing but a name: Role.name,
      ThrashType.thrash_type, Status.status_name and Map.city. */
  datatype Catalog = Roles | ThrashTypes | Statuses | Maps

  /** Postgres enforces a unique constraint on the name of Role and
      ThrashType only; Status and Map declare none. */
  predicate NameConstrained(c: Catalog) {
    c == Roles || c == ThrashTypes
  }

  datatype Store = Store(
    users: map<Id, User>,
    couriers: map<Id, Courier>,
    achievements: map<Id, Achievement>,
    roles: map<Id, string>,
    thrashTypes: map<Id, string>,
    statuses: map<Id, string>,
    maps: map<Id, string>,
    points: map<Id, MapPoint>,
    requests: map<Id, DeliveryRequest>,
    unlocks: map<AchievementKey, Unlock>,
    pointThrash: set<PointThrashLink>,
    deliveryThrash: set<DeliveryThrashLink>,
    nextId: Id)

  function Rows(s: Store, c: Catalog): map<Id, string> {
    match c
    case Roles => s.roles
    case ThrashTypes => s.thrashTypes
    case Statuses => s.statuses
    case Maps => s.maps
  }

  function WithRows(s: Store, c: Catalog, m: map<Id, string>): (t: Store)
    ensures Rows(t, c) == m
    ensures forall d :: d != c ==> Rows(t, d) == Rows(s, d)
    ensures t.users == s.users && t.couriers == s.couriers && t.achievements == s.achievements
    ensures t.points == s.points && t.requests == s.requests && t.unlocks == s.unlocks
    ensures t.pointThrash == s.pointThrash && t.deliveryThrash == s.deliveryThrash
    ensures t.nextId == s.nextId
  {
    match c
    case Roles => s.(roles := m)
    case ThrashTypes => s.(thrashTypes := m)
    case Statuses => s.(statuses := m)
    case Maps => s.(maps := m)
  }

  // ---------------------------------------------------------------------
  // Unique constraints (enforced by the database at commit)
  // ---------------------------------------------------------------------

  /** No two rows share a value. */
  predicate Injective(m: map<Id, string>) {
    forall i, j :: i in m && j in m && i != j ==> m[i] != m[j]
  }

  function UserPhones(s: Store): map<Id, string> {
    map i | i in s.users :: s.users[i].phone
  }

  /** NULL usernames never collide, so only present ones are constrained. */
  function UserNames(s: Store): map<Id, string> {
    map i | i in s.users && s.users[i].username.Some? :: s.users[i].username.value
  }

  function CourierPhones(s: Store): map<Id, string> {
    map i | i in s.couriers :: s.couriers[i].phone
  }

  function CourierNames(s: Store): map<Id, string> {
    map i | i in s.couriers && s.couriers[i].username.Some? :: s.couriers[i].username.value
  }

  function Titles(s: Store): map<Id, string> {
    map i | i in s.achievements :: s.achievements[i].title
  }

  /** The UniqueConstraint declarations of the schema. */
  predicate KeysUnique(s: Store) {
    && Injective(UserPhones(s)) && Injective(UserNames(s))
    && Injective(CourierPhones(s)) && Injective(CourierNames(s))
    && Injective(Titles(s))
    && Injective(s.roles) && Injective(s.thrashTypes)
  }

  /** The unique constraints read only users, couriers, achievements,
      roles and thrash types. */
  lemma KeysUniqueFrame(s: Store, t: Store)
    requires t.users == s.users && t.couriers == s.couriers && t.achievements == s.achievements
    requires t.roles == s.roles && t.thrashTypes == s.thrashTypes
    ensures KeysUnique(t) == KeysUnique(s)
  {
    assert UserPhones(t) == UserPhones(s) && UserNames(t) == UserNames(s);
    assert CourierPhones(t) == CourierPhones(s) && CourierNames(t) == CourierNames(s);
    assert Titles(t) == Titles(s);
  }

  // ---------------------------------------------------------------------
  // Foreign keys and id freshness
  // ---------------------------------------------------------------------

  predicate Below<T>(m: map<Id, T>, next: Id) {
    forall i :: i in m ==> i < next
  }

  /** Every stored id was drawn from the serial counter. */
  predicate IdsDrawn(s: Store) {
    && Below(s.users, s.nextId) && Below(s.couriers, s.nextId)
    && Below(s.achievements, s.nextId) && Below(s.roles, s.nextId)
    && Below(s.thrashTypes, s.nextId) && Below(s.statuses, s.nextId)
    && Below(s.maps, s.nextId) && Below(s.points, s.nextId)
    && Below(s.requests, s.nextId)
  }

  predicate RolesResolve(users: map<Id, User>, roles: map<Id, string>) {
    forall u :: u in users && users[u].roleId.Some? ==> users[u].roleId.value in roles
  }

  predicate RequestsResolve(requests: map<Id, DeliveryRequest>, users: map<Id, User>,
                            couriers: map<Id, Courier>, statuses: map<Id, string>) {
    forall r :: r in requests ==>
      && (requests[r].userId.Some? ==> requests[r].userId.value in users)
      && (requests[r].courierId.Some? ==> requests[r].courierId.value in couriers)
      && (requests[r].statusId.Some? ==> requests[r].statusId.value in statuses)
  }

  predicate PointsResolve(points: map<Id, MapPoint>, maps: map<Id, string>) {
    forall p :: p in points && points[p].mapId.Some? ==> points[p].mapId.value in maps
  }

  predicate UnlocksResolve(unlocks: map<AchievementKey, Unlock>, users: map<Id, User>,
                           achievements: map<Id, Achievement>) {
    forall k :: k in unlocks ==> k.userId in users && k.achievementId in achievements
  }

  predicate PointLinksResolve(links: set<PointThrashLink>, thrashTypes: map<Id, string>,
                              points: map<Id, MapPoint>) {
    forall l :: l in links ==> l.thrashTypeId in thrashTypes && l.mapPointId in points
  }

  /** The crossed-over columns: `thrashTypeId` references deliveryrequest.id
      and `requestId` references thrashtype.id. */
  predicate DeliveryLinksResolve(links: set<DeliveryThrashLink>, requests: map<Id, DeliveryRequest>,
                                 thrashTypes: map<Id, string>) {
    forall l :: l in links ==> l.thrashTypeId in requests && l.requestId in thrashTypes
  }

  /** Every foreign key points at an existing row. */
  predicate RefsResolve(s: Store) {
    && IdsDrawn(s)
    && RolesResolve(s.users, s.roles)
    && RequestsResolve(s.requests, s.users, s.couriers, s.statuses)
    && PointsResolve(s.points, s.maps)
    && UnlocksResolve(s.unlocks, s.users, s.achievements)
    && PointLinksResolve(s.pointThrash, s.thrashTypes, s.points)
    && DeliveryLinksResolve(s.deliveryThrash, s.requests, s.thrashTypes)
  }

  /** A store the database can hold. */
  predicate Valid(s: Store) {
    KeysUnique(s) && RefsResolve(s)
  }

  /** Every user has a link row for every achievement. */
  predicate FullyLinked(s: Store) {
    forall u, a :: u in s.users && a in s.achievements ==> AchievementKey(u, a) in s.unlocks
  }

  /** The store of a freshly initialised database. */
  const Empty: Store := Store(map[], map[], map[], map[], map[], map[], map[], map[], map[],
                              map[], {}, {}, 1)

  /** Submaps of an injective map are injective. */
  lemma InjectiveSub(m: map<Id, string>, n: map<Id, string>)
    requires forall i :: i in n ==> i in m && n[i] == m[i]
    ensures Injective(m) ==> Injective(n)
  {
  }
}

=== FILE: session.dfy ===
/** The transaction around one crud call. Changes are staged on a working
    copy of the store; `rollback` throws the working copy away, `commit`
    makes it the store, provided the database's unique constraints hold. */
module Session {
  import opened Schema

  /** What a crud call hands back to its caller. */
  datatype Reply<T> =
    | Done(items: seq<T>)   // the list built by the loop, after a commit
    | Nothing               // the function returned None; nothing committed
    | Conflict(key: string) // an HTTPException(400) returned for an existing natural key
    | Rejected              // the commit raised IntegrityError; nothing committed

  datatype Batch<T> = Batch(store: Store, reply: Reply<T>)

  /** `session.commit()` at the end of a batch loop: base `s` becomes the
      staged store `w` when the unique constraints accept it. */
  function Commit<T>(s: Store, w: Store, out: seq<T>): (b: Batch<T>)
    ensures b.reply.Done? <==> KeysUnique(w)
    ensures b.reply.Done? ==> b.store == w && b.reply.items == out
    ensures !b.reply.Done? ==> b.store == s && b.reply == Rejected
  {
    if KeysUnique(w) then Batch(w, Done(out)) else Batch(s, Rejected)
  }
}

=== FILE: users.dfy ===
/** Users and their achievement links (db/crud.py:45-212): update_user,
    delete_user, create_user with create_user_achievements,
    sync_users_achievements and update_users_achievements. */
module Users {
  import opened Wrappers
  import opened Schema
  import opened Session
  import opened Lookup
  import opened Cascade
  import opened Dto

  /** The role every new user gets. */
  const BasicUser: string := "basic_user"

  // ---------------------------------------------------------------------
  // update_user (db/crud.py:45-78)
  // ---------------------------------------------------------------------

  /** An item update_user skips: no old phone, no id, no username. */
  predicate NoTarget(u: UserUpdate) {
    !Given(u.phoneOld) && !GivenInt(u.id) && !Given(u.username)
  }

  /** The user an item edits: looked up by old phone when it is given,
      otherwise by id, otherwise by username, with no fallback. */
  function UpdateTarget(w: Store, u: UserUpdate): (r: Option<Id>)
    ensures r.Some? ==> r.value in w.users
    ensures Given(u.phoneOld) && r.Some? ==> w.users[r.value].phone == u.phoneOld.value
    ensures !Given(u.phoneOld) && GivenInt(u.id) ==>
      (r.Some? <==> u.id.value in w.users) && (r.Some? ==> r.value == u.id.value)
    ensures !Given(u.phoneOld) && !GivenInt(u.id) && r.Some? ==>
      Given(u.username) && w.users[r.value].username == u.username
  {
    if Given(u.phoneOld) then GetUser(w, None, None, u.phoneOld)
    else if GivenInt(u.id) then GetUser(w, u.id, None, None)
    else GetUser(w, None, u.username, None)
  }

  /** With phone numbers unique, an old phone that belongs to a user picks
      that user, whatever the item's id and username say. */
  lemma UpdateTargetPrefersPhone(w: Store, u: UserUpdate, v: Id)
    requires KeysUnique(w) && v in w.users
    requires Given(u.phoneOld) && u.phoneOld.value == w.users[v].phone
    ensures UpdateTarget(w, u) == Some(v)
  {
    PhoneFindsUser(w, v);
  }

  /** The role `get_role(role)[0]` names, when the item gives a role that exists. */
  function NewRole(w: Store, u: UserUpdate): (r: Option<Id>)
    ensures r.Some? ==> Given(u.role) && r.value in w.roles && w.roles[r.value] == u.role.value
    ensures Given(u.role) && u.role.value in w.roles.Values ==> r.Some?
  {
    if Given(u.role) then
      FirstNamed(w.roles, u.role.value)
    else None
  }

  /** The field assignments of one item: a field changes only when the
      item names it (phone and username only together with their old
      value), and then takes the item's value; the password never changes. */
  function PatchedUser(was: User, u: UserUpdate, role: Option<Id>): (now: User)
    ensures now.phone != was.phone ==> Given(u.phoneOld) && Given(u.phoneNew)
    ensures Given(u.phoneOld) && Given(u.phoneNew) ==> now.phone == u.phoneNew.value
    ensures now.username != was.username ==> Given(u.username) && Given(u.usernameNew)
    ensures Given(u.username) && Given(u.usernameNew) ==> now.username == u.usernameNew
    ensures now.name != was.name ==> Given(u.name)
    ensures Given(u.name) ==> now.name == u.name
    ensures now.surname != was.surname ==> Given(u.surname)
    ensures Given(u.surname) ==> now.surname == u.surname
    ensures now.birthday != was.birthday ==> u.birthday.Some?
    ensures u.birthday.Some? ==> now.birthday == u.birthday
    ensures now.roleId != was.roleId ==> role.Some? && now.roleId == role
    ensures role.Some? ==> now.roleId == role
    ensures now.password == was.password
  {
    was.(
      phone := if Given(u.phoneOld) && Given(u.phoneNew) then u.phoneNew.value else was.phone,
      username := if Given(u.username) && Given(u.usernameNew) then u.usernameNew else was.username,
      name := if Given(u.name) then u.name else was.name,
      surname := if Given(u.surname) then u.surname else was.surname,
      birthday := if u.birthday.Some? then u.birthday else was.birthday,
      roleId := if role.Some? then role else was.roleId)
  }

  /** One item applied to user `t`; no other row changes. */
  function PatchUser(w: Store, t: Id, u: UserUpdate): (r: Store)
    requires t in w.users
    ensures r == w.(users := r.users)
    ensures r.users.Keys == w.users.Keys
    ensures forall v :: v in w.users && v != t ==> r.users[v] == w.users[v]
    ensures r.users[t] == PatchedUser(w.users[t], u, NewRole(w, u))
  {
    w.(users := w.users[t := PatchedUser(w.users[t], u, NewRole(w, u))])
  }

  /** The loop over the items still to apply. An item without a target key
      is skipped; a target that is not found makes the attribute write (or
      `session.add(None)`) raise, which rolls back and returns None. */
  function UpdateUsersLoop(s: Store, w: Store, items: seq<UserUpdate>, out: seq<Id>): (b: Batch<Id>)
    requires w == s.(users := w.users)
    decreases |items|
    ensures !b.reply.Done? ==> b.store == s
    ensures b.store == s.(users := b.store.users)
  {
    if items == [] then Commit(s, w, out)
    else
      var u := items[0];
      if NoTarget(u) then UpdateUsersLoop(s, w, items[1..], out)
      else
        match UpdateTarget(w, u)
        case None => Batch(s, Nothing)
        case Some(t) => UpdateUsersLoop(s, PatchUser(w, t, u), items[1..], out + [t])
  }

  /** update_user: only the user table can change. */
  function UpdateUsers(s: Store, items: seq<UserUpdate>): (b: Batch<Id>)
    ensures !b.reply.Done? ==> b.store == s
    ensures b.store == s.(users := b.store.users)
  {
    UpdateUsersLoop(s, s, items, [])
  }

  /** The items that name a target. */
  function Keyed(items: seq<UserUpdate>): (r: seq<UserUpdate>)
    ensures forall j :: 0 <= j < |r| ==> !NoTarget(r[j])
    ensures |r| <= |items|
  {
    if items == [] then []
    else if NoTarget(items[0]) then Keyed(items[1..])
    else [items[0]] + Keyed(items[1..])
  }

  lemma {:induction false} UpdateUsersLoopKeyed(s: Store, w: Store, items: seq<UserUpdate>, out: seq<Id>)
    requires w == s.(users := w.users)
    ensures UpdateUsersLoop(s, w, items, out) == UpdateUsersLoop(s, w, Keyed(items), out)
    decreases |items|
  {
    if items != [] {
      var u := items[0];
      if NoTarget(u) {
        UpdateUsersLoopKeyed(s, w, items[1..], out);
      } else {
        var rest := Keyed(items[1..]);
        assert Keyed(items) == [u] + rest;
        assert ([u] + rest)[0] == u && ([u] + rest)[1..] == rest;
        match UpdateTarget(w, u)
        case None =>
        case Some(t) => UpdateUsersLoopKeyed(s, PatchUser(w, t, u), items[1..], out + [t]);
      }
    }
  }

  /** Items without a target key have no effect at all: the call behaves
      as if they were not in the batch. */
  lemma UpdateUsersSkipsUntargeted(s: Store, items: seq<UserUpdate>)
    ensures UpdateUsers(s, items) == UpdateUsers(s, Keyed(items))
  {
    UpdateUsersLoopKeyed(s, s, items, []);
  }

  lemma {:induction false} UpdateUsersLoopMissing(s: Store, w: Store, items: seq<UserUpdate>, out: seq<Id>, k: nat)
    requires w == s.(users := w.users) && w.users.Keys == s.users.Keys
    requires k < |items| && !Given(items[k].phoneOld) && GivenInt(items[k].id)
    requires items[k].id.value !in s.users
    ensures UpdateUsersLoop(s, w, items, out) == Batch(s, Nothing)
    decreases |items|
  {
    var u := items[0];
    if NoTarget(u) {
      UpdateUsersLoopMissing(s, w, items[1..], out, k - 1);
    } else {
      match UpdateTarget(w, u)
      case None =>
      case Some(t) => UpdateUsersLoopMissing(s, PatchUser(w, t, u), items[1..], out + [t], k - 1);
    }
  }

  /** An item that names its user by an id no user has aborts the whole
      batch: None, and none of the edits is committed. */
  lemma UpdateUsersMissingAborts(s: Store, items: seq<UserUpdate>, k: nat)
    requires k < |items| && !Given(items[k].phoneOld) && GivenInt(items[k].id)
    requires items[k].id.value !in s.users
    ensures UpdateUsers(s, items) == Batch(s, Nothing)
  {
    UpdateUsersLoopMissing(s, s, items, [], k);
  }

  lemma {:induction false} UpdateUsersLoopTouches(s: Store, w: Store, items: seq<UserUpdate>, out: seq<Id>)
    requires w == s.(users := w.users) && w.users.Keys == s.users.Keys
    requires forall v :: v in w.users && v !in Elems(out) ==> w.users[v] == s.users[v]
    ensures var b := UpdateUsersLoop(s, w, items, out);
      b.reply.Done? ==>
        && b.store.users.Keys == s.users.Keys
        && forall v :: v in s.users && v !in Elems(b.reply.items) ==> b.store.users[v] == s.users[v]
    decreases |items|
  {
    if items != [] {
      var u := items[0];
      if NoTarget(u) {
        UpdateUsersLoopTouches(s, w, items[1..], out);
      } else {
        match UpdateTarget(w, u)
        case None =>
        case Some(t) =>
          assert Elems(out + [t]) == Elems(out) + {t};
          UpdateUsersLoopTouches(s, PatchUser(w, t, u), items[1..], out + [t]);
      }
    }
  }

  /** A committed update keeps the set of user ids, and every user the call
      does not return is unchanged. */
  lemma UpdateUsersTouchesListed(s: Store, items: seq<UserUpdate>)
    ensures var b := UpdateUsers(s, items);
      b.reply.Done? ==>
        && b.store.users.Keys == s.users.Keys
        && forall v :: v in s.users && v !in Elems(b.reply.items) ==> b.store.users[v] == s.users[v]
  {
    UpdateUsersLoopTouches(s, s, items, []);
  }

  lemma PatchUserKeeps(w: Store, t: Id, u: UserUpdate)
    requires t in w.users
    ensures RefsResolve(w) ==> RefsResolve(PatchUser(w, t, u))
    ensures FullyLinked(w) ==> FullyLinked(PatchUser(w, t, u))
  {
  }

  lemma {:induction false} UpdateUsersLoopKeeps(s: Store, w: Store, items: seq<UserUpdate>, out: seq<Id>)
    requires w == s.(users := w.users)
    requires Valid(s) && RefsResolve(w) && FullyLinked(s) && FullyLinked(w)
    ensures Valid(UpdateUsersLoop(s, w, items, out).store)
    ensures FullyLinked(UpdateUsersLoop(s, w, items, out).store)
    decreases |items|
  {
    if items != [] {
      var u := items[0];
      if NoTarget(u) {
        UpdateUsersLoopKeeps(s, w, items[1..], out);
      } else {
        var target := UpdateTarget(w, u);
        if target.Some? {
          var p := PatchUser(w, target.value, u);
          PatchUserKeeps(w, target.value, u);
          assert UpdateUsersLoop(s, w, items, out) == UpdateUsersLoop(s, p, items[1..], out + [target.value]);
          UpdateUsersLoopKeeps(s, p, items[1..], out + [target.value]);
        }
      }
    }
  }

  /** update_user keeps the store consistent: a role is only ever set to
      an existing one, and the commit refuses duplicate phones and usernames. */
  lemma UpdateUsersKeeps(s: Store, items: seq<UserUpdate>)
    requires Valid(s) && FullyLinked(s)
    ensures Valid(UpdateUsers(s, items).store)
    ensures FullyLinked(UpdateUsers(s, items).store)
  {
    UpdateUsersLoopKeeps(s, s, items, []);
  }

  // ---------------------------------------------------------------------
  // delete_user (db/crud.py:81-94)
  // ---------------------------------------------------------------------

  predicate NoUserKey(d: UserDelete) {
    !GivenInt(d.id) && !Given(d.username) && !Given(d.phone)
  }

  /** A keyless item returns None at once, discarding the staged deletes.
      A user that is not found makes `session.delete(None)` raise: the
      staged deletes are rolled back and the loop goes on, while the ids
      already appended stay in the returned list. */
  function DeleteUsersLoop(s: Store, w: Store, items: seq<UserDelete>, out: seq<Id>): (b: Batch<Id>)
    decreases |items|
    ensures !b.reply.Done? ==> b.store == s
  {
    if items == [] then Commit(s, w, out)
    else
      var d := items[0];
      if NoUserKey(d) then Batch(s, Nothing)
      else
        match GetUser(w, d.id, d.username, d.phone)
        case None => DeleteUsersLoop(s, s, items[1..], out)
        case Some(u) => DeleteUsersLoop(s, RemoveUser(w, u), items[1..], out + [u])
  }

  function DeleteUsers(s: Store, items: seq<UserDelete>): (b: Batch<Id>)
    ensures !b.reply.Done? ==> b.store == s
  {
    DeleteUsersLoop(s, s, items, [])
  }

  lemma {:induction false} DeleteUsersLoopKeyless(s: Store, w: Store, items: seq<UserDelete>, out: seq<Id>, k: nat)
    requires k < |items| && NoUserKey(items[k])
    ensures DeleteUsersLoop(s, w, items, out) == Batch(s, Nothing)
    decreases |items|
  {
    var d := items[0];
    if !NoUserKey(d) {
      match GetUser(w, d.id, d.username, d.phone)
      case None => DeleteUsersLoopKeyless(s, s, items[1..], out, k - 1);
      case Some(u) => DeleteUsersLoopKeyless(s, RemoveUser(w, u), items[1..], out + [u], k - 1);
    }
  }

  /** An item with no id, username or phone anywhere in the batch makes the
      call return None with nothing committed. */
  lemma DeleteUsersKeylessAborts(s: Store, items: seq<UserDelete>, k: nat)
    requires k < |items| && NoUserKey(items[k])
    ensures DeleteUsers(s, items) == Batch(s, Nothing)
  {
    DeleteUsersLoopKeyless(s, s, items, [], k);
  }

  lemma {:induction false} DeleteUsersLoopOut(s: Store, w: Store, items: seq<UserDelete>, out1: seq<Id>, out2: seq<Id>)
    ensures DeleteUsersLoop(s, w, items, out1).store == DeleteUsersLoop(s, w, items, out2).store
    ensures DeleteUsersLoop(s, w, items, out1).reply.Done? == DeleteUsersLoop(s, w, items, out2).reply.Done?
    decreases |items|
  {
    if items != [] {
      var d := items[0];
      if !NoUserKey(d) {
        match GetUser(w, d.id, d.username, d.phone)
        case None => DeleteUsersLoopOut(s, s, items[1..], out1, out2);
        case Some(u) => DeleteUsersLoopOut(s, RemoveUser(w, u), items[1..], out1 + [u], out2 + [u]);
      }
    }
  }

  /** The working store the loop holds after `items`, starting from `w`:
      a found user is staged for deletion, a miss rolls back to `s`. */
  function DeleteUsersStaged(s: Store, w: Store, items: seq<UserDelete>): (t: Store)
    decreases |items|
    ensures w.users.Keys <= s.users.Keys ==> t.users.Keys <= s.users.Keys
  {
    if items == [] then w
    else
      var d := items[0];
      if NoUserKey(d) then w
      else
        match GetUser(w, d.id, d.username, d.phone)
        case None => DeleteUsersStaged(s, s, items[1..])
        case Some(u) => DeleteUsersStaged(s, RemoveUser(w, u), items[1..])
  }

  /** Item `k` misses in the store the loop holds when it reaches it. */
  predicate DeleteUsersMissAt(s: Store, items: seq<UserDelete>, k: nat)
    requires k < |items|
  {
    var d := items[k];
    !NoUserKey(d) && GetUser(DeleteUsersStaged(s, s, items[..k]), d.id, d.username, d.phone).None?
  }

  lemma {:induction false} DeleteUsersLoopRestart(s: Store, w: Store, items: seq<UserDelete>, out: seq<Id>, k: nat)
    requires k < |items| && !NoUserKey(items[k])
    requires GetUser(DeleteUsersStaged(s, w, items[..k]), items[k].id, items[k].username, items[k].phone).None?
    requires forall j :: 0 <= j < k ==> !NoUserKey(items[j])
    ensures DeleteUsersLoop(s, w, items, out).store == DeleteUsers(s, items[k + 1..]).store
    ensures DeleteUsersLoop(s, w, items, out).reply.Done? == DeleteUsers(s, items[k + 1..]).reply.Done?
    decreases |items|
  {
    var d := items[0];
    if k == 0 {
      assert items[..0] == [];
      assert GetUser(w, d.id, d.username, d.phone).None?;
      DeleteUsersLoopOut(s, s, items[1..], out, []);
    } else {
      assert !NoUserKey(d);
      assert items[..k][0] == d;
      assert items[..k][1..] == items[1..][..k - 1];
      assert items[1..][k..] == items[k + 1..];
      assert forall j :: 0 <= j < k - 1 ==> items[1..][j] == items[j + 1];
      match GetUser(w, d.id, d.username, d.phone)
      case None =>
        DeleteUsersLoopRestart(s, s, items[1..], out, k - 1);
      case Some(u) =>
        DeleteUsersLoopRestart(s, RemoveUser(w, u), items[1..], out + [u], k - 1);
    }
  }

  /** An item that matches no user where the loop reaches it (by id, by
      username or by phone, or because an earlier item already deleted
      that user) rolls back every delete staged before it: the call ends
      as if the batch had started after that item. */
  lemma DeleteUsersMissRestarts(s: Store, items: seq<UserDelete>, k: nat)
    requires k < |items| && DeleteUsersMissAt(s, items, k)
    requires forall j :: 0 <= j < k ==> !NoUserKey(items[j])
    ensures DeleteUsers(s, items).store == DeleteUsers(s, items[k + 1..]).store
    ensures DeleteUsers(s, items).reply.Done? == DeleteUsers(s, items[k + 1..]).reply.Done?
  {
    DeleteUsersLoopRestart(s, s, items, [], k);
  }

  /** In particular an id that names no user of the starting store misses
      wherever it stands. */
  lemma DeleteUsersUnknownIdRestarts(s: Store, items: seq<UserDelete>, k: nat)
    requires k < |items| && GivenInt(items[k].id) && items[k].id.value !in s.users
    requires forall j :: 0 <= j < k ==> !NoUserKey(items[j])
    ensures DeleteUsers(s, items).store == DeleteUsers(s, items[k + 1..]).store
    ensures DeleteUsers(s, items).reply.Done? == DeleteUsers(s, items[k + 1..]).reply.Done?
  {
    var t := DeleteUsersStaged(s, s, items[..k]);
    assert items[k].id.value !in t.users;
    DeleteUsersMissRestarts(s, items, k);
  }

  /** So a batch whose last item misses commits nothing it deleted, and
      still answers with the ids it had deleted before. */
  lemma DeleteUsersLastMissKeepsAll(s: Store, items: seq<UserDelete>)
    requires KeysUnique(s) && items != []
    requires DeleteUsersMissAt(s, items, |items| - 1)
    requires forall j :: 0 <= j < |items| - 1 ==> !NoUserKey(items[j])
    ensures DeleteUsers(s, items).store == s
    ensures DeleteUsers(s, items).reply.Done?
  {
    DeleteUsersMissRestarts(s, items, |items| - 1);
    assert items[|items|..] == [];
  }

  /** Naming one user twice: the second item misses, so the delete is
      rolled back, yet the reply still lists the user as deleted. */
  lemma DeleteUsersRepeatedIdKeepsUser(s: Store, v: Id)
    requires KeysUnique(s) && v in s.users
    ensures var d := UserDelete(Some(v as int), None, None);
      DeleteUsers(s, [d, d]) == Batch(s, Done([v]))
  {
    var d := UserDelete(Some(v as int), None, None);
    assert GetUser(s, d.id, d.username, d.phone) == Some(v);
    var w := RemoveUser(s, v);
    assert GetUser(w, d.id, d.username, d.phone).None?;
    assert !NoUserKey(d);
    assert [d, d][0] == d && [d, d][1..] == [d];
    assert [d][0] == d && [d][1..] == [];
    assert DeleteUsersLoop(s, w, [d], [v]) == DeleteUsersLoop(s, s, [], [v]);
    var none: seq<Id> := [];
    assert none + [v] == [v];
    assert DeleteUsersLoop(s, s, [d, d], none) == DeleteUsersLoop(s, w, [d], [v]);
  }

  lemma {:induction false} DeleteUsersLoopRemoves(s: Store, w: Store, items: seq<UserDelete>, out: seq<Id>)
    requires w.users.Keys <= s.users.Keys && s.users.Keys - w.users.Keys <= Elems(out)
    requires forall v :: v in w.users ==> w.users[v] == s.users[v]
    requires w.achievements == s.achievements
    ensures var b := DeleteUsersLoop(s, w, items, out);
      b.reply.Done? ==>
        && b.store.users.Keys <= s.users.Keys
        && s.users.Keys - b.store.users.Keys <= Elems(b.reply.items)
        && (forall v :: v in b.store.users ==> b.store.users[v] == s.users[v])
        && b.store.achievements == s.achievements
    decreases |items|
  {
    if items != [] {
      var d := items[0];
      if !NoUserKey(d) {
        match GetUser(w, d.id, d.username, d.phone)
        case None => DeleteUsersLoopRemoves(s, s, items[1..], out);
        case Some(u) =>
          assert Elems(out + [u]) == Elems(out) + {u};
          DeleteUsersLoopRemoves(s, RemoveUser(w, u), items[1..], out + [u]);
      }
    }
  }

  /** A committed delete only removes users, and only users it lists; the
      remaining users and every achievement are untouched. */
  lemma DeleteUsersRemoves(s: Store, items: seq<UserDelete>)
    ensures var b := DeleteUsers(s, items);
      b.reply.Done? ==>
        && b.store.users.Keys <= s.users.Keys
        && s.users.Keys - b.store.users.Keys <= Elems(b.reply.items)
        && (forall v :: v in b.store.users ==> b.store.users[v] == s.users[v])
        && b.store.achievements == s.achievements
  {
    DeleteUsersLoopRemoves(s, s, items, []);
  }

  lemma {:induction false} DeleteUsersLoopKeeps(s: Store, w: Store, items: seq<UserDelete>, out: seq<Id>)
    requires Valid(s) && RefsResolve(w) && FullyLinked(s) && FullyLinked(w)
    ensures Valid(DeleteUsersLoop(s, w, items, out).store)
    ensures FullyLinked(DeleteUsersLoop(s, w, items, out).store)
    decreases |items|
  {
    if items != [] {
      var d := items[0];
      if !NoUserKey(d) {
        match GetUser(w, d.id, d.username, d.phone)
        case None => DeleteUsersLoopKeeps(s, s, items[1..], out);
        case Some(u) =>
          RemoveUserKeeps(w, u);
          DeleteUsersLoopKeeps(s, RemoveUser(w, u), items[1..], out + [u]);
      }
    }
  }

  lemma DeleteUsersKeeps(s: Store, items: seq<UserDelete>)
    requires Valid(s) && FullyLinked(s)
    ensures Valid(DeleteUsers(s, items).store)
    ensures FullyLinked(DeleteUsers(s, items).store)
  {
    DeleteUsersLoopKeeps(s, s, items, []);
  }

  // ---------------------------------------------------------------------
  // Achievement links: create_user_achievements, sync_users_achievements (db/crud.py:116-163)
  // ---------------------------------------------------------------------

  /** A locked link from user `u` to each of the achievements `ids`. */
  function LockedLinks(u: Id, ids: set<Id>): (m: map<AchievementKey, Unlock>)
    ensures forall k :: k in m <==> k.userId == u && k.achievementId in ids
    ensures forall k :: k in m ==> m[k] == Locked
  {
    map a | a in ids :: AchievementKey(u, a) := Locked
  }

  /** The achievements user `u` has no link to: every achievement id minus
      the ids the user's link rows join to. */
  function Missing(s: Store, u: Id): (m: set<Id>)
    ensures forall a :: a in m <==> a in s.achievements && AchievementKey(u, a) !in s.unlocks
  {
    s.achievements.Keys - LinkedAchievements(s, u)
  }

  /** The store after a sync, and the achievement ids it linked. */
  datatype Synced = Synced(store: Store, added: Option<set<Id>>)

  /** sync_users_achievements. A zero id makes the lookup return None,
      and iterating None raises; nothing missing returns None; a user that
      does not exist fails the foreign key at commit. Otherwise one locked
      link per missing achievement is committed. */
  function Sync(s: Store, u: int): (r: Synced)
    ensures r.added.None? ==> r.store == s
    ensures r.added.Some? ==> u in s.users && r.added.value == Missing(s, u) && r.added.value != {}
    ensures r.store == s.(unlocks := r.store.unlocks)
    ensures forall k :: k in s.unlocks ==> k in r.store.unlocks && r.store.unlocks[k] == s.unlocks[k]
    ensures r.added.Some? ==> forall k :: k in r.store.unlocks && k !in s.unlocks ==>
      k.userId == u && k.achievementId in r.added.value && r.store.unlocks[k] == Locked
    ensures u in s.users ==> forall a :: a in s.achievements ==> AchievementKey(u, a) in r.store.unlocks
  {
    if u == 0 then Synced(s, None)
    else
      var linked := if u >= 1 then LinkedAchievements(s, u as Id) else {};
      var missing := s.achievements.Keys - linked;
      if missing == {} then
        assert forall a :: a in s.achievements ==> a in linked by {
          forall a | a in s.achievements ensures a in linked {
            assert a !in missing;
          }
        }
        Synced(s, None)
      else if u !in s.users then Synced(s, None)
      else Synced(s.(unlocks := LockedLinks(u as Id, missing) + s.unlocks), Some(missing))
  }

  /** A second sync right after a first one finds nothing missing. */
  lemma SyncIdempotent(s: Store, u: int)
    ensures Sync(Sync(s, u).store, u) == Synced(Sync(s, u).store, None)
  {
    var t := Sync(s, u).store;
    if u != 0 && u in s.users {
      assert Missing(t, u) == {};
    } else if u != 0 && u >= 1 {
      assert t == s;
    }
  }

  lemma SyncKeeps(s: Store, u: int)
    ensures RefsResolve(s) ==> RefsResolve(Sync(s, u).store)
    ensures KeysUnique(s) ==> KeysUnique(Sync(s, u).store)
    ensures FullyLinked(s) ==> FullyLinked(Sync(s, u).store)
  {
    KeysUniqueFrame(s, Sync(s, u).store);
  }

  /** Sync applied to each user id in turn, in the order `us` lists them. */
  function SyncEach(s: Store, us: seq<int>): Store
    decreases |us|
  {
    if us == [] then s else SyncEach(Sync(s, us[0]).store, us[1..])
  }

  /** `t` is `s` with a locked link added for every pair of a user in `users`
      and an achievement that had none, and nothing else changed. */
  ghost predicate LinkedFrom(s: Store, t: Store, users: set<int>) {
    && t == s.(unlocks := t.unlocks)
    && (forall k :: k in t.unlocks <==>
          k in s.unlocks || (k.userId in users && k.userId in s.users && k.achievementId in s.achievements))
    && (forall k :: k in t.unlocks ==> t.unlocks[k] == if k in s.unlocks then s.unlocks[k] else Locked)
  }

  lemma LinkedFromUnique(s: Store, t1: Store, t2: Store, users: set<int>)
    requires LinkedFrom(s, t1, users) && LinkedFrom(s, t2, users)
    ensures t1 == t2
  {
    assert t1.unlocks == t2.unlocks;
  }

  /** One sync links exactly its own user. */
  lemma SyncLinks(s: Store, u: int)
    ensures LinkedFrom(s, Sync(s, u).store, {u})
  {
  }

  /** Links added in two rounds are the links added for both user sets. */
  lemma LinkedFromTrans(s: Store, t: Store, r: Store, a: set<int>, b: set<int>)
    requires LinkedFrom(s, t, a) && LinkedFrom(t, r, b)
    ensures LinkedFrom(s, r, a + b)
  {
    forall k | k in r.unlocks
      ensures r.unlocks[k] == if k in s.unlocks then s.unlocks[k] else Locked
    {
      if k in t.unlocks {
        assert r.unlocks[k] == t.unlocks[k];
      }
    }
  }

  lemma {:induction false} SyncEachLinks(s: Store, us: seq<int>)
    ensures LinkedFrom(s, SyncEach(s, us), set u | u in us)
    decreases |us|
  {
    if us != [] {
      var t := Sync(s, us[0]).store;
      SyncLinks(s, us[0]);
      SyncEachLinks(t, us[1..]);
      assert SyncEach(s, us) == SyncEach(t, us[1..]);
      LinkedFromTrans(s, t, SyncEach(t, us[1..]), {us[0]}, set u | u in us[1..]);
      assert (set u | u in us) == {us[0]} + (set u | u in us[1..]);
    } else {
      assert (set u | u in us) == {};
    }
  }

  /** Every pair of a user and an achievement. */
  function AllPairs(s: Store): set<AchievementKey> {
    set u, a | u in s.users && a in s.achievements :: AchievementKey(u, a)
  }

  /** The re-sync of every user after create_achievements, defined at once:
      a locked link for every missing (user, achievement) pair. */
  function SyncAll(s: Store): (t: Store)
    ensures FullyLinked(t)
    ensures LinkedFrom(s, t, s.users.Keys)
  {
    var added := map k | k in AllPairs(s) && k !in s.unlocks :: Locked;
    var t := s.(unlocks := s.unlocks + added);
    assert forall u, a :: u in s.users && a in s.achievements ==> AchievementKey(u, a) in AllPairs(s);
    t
  }

  /** Syncing the users one by one, in whatever order the user query
      returns them, gives the same store as SyncAll. */
  lemma SyncEachIsSyncAll(s: Store, us: seq<int>)
    requires forall u :: u in s.users <==> u in us
    ensures SyncEach(s, us) == SyncAll(s)
  {
    SyncEachLinks(s, us);
    var t := SyncEach(s, us);
    assert LinkedFrom(s, t, s.users.Keys);
    LinkedFromUnique(s, t, SyncAll(s), s.users.Keys);
  }

  lemma SyncAllKeeps(s: Store)
    ensures RefsResolve(s) ==> RefsResolve(SyncAll(s))
    ensures KeysUnique(s) ==> KeysUnique(SyncAll(s))
  {
    KeysUniqueFrame(s, SyncAll(s));
  }

  // ---------------------------------------------------------------------
  // create_user (db/crud.py:188-212)
  // ---------------------------------------------------------------------

  /** create_user_achievements: a locked link from user `u` to every
      achievement, nothing else changed. */
  function LinkUser(w: Store, u: Id): (t: Store)
    ensures t == w.(unlocks := t.unlocks)
    ensures forall k :: k in t.unlocks <==> k in w.unlocks || (k.userId == u && k.achievementId in w.achievements)
    ensures forall k :: k in w.unlocks ==> t.unlocks[k] == w.unlocks[k]
  {
    w.(unlocks := LockedLinks(u, w.achievements.Keys) + w.unlocks)
  }

  lemma LinkUserKeeps(w: Store, u: Id)
    requires u in w.users
    ensures RefsResolve(w) ==> RefsResolve(LinkUser(w, u))
    ensures KeysUnique(w) ==> KeysUnique(LinkUser(w, u))
    ensures FullyLinked(LinkUser(w, u)) <==>
      forall v, a :: v in w.users && v != u && a in w.achievements ==> AchievementKey(v, a) in w.unlocks
  {
    var t := LinkUser(w, u);
    assert UserPhones(t) == UserPhones(w) && UserNames(t) == UserNames(w);
    assert CourierPhones(t) == CourierPhones(w) && CourierNames(t) == CourierNames(w);
    assert Titles(t) == Titles(w);
  }

  function NewUser(d: UserCreate, role: Id): User {
    User(d.phone, d.username, d.name, d.surname, d.birthday, d.password, Some(role))
  }

  /** Every field the create payload names is stored as given. */
  predicate Carries(x: User, d: UserCreate) {
    && x.phone == d.phone && x.username == d.username && x.name == d.name
    && x.surname == d.surname && x.birthday == d.birthday && x.password == d.password
  }

  /** create_user: a missing "basic_user" role makes `[0]` raise; the commit
      of the user refuses duplicate phones and usernames. After that commit,
      create_user_achievements finds the user by phone and commits a locked
      link to every achievement; if the phone finds nobody it raises, and
      the call returns None with the user already committed. */
  function CreateUser(s: Store, d: UserCreate): (b: Batch<Id>)
    ensures FirstNamed(s.roles, BasicUser).None? ==> b == Batch(s, Nothing)
    ensures b.reply.Done? ==> b.reply.items == [s.nextId]
    ensures b.reply.Done? ==> s.nextId in b.store.users && b.store.users[s.nextId].phone == d.phone
    ensures b.reply.Done? ==> var r := b.store.users[s.nextId].roleId;
      r.Some? && r.value in b.store.roles && b.store.roles[r.value] == BasicUser
    ensures b.reply.Done? ==> forall a :: a in s.achievements ==> AchievementKey(s.nextId, a) in b.store.unlocks
    ensures b.reply.Done? || b.store == s || d.phone == ""
    ensures b.reply.Done? ==> Carries(b.store.users[s.nextId], d)
    ensures b.reply.Done? ==> b.store.users[s.nextId].roleId == FirstNamed(s.roles, BasicUser)
    ensures b.reply.Done? ==> b.store.users == s.users[s.nextId := b.store.users[s.nextId]]
    ensures b.reply.Done? ==> b.store == s.(users := b.store.users, unlocks := b.store.unlocks, nextId := s.nextId + 1)
  {
    match FirstNamed(s.roles, BasicUser)
    case None => Batch(s, Nothing)
    case Some(r) =>
      var u := s.nextId;
      var w := s.(users := s.users[u := NewUser(d, r)], nextId := u + 1);
      if !KeysUnique(w) then Batch(s, Nothing)
      else LinkByPhone(w, u)
  }

  /** create_user_achievements(phone) right after the user `u` is
      committed: the phone finds `u` unless it is empty. */
  function LinkByPhone(w: Store, u: Id): (b: Batch<Id>)
    requires KeysUnique(w) && u in w.users
    ensures w.users[u].phone == "" ==> b == Batch(w, Nothing)
    ensures w.users[u].phone != "" ==> b == Batch(LinkUser(w, u), Done([u]))
  {
    PhoneFindsOwner(w, u);
    match GetUser(w, None, None, Some(w.users[u].phone))
    case None => Batch(w, Nothing)
    case Some(v) => Batch(LinkUser(w, v), Done([u]))
  }

  /** Under unique phones, the phone of user `u` finds `u` whenever it finds anyone. */
  lemma PhoneFindsOwner(w: Store, u: Id)
    requires KeysUnique(w) && u in w.users
    ensures GetUser(w, None, None, Some(w.users[u].phone)) ==
      if w.users[u].phone != "" then Some(u) else None
  {
    if w.users[u].phone != "" {
      PhoneFindsUser(w, u);
    }
  }

  /** A phone or username another user already has makes create_user
      return None and store nothing. */
  lemma CreateUserDuplicate(s: Store, d: UserCreate, v: Id)
    requires IdsDrawn(s) && v in s.users
    requires s.users[v].phone == d.phone || (d.username.Some? && s.users[v].username == d.username)
    ensures CreateUser(s, d) == Batch(s, Nothing)
  {
    var r := FirstNamed(s.roles, BasicUser);
    if r.Some? {
      var u := s.nextId;
      var w := s.(users := s.users[u := NewUser(d, r.value)], nextId := u + 1);
      assert v != u;
      if s.users[v].phone == d.phone {
        assert UserPhones(w)[v] == UserPhones(w)[u];
      } else {
        assert UserNames(w)[v] == UserNames(w)[u];
      }
    }
  }

  lemma CreateUserStaged(s: Store, d: UserCreate, r: Id)
    requires Valid(s) && r in s.roles
    ensures var w := s.(users := s.users[s.nextId := NewUser(d, r)], nextId := s.nextId + 1);
      RefsResolve(w) && (FullyLinked(s) ==>
        forall v, a :: v in w.users && v != s.nextId && a in w.achievements ==> AchievementKey(v, a) in w.unlocks)
  {
  }

  /** create_user keeps the store consistent, and, for a non-empty phone,
      leaves every user linked to every achievement. */
  lemma CreateUserKeeps(s: Store, d: UserCreate)
    requires Valid(s)
    ensures Valid(CreateUser(s, d).store)
    ensures FullyLinked(s) && d.phone != "" ==> FullyLinked(CreateUser(s, d).store)
  {
    var r := FirstNamed(s.roles, BasicUser);
    if r.Some? {
      var u := s.nextId;
      var w := s.(users := s.users[u := NewUser(d, r.value)], nextId := u + 1);
      assert CreateUser(s, d) == if KeysUnique(w) then LinkByPhone(w, u) else Batch(s, Nothing);
      CreateUserStaged(s, d, r.value);
      if KeysUnique(w) {
        CreateUserLinks(w, u, FullyLinked(s));
      }
    }
  }

  /** The link step keeps a consistent staged store consistent and, when
      every other user was fully linked, links everyone. */
  lemma CreateUserLinks(w: Store, u: Id, linked: bool)
    requires RefsResolve(w) && KeysUnique(w) && u in w.users
    requires linked ==>
      forall v, a :: v in w.users && v != u && a in w.achievements ==> AchievementKey(v, a) in w.unlocks
    ensures Valid(LinkByPhone(w, u).store)
    ensures linked && w.users[u].phone != "" ==> FullyLinked(LinkByPhone(w, u).store)
  {
    if w.users[u].phone == "" {
      assert LinkByPhone(w, u).store == w;
    } else {
      var t := LinkUser(w, u);
      assert LinkByPhone(w, u).store == t;
      LinkUserKeeps(w, u);
      assert RefsResolve(t) && KeysUnique(t);
    }
  }

  // ---------------------------------------------------------------------
  // update_users_achievements (db/crud.py:166-185)
  // ---------------------------------------------------------------------

  /** The link an item names, when both ids can be ids. */
  function LinkKey(it: UnlockUpdate): Option<AchievementKey> {
    if it.userId >= 1 && it.achievementId >= 1 then Some(AchievementKey(it.userId as Id, it.achievementId as Id))
    else None
  }

  /** An item whose link does not exist is skipped; otherwise the link takes
      the item's flag and date. */
  function UnlockLoop(s: Store, w: Store, items: seq<UnlockUpdate>, out: seq<AchievementKey>)
    : (b: Batch<AchievementKey>)
    requires w == s.(unlocks := w.unlocks) && w.unlocks.Keys == s.unlocks.Keys
    decreases |items|
    ensures !b.reply.Done? ==> b.store == s
    ensures b.store == s.(unlocks := b.store.unlocks) && b.store.unlocks.Keys == s.unlocks.Keys
  {
    if items == [] then Commit(s, w, out)
    else
      var it := items[0];
      match LinkKey(it)
      case Some(k) =>
        if k in w.unlocks then
          UnlockLoop(s, w.(unlocks := w.unlocks[k := Unlock(Some(it.unlockDate), it.unlocked)]), items[1..], out + [k])
        else UnlockLoop(s, w, items[1..], out)
      case None => UnlockLoop(s, w, items[1..], out)
  }

  /** update_users_achievements never adds or removes a link and touches
      no other table. */
  function UpdateUnlocks(s: Store, items: seq<UnlockUpdate>): (b: Batch<AchievementKey>)
    ensures !b.reply.Done? ==> b.store == s
    ensures b.store == s.(unlocks := b.store.unlocks) && b.store.unlocks.Keys == s.unlocks.Keys
  {
    UnlockLoop(s, s, items, [])
  }

  /** A committed batch left every link it returns unlocked with a date,
      and every other link as it was in `s`. */
  predicate UnlocksListed(s: Store, b: Batch<AchievementKey>) {
    b.reply.Done? ==>
      && (forall k :: k in b.store.unlocks && k !in b.reply.items ==> k in s.unlocks && b.store.unlocks[k] == s.unlocks[k])
      && (forall k :: k in b.reply.items ==>
            k in b.store.unlocks && b.store.unlocks[k].unlocked && b.store.unlocks[k].unlockDate.Some?)
  }

  lemma {:induction false} UnlockLoopUnlocks(s: Store, w: Store, items: seq<UnlockUpdate>, out: seq<AchievementKey>)
    requires w == s.(unlocks := w.unlocks) && w.unlocks.Keys == s.unlocks.Keys
    requires forall j :: 0 <= j < |items| ==> items[j].unlocked
    requires forall k :: k in w.unlocks && k !in out ==> w.unlocks[k] == s.unlocks[k]
    requires forall k :: k in out ==> k in w.unlocks && w.unlocks[k].unlocked && w.unlocks[k].unlockDate.Some?
    ensures UnlocksListed(s, UnlockLoop(s, w, items, out))
    decreases |items|
  {
    if items != [] {
      var it := items[0];
      var rest := items[1..];
      assert forall j :: 0 <= j < |rest| ==> rest[j] == items[j + 1];
      var key := LinkKey(it);
      if key.Some? && key.value in w.unlocks {
        var k := key.value;
        var w' := w.(unlocks := w.unlocks[k := Unlock(Some(it.unlockDate), it.unlocked)]);
        assert UnlockLoop(s, w, items, out) == UnlockLoop(s, w', rest, out + [k]);
        assert forall k' :: k' in out + [k] <==> k' in out || k' == k;
        UnlockLoopUnlocks(s, w', rest, out + [k]);
      } else {
        var b := UnlockLoop(s, w, rest, out);
        assert UnlockLoop(s, w, items, out) == b;
        UnlockLoopUnlocks(s, w, rest, out);
      }
    }
  }

  /** With validated items (each an unlock), a committed update leaves
      every link it names unlocked with a date and every other link as it
      was. */
  lemma UpdateUnlocksOnlyUnlocks(s: Store, items: seq<UnlockUpdate>)
    requires forall j :: 0 <= j < |items| ==> items[j].unlocked
    ensures var b := UpdateUnlocks(s, items);
      b.reply.Done? ==>
        && (forall k :: k in b.store.unlocks && k !in b.reply.items ==> b.store.unlocks[k] == s.unlocks[k])
        && (forall k :: k in b.reply.items ==>
              k in b.store.unlocks && b.store.unlocks[k].unlocked && b.store.unlocks[k].unlockDate.Some?)
  {
    UnlockLoopUnlocks(s, s, items, []);
  }

  lemma UpdateUnlocksKeeps(s: Store, items: seq<UnlockUpdate>)
    requires Valid(s) && FullyLinked(s)
    ensures Valid(UpdateUnlocks(s, items).store)
    ensures FullyLinked(UpdateUnlocks(s, items).store)
  {
    var t := UpdateUnlocks(s, items).store;
    assert UserPhones(t) == UserPhones(s) && UserNames(t) == UserNames(s);
    assert CourierPhones(t) == CourierPhones(s) && CourierNames(t) == CourierNames(s);
    assert Titles(t) == Titles(s);
  }
}

=== FILE: wrappers.dfy ===
/** Optional values, Python truthiness of optional request fields, and the
    least element of a non-empty id set (the row an unordered query returns first). */
module Wrappers {

  /** `None` stands for a field the caller left out (or set to null). */
  datatype Option<+T> = None | Some(value: T) {

    /** Returns the value in Some, or the default when None. */
    function GetOr(default: T): T {
      match this
      case Some(v) => v
      case None => default
    }
  }

  /** Python truthiness of an optional string: present and not empty. */
  predicate Given(o: Option<string>) {
    o.Some? && o.value != ""
  }

  /** Python truthiness of an optional integer: present and not zero. */
  predicate GivenInt(o: Option<int>) {
    o.Some? && o.value != 0
  }

  /** The elements of a sequence, as a set (the ids a batch returns). */
  function Elems<T>(xs: seq<T>): set<T> {
    set x | x in xs
  }

  /** A set with no members is the empty set. */
  lemma NoMemberIsEmpty(s: set<int>)
    requires forall x :: x !in s
    ensures s == {}
  {
    assert forall x :: x in s <==> x in {};
  }

  lemma HasMember(s: set<int>)
    requires s != {}
    ensures exists x :: x in s
  {
    if forall x :: x !in s {
      NoMemberIsEmpty(s);
    }
  }

  predicate IsLeast(m: int, s: set<int>) {
    m in s && forall y :: y in s ==> m <= y
  }

  lemma LeastExists(s: set<int>)
    requires s != {}
    ensures exists m :: IsLeast(m, s)
  {
    HasMember(s);
    var x :| x in s;
    if s == {x} {
      assert IsLeast(x, s);
    } else {
      var r := s - {x};
      LeastExists(r);
      var m :| IsLeast(m, r);
      var least := if x < m then x else m;
      forall y | y in s
        ensures least <= y
      {
        if y != x {
          assert y in r;
        }
      }
      assert IsLeast(least, s);
    }
  }

  /** The smallest element of a non-empty set: the row an unordered query
      is taken to return first. */
  function Least(s: set<int>): (m: int)
    requires s != {}
    ensures m in s
    ensures forall y :: y in s ==> m <= y
  {
    LeastExists(s);
    var m :| IsLeast(m, s);
    m
  }
}
